=== FILE: README.md ===
# Account advisor: a Dafny model

This project models the account-advisor core of an Instagram analytics
app. Given a signed-in user, a window of 30, 60 or 90 days and a goal, the
`POST /api/account/prompt-input` handler reads three tables: the user's videos,
the metric snapshots (`metrics_logs`) of those videos, and the daily
`account_insights` rows. The engine `buildAccountInputJson` reduces them to
one input document. That document holds:

- an account summary;
- a content overview: length buckets, posting-hour buckets and manual-input counters;
- goal-driven scores per video;
- three benchmark cohorts: the ten most recent videos, the top quartile and the bottom quartile, each with null-skipping means;
- the most frequent analysis-tag pairs of the top and bottom cohorts;
- sample videos;
- advisory data warnings.

`buildAccountPromptText` pastes the serialised document into a fixed consultant
prompt.

Two dashboard components are also modelled. Each draws an early-growth chart:

- the latest video's metric at 0, 3, 6, 12, 24, 48 and 72 hours after posting;
- against the rounded per-hour average of the earlier videos.

Each also derives a badge from the last hour at which both numbers exist.

Modules, in dependency order:

- `Js`: the runtime behaviour the code relies on:
  - finite/null/non-finite numbers;
  - `Math.round` and `roundTo`;
  - `trim`;
  - `indexOf`;
  - `replace` with a string pattern, including `$` substitution patterns;
  - `slice`;
  - decimal rendering of integers.
- `NumberParsing`: `Number()` applied to a string.
- `Database`: the rows the engine consumes.
- `LatestMetricsReducer`: `buildLatestMetricsMap`.
- `GoalScoring`: `safeRate`, `pickScoreValue`, `buildAggregates`, `chooseBenchmarkMetric`.
- `AggregateStats`: `avgOrNull`, `buildAggregateStats`.
- `StableSort`: the stable `Array.prototype.sort` used with key comparators.
- `Cohorts`: scored, sorted, quartile and recent cohorts.
- `TagInsights`: `buildTagInsights` / `buildCategory`.
- `AccountDocument`: `buildAccountInputJson`, the content tally, the account summary, samples and warnings.
- `PromptText`: `ACCOUNT_PROMPT_TEMPLATE`, `buildAccountPromptText`.
- `PromptRequest`: the route handler.
- `Timepoints`: `buildTimepointMetrics` and the charts' shared `useMemo`.
- `HeroAnalysis`: the dashboard badge.
- `HeroComparison`: the comparison chart's status.

Points where the behaviour is easy to misread:

- **Invalid request fields.** Request fields outside the enumerated options get the defaults (30 days, `followers`, `stable_growth`, no secondary goals); they are not rejected. `PromptRequest.ParamsOf` models the defaults.
- **The not-done count.** It counts every video whose `manual_input_done` flag is not truthy, so a null flag counts as not done. `AccountDocument.Meets` with `ManualDone(false)` models that.
- **The bottom quartile.** It is built by sorting the scored videos ascending and taking the first `quartileCount`.
- **The prompt.** The handler builds the prompt with `buildAccountPromptText`, whose `replace` call expands `$` patterns in the serialised document; the model's response carries that prompt (see Findings).

## Model

| member | source | states |
|---|---|---|
| Js.Round | lib/account-prompt.ts:102-105 | Math.round gives the integer within (x - 1/2, x + 1/2], halves rounding up |
| Js.RoundTo4 | lib/account-prompt.ts:102-105 | roundTo(x, 4) lies within half of 10^-4 of x and is a whole multiple of 10^-4 |
| Js.Trim | lib/account-prompt.ts:138-144 | trim leaves no white space at either end, is empty exactly when the string is all white space, and is the slice of the string between its leading and trailing white space |
| Js.IndexOfFrom | lib/account-prompt.ts:513-516 | the search finds the first occurrence at or after the start, and None means no occurrence |
| Js.SubstitutionVerbatim | lib/account-prompt.ts:513-516 | a replacement without `$` is inserted unchanged |
| Js.SubstitutionOfMatch | lib/account-prompt.ts:513-516 | the replacement `$&` inserts the matched text |
| Js.SubstitutionPlainPrefix | lib/account-prompt.ts:513-516 | text without `$` at the front of a replacement is copied, and the rest is expanded on its own |
| Js.SubstitutionOfEmbeddedMatch | lib/account-prompt.ts:513-516 | a replacement holding one `$&` and no other `$` gets the matched text in place of those two characters |
| Js.Replace | lib/account-prompt.ts:513-516 | replace leaves a string without the pattern unchanged |
| Js.SliceTo | lib/account-prompt.ts:419 | slice(0, n) is the prefix of length min(n, length) |
| Js.Map | lib/account-prompt.ts:403-408 | map keeps the length and applies the function at every index |
| Js.NatTextRoundTrip | components/dashboard/hero-analysis.tsx:62-65 | the decimal text of a natural number reads back to that number |
| Js.IntText | components/dashboard/hero-analysis.tsx:62-65 | an integer's text is non-empty and starts with `-` exactly when the integer is negative |
| NumberParsing.RadixDigit | app/api/account/prompt-input/route.ts:35 | a character's digit value is below 36, and a decimal digit has its usual value |
| NumberParsing.DigitsValue | app/api/account/prompt-input/route.ts:35 | a run of digits has a value exactly when it is non-empty and every character is a digit of the base |
| NumberParsing.DecimalDigitsValue | app/api/account/prompt-input/route.ts:35 | decimal digits read in base 10 give their decimal value |
| NumberParsing.FindChar | app/api/account/prompt-input/route.ts:35 | the index found is the first character in the set, and None means no such character |
| NumberParsing.MantissaValue | app/api/account/prompt-input/route.ts:35 | a mantissa's value is never negative |
| NumberParsing.UnsignedDecimal | app/api/account/prompt-input/route.ts:35 | an unsigned decimal literal is never negative |
| NumberParsing.TrimmedToNumber | app/api/account/prompt-input/route.ts:35 | an empty text is 0, and a text starting with `-` is never positive |
| NumberParsing.StringToNumber | app/api/account/prompt-input/route.ts:35 | Number() of a string is never null, and is 0 for an all-white-space string |
| NumberParsing.TrimKeeps | app/api/account/prompt-input/route.ts:35 | a text with no white space at either end is its own trim |
| NumberParsing.NatTextNumber | app/api/account/prompt-input/route.ts:35 | Number(String(n)) is n for every natural n |
| NumberParsing.IntTextNumber | app/api/account/prompt-input/route.ts:35 | Number(String(i)) is i for every integer i |
| NumberParsing.PlusNatTextNumber | app/api/account/prompt-input/route.ts:35 | a leading `+` changes nothing |
| NumberParsing.ZeroFractionNumber | app/api/account/prompt-input/route.ts:35 | a fraction of zeros changes nothing |
| NumberParsing.ExponentNumber | app/api/account/prompt-input/route.ts:35 | `m` `e` `k` reads as m times ten to the k |
| NumberParsing.RadixNumber | app/api/account/prompt-input/route.ts:35 | `0x`, `0o` and `0b` read the digits after them in base 16, 8 and 2 |
| LatestMetricsReducer.BuildLatestMetricsMap | lib/account-prompt.ts:168-188 | the reducer loop ends with the map that the per-log update function defines |
| LatestMetricsReducer.LatestMapKeys | lib/account-prompt.ts:168-188 | a video has an entry exactly when its id is non-empty and some log names it |
| LatestMetricsReducer.LatestComesFromLog | lib/account-prompt.ts:168-188 | every entry is the snapshot of one of that video's logs |
| LatestMetricsReducer.LatestIsFirstOfLatestDate | lib/account-prompt.ts:175-184 | with parsable dates, the entry is the first log carrying the latest date |
| LatestMetricsReducer.UndatedLatestIsLast | lib/account-prompt.ts:175-184 | when none of a video's dates parse, its last log wins |
| GoalScoring.SafeRate | lib/account-prompt.ts:113-118 | the rate is null unless both operands are finite and the denominator is non-zero; otherwise it is the quotient to 4 decimals (a whole multiple of 10^-4 within half of 10^-4 of it), and non-negative for non-negative inputs |
| GoalScoring.FirstAvailable | lib/account-prompt.ts:220-251 | reference fallback chain: no metric exactly when every source is empty, else the first source holding a number |
| GoalScoring.PickScoreValue | lib/account-prompt.ts:220-251 | the scorer's if-chain equals the reference fallback chain of the goal |
| GoalScoring.ChooseBenchmarkMetric | lib/account-prompt.ts:190-218 | the benchmark metric is the earliest chain metric some aggregate was scored with, and null exactly when none was |
| GoalScoring.BuildAggregates | lib/account-prompt.ts:253-275 | one aggregate per video, in order |
| GoalScoring.AggregatesScoredFromChain | lib/account-prompt.ts:253-275 | each aggregate keeps its video and snapshot, has a metric iff it has a score, and is scored from the goal's chain |
| GoalScoring.BenchmarkAbsentIffUnscored | lib/account-prompt.ts:433 | the benchmark metric is null exactly when no video could be scored |
| AggregateStats.Finites | lib/account-prompt.ts:107-111 | the filter keeps only finite values of the input and is empty exactly when none is finite |
| AggregateStats.FinitesAppend | lib/account-prompt.ts:107-111 | the filter distributes over concatenation |
| AggregateStats.FinitesSingleton | lib/account-prompt.ts:107-111 | a single value is kept exactly when it is finite |
| AggregateStats.AvgSkipsNonFinite | lib/account-prompt.ts:107-111 | inserting a null or non-finite value anywhere leaves the mean unchanged |
| AggregateStats.AvgOrNull | lib/account-prompt.ts:107-111 | the mean is null exactly when no value is finite; otherwise it times the number of finite values is their sum |
| AggregateStats.AvgWithin | lib/account-prompt.ts:107-111 | the mean lies within any bounds that all finite values respect |
| AggregateStats.StatsFieldIsColumnMean | lib/account-prompt.ts:277-295 | every stats field is the null-skipping mean of that field's column |
| AggregateStats.StatsFieldNullIffNoValue | lib/account-prompt.ts:277-295 | a field is null exactly when no item has a finite value there, so every field of an empty cohort is null |
| AggregateStats.StatsFieldWithin | lib/account-prompt.ts:277-295 | a field's mean lies within the bounds of its column |
| StableSort.SortIsSorted | lib/account-prompt.ts:422-424 | the comparator sort orders by descending key |
| StableSort.SortIsStable | lib/account-prompt.ts:422-424 | elements with equal keys keep their input order |
| StableSort.SortDesc | lib/account-prompt.ts:422-424 | the sort is a permutation of its input |
| StableSort.SortHeadIsFirstLargest | lib/account-prompt.ts:386-391 | the head is the first input element carrying the largest key |
| Cohorts.Scored | lib/account-prompt.ts:421 | the scored list holds exactly the aggregates with a score |
| Cohorts.ScoredAppend | lib/account-prompt.ts:421 | the scored filter distributes over concatenation |
| Cohorts.ScoredSingleton | lib/account-prompt.ts:421 | a single aggregate is kept exactly when it has a score |
| Cohorts.QuartileCount | lib/account-prompt.ts:425-427 | the count is 0 only for no videos, never exceeds n, and is n/4 rounded for n >= 2 |
| Cohorts.TopQuartileSpec | lib/account-prompt.ts:422-428 | the top quartile has quartileCount scored videos, by descending score, none below a video left out; of the videos sharing a score it keeps the first ones in input order |
| Cohorts.BottomQuartileSpec | lib/account-prompt.ts:429-431 | the bottom quartile has quartileCount scored videos, by ascending score, none above a video left out; the ascending order keeps videos of equal score in input order, and of the videos sharing a score the quartile keeps the first ones in input order |
| Cohorts.AscendingKeepsTies | lib/account-prompt.ts:429-431 | the ascending re-sort keeps equal scores in their order, and any prefix of it keeps the first of them |
| Cohorts.ScoredTiesKeepInputOrder | lib/account-prompt.ts:422-424 | scored videos with equal scores keep their input order |
| Cohorts.Recent10Spec | lib/account-prompt.ts:414-419 | recent10 has min(10, n) videos, newest first, none older than a video left out; videos with equal posting time (every undated one reads as 0) stay in input order, and of them the first ones are kept |
| TagInsights.TagFieldsWellFormed | lib/account-prompt.ts:69-90 | field names are distinct within a section and contain no colon |
| TagInsights.TagKeyInjective | lib/account-prompt.ts:309 | a `field::value` key determines its field and value |
| TagInsights.SplitTagKey | lib/account-prompt.ts:313-317 | splitting a key on `::` gives back its field, and its value when the value has no colon |
| TagInsights.SectionKeysHasField | lib/account-prompt.ts:305-311 | every present field contributes its key, and a boolean contributes `true` or `false` |
| TagInsights.SectionKeysDistinct | lib/account-prompt.ts:305-311 | one section never contributes a key twice |
| TagInsights.IncrementWellFormed | lib/account-prompt.ts:310 | counting a key adds one to that key only, keeps keys distinct, and appends a new key |
| TagInsights.TallySpec | lib/account-prompt.ts:300-312 | the counts record holds every visited key once, with its number of visits |
| TagInsights.TallyKeysInFirstOrder | lib/account-prompt.ts:310 | the record's keys are the visited keys deduplicated in first-visit order |
| TagInsights.CountSection | lib/account-prompt.ts:303-311 | the per-field loop extends the record with the section's keys |
| TagInsights.CountItem | lib/account-prompt.ts:301-311 | one video's fields are counted into the record |
| TagInsights.BuildCategory | lib/account-prompt.ts:298-320 | the counting loop followed by sort and slice gives the category's insights |
| TagInsights.CohortKeyCountBound | lib/account-prompt.ts:300-312 | no key is counted more often than there are videos |
| TagInsights.CohortKeysEmpty | lib/account-prompt.ts:300-312 | a cohort yields no key exactly when none of its videos sets a field of the section |
| TagInsights.CategoryInsightsSpec | lib/account-prompt.ts:298-320 | min(5, number of distinct keys) lines by non-increasing count; each line is the split of a counted entry, drawn without repetition from the entries, and each entry's count is its key's number of occurrences in the cohort; an entry whose line is left out counts no more than the fifth line, so fewer than five lines means none is left out; the record lists keys in first-visit order, and of the lines sharing a count those first in the record are kept; counts lie in [1, cohort size]; fields are section fields; the list is empty iff no field is set |
| TagInsights.KeptLinesSorted | lib/account-prompt.ts:318-319 | the kept lines number min(5, entries) and run by non-increasing count |
| TagInsights.KeptLinesCounted | lib/account-prompt.ts:299-319 | each kept line is an entry's line, and each entry counts its key's occurrences |
| TagInsights.KeptLinesAreTop | lib/account-prompt.ts:313-319 | the kept lines are a sub-multiset of all lines; an entry left out counts no more than the fifth kept line; of the lines sharing a count those first in the record are kept |
| TagInsights.KeptLinesInSection | lib/account-prompt.ts:305-319 | every kept line names a section field and counts between 1 and the cohort size |
| TagInsights.NoLinesIffNoKeys | lib/account-prompt.ts:300-319 | a section has no line exactly when no video sets one of its fields |
| StableSort.KeyFilterAppend | lib/account-prompt.ts:422-424 | taking the elements with one key works element by element over concatenation |
| StableSort.PrefixKeepsFirstTies | lib/account-prompt.ts:422-424 | for every key the sort keeps the input order, and a prefix of the sort keeps the first elements with that key |
| StableSort.TopOfSorted | lib/account-prompt.ts:318-319 | the first n of the sorted input are a sub-multiset of it, and every element left out has a key no larger than the n-th kept |
| TagInsights.BuildTagInsights | lib/account-prompt.ts:297-328 | each section's insights come from that section's counting |
| TagInsights.NoTagsNoInsights | lib/account-prompt.ts:297-328 | a cohort without analysis tags gives no insight in any section |
| AccountDocument.CountMeeting | lib/account-prompt.ts:366-384 | a bucket never counts more videos than exist |
| AccountDocument.LengthCounts.Bump | lib/account-prompt.ts:369-372 | the bumped bucket goes up by one and the others stay |
| AccountDocument.CountVideo | lib/account-prompt.ts:366-384 | one iteration raises exactly the buckets the video meets |
| AccountDocument.TallyContent | lib/account-prompt.ts:361-384 | the loop's counters equal the per-bucket counts of the videos |
| AccountDocument.ManualCoverageTotal | lib/account-prompt.ts:379-383 | every video is counted exactly once as done or not done |
| AccountDocument.HourBucketsCountPosted | lib/account-prompt.ts:374-378 | the hour buckets together count every video whose posting time parses |
| AccountDocument.LengthBucketsBound | lib/account-prompt.ts:368-373 | the three length buckets together count at most every video |
| AccountDocument.LatestInsightIsNewest | lib/account-prompt.ts:386-391 | the latest insight row is the first one carrying the newest date |
| AccountDocument.NewestRowExists | lib/account-prompt.ts:386-391 | every non-empty window has a newest row |
| AccountDocument.LatestIsNewestRow | lib/account-prompt.ts:386-391 | there is a latest row exactly when there are rows, and it is the newest row |
| AccountDocument.LatestFigures | lib/account-prompt.ts:395-402 | each latest figure is the latest row's, or null without a row |
| AccountDocument.AudienceOf | lib/account-prompt.ts:409 | the audience data is the latest row's, or `{}` when the row, the value or the JSON value is null |
| AccountDocument.AccountSummaryOf | lib/account-prompt.ts:386-411 | the latest figures and audience data are the newest row's (null figures and `{}` without rows; `{}` for a null audience value); each average is the null-skipping mean of its column, null exactly when the column has no finite value |
| AccountDocument.ColumnAvgWithin | lib/account-prompt.ts:403-408 | each summary average lies within any bounds its column's finite values respect |
| AccountDocument.TruncateCaption | lib/account-prompt.ts:138-144 | null for a blank caption; otherwise the trimmed caption, cut to 80 characters plus `...` |
| AccountDocument.BuildSample | lib/account-prompt.ts:330-352 | a sample keeps the video's id, posting time, truncated caption, manual metrics, rates, analysis tags and self score; its latest metrics are the snapshot's views, likes, saves and comments, or all null without a snapshot |
| AccountDocument.CollectWarnings | lib/account-prompt.ts:462-478 | the pushes give the warning list that the warning function defines |
| AccountDocument.RatioThreshold | lib/account-prompt.ts:458-461 | a ratio threshold is the whole-number comparison den·count >= num·total |
| AccountDocument.WarningsSpec | lib/account-prompt.ts:462-478 | each warning appears exactly under its condition (no rows; no videos; 2·missing >= total; 10·notDone >= 3·total), in fixed order, none twice |
| AccountDocument.MissingLatestCount | lib/account-prompt.ts:458 | the missing count never exceeds the videos |
| AccountDocument.BuildAccountInputJson | lib/account-prompt.ts:354-511 | the engine, step by step, returns the document the specification function defines |
| AccountDocument.DocumentManualCoverage | lib/account-prompt.ts:379-383 | the document's two manual counters add up to the video count |
| AccountDocument.DocumentWarnings | lib/account-prompt.ts:458-478 | the document's warnings are read against the data: missing = videos without a snapshot, notDone = videos not marked done |
| AccountDocument.DocumentOmitsColumnsWarning | lib/account-prompt.ts:462-478 | the engine itself never reports missing manual columns |
| AccountDocument.DocumentReportsAllNotDone | lib/account-prompt.ts:474-478 | with no video done, the manual warning reports all of them |
| AccountDocument.MissingCountsUnloggedVideos | lib/account-prompt.ts:458 | videos that no log names all count as missing their snapshot |
| AccountDocument.EmptyWindow | lib/account-prompt.ts:354-511 | an empty window gives both emptiness warnings in order, no benchmark metric, empty cohorts, tags and samples |
| AccountDocument.NoLogsAllMissing | lib/account-prompt.ts:468-472 | videos without any log raise the missing-metrics warning with count equal to total |
| PromptText.PrefixHasNoBrace | lib/account-prompt.ts:23-66 | the template has no `{` before its placeholder |
| PromptText.FirstOccurrenceAfter | lib/account-prompt.ts:513-516 | the placeholder is first found right after the prefix |
| PromptText.FillRoundTrip | lib/account-prompt.ts:513-516 | verbatim filling can be read back |
| PromptText.FillAgreesWithoutDollar | lib/account-prompt.ts:513-516 | the written and the verbatim filling agree on text without `$` |
| PromptText.AsWrittenAgreesWithoutDollar | lib/account-prompt.ts:513-516 | buildAccountPromptText inserts a document without `$` verbatim |
| PromptText.DollarPatternKeepsTemplate | lib/account-prompt.ts:513-516 | as written, a serialised document holding `$&` and no other `$` has those characters replaced by the placeholder in the prompt |
| PromptText.DollarPatternLosesJson | lib/account-prompt.ts:513-516 | as written, reading the document back from that prompt gives a different text, with the placeholder in place of `$&` |
| PromptText.FillAsWrittenLosesText | lib/account-prompt.ts:513-516 | for any template split at its placeholder, a text holding `$&` and no other `$` loses those characters to the placeholder |
| PromptText.PromptRoundTrip | lib/account-prompt.ts:513-516 | the corrected prompt always gives back the serialised document |
| PromptRequest.LastMember | app/api/account/prompt-input/route.ts:34-48 | a member lookup finds the last member with the key, and None when no member has it |
| PromptRequest.ToNumber | app/api/account/prompt-input/route.ts:35 | Number() of a body field: undefined is NaN, null is 0, a number is itself, a string is read as `Number` reads text, an array of two or more values and an object are NaN |
| PromptRequest.ElementToNumber | app/api/account/prompt-input/route.ts:35 | an array is read through its text: no element is 0, two or more are NaN, one element is read as its own text |
| PromptRequest.SixtySpellings | app/api/account/prompt-input/route.ts:35-38 | `"60.0"`, `"+60"`, `"6e1"`, `"0x3c"`, `[60]` and `["60"]` all select the 60-day window |
| PromptRequest.NormalizeWindow | app/api/account/prompt-input/route.ts:35-38 | the window is the requested one when it is 30, 60 or 90, else 30 |
| PromptRequest.GoalNameRoundTrip | app/api/account/prompt-input/route.ts:14-23 | every goal is recognised by its own name |
| PromptRequest.ModeNameRoundTrip | app/api/account/prompt-input/route.ts:20-26 | every mode is recognised by its own name |
| PromptRequest.PrimaryOf | app/api/account/prompt-input/route.ts:39-41 | the named goal when it is valid, else `followers` |
| PromptRequest.ModeOf | app/api/account/prompt-input/route.ts:42 | the named mode when it is valid, else `stable_growth` |
| PromptRequest.GoalsOtherThan | app/api/account/prompt-input/route.ts:43-48 | the filtered goals are exactly the valid goal names of the list other than the primary |
| PromptRequest.GoalsOtherThanAppend | app/api/account/prompt-input/route.ts:45 | the goal filter distributes over concatenation |
| PromptRequest.GoalsOtherThanSingleton | app/api/account/prompt-input/route.ts:45 | a single value is kept exactly when it names a goal other than the primary |
| PromptRequest.KeptGoal | app/api/account/prompt-input/route.ts:45 | one value contributes a goal exactly when it is that goal's name and the goal is not the primary |
| PromptRequest.GoalsOtherThanKeepsOrder | app/api/account/prompt-input/route.ts:43-48 | kept goals come in the order of their names' first occurrence in the list |
| PromptRequest.SecondaryKeepsOrder | app/api/account/prompt-input/route.ts:43-48 | the deduplicated goals come in the order of their names' first occurrence in the list |
| PromptRequest.SecondaryItems | app/api/account/prompt-input/route.ts:43 | the values of the `secondary` array, or none when it is not an array |
| Js.Dedup | app/api/account/prompt-input/route.ts:43-48 | deduplication keeps each value once and the same set of values |
| Js.DedupKeepsFirstOrder | app/api/account/prompt-input/route.ts:43-48 | values come out in the order of their first occurrence |
| PromptRequest.SecondaryOf | app/api/account/prompt-input/route.ts:43-48 | secondary goals are distinct, exclude the primary, are the valid names of the `secondary` array, and come in the order of their names' first occurrence there |
| PromptRequest.ParamsOf | app/api/account/prompt-input/route.ts:34-48 | normalised parameters always meet the enumerations |
| PromptRequest.MissingBodyDefaults | app/api/account/prompt-input/route.ts:34-48 | a missing or unparsable body gives 30 days, `followers`, no secondary goals, `stable_growth` |
| PromptRequest.WithoutManualColumns | app/api/account/prompt-input/route.ts:83-90 | the fallback row nulls the four manual metrics and the done flag and keeps every other column |
| PromptRequest.VideosRead | app/api/account/prompt-input/route.ts:57-96 | the first query's rows when it succeeds; its error when the error is not a missing column; otherwise the fallback query's rows with nulled manual fields, or its error |
| PromptRequest.LogsRead | app/api/account/prompt-input/route.ts:98-113 | the logs are not read without videos |
| PromptRequest.Gather | app/api/account/prompt-input/route.ts:29-125 | 401 exactly without a user; the video error, then the metrics error (only with videos), then the insights error fails the request; otherwise it is ready with the normalised parameters and the rows read |
| PromptRequest.Answer | app/api/account/prompt-input/route.ts:140-152 | the missing-columns warning is appended exactly when the fallback ran; the prompt is `buildAccountPromptText` of the serialised document, from which the document reads back whenever it holds no `$` |
| PromptRequest.ReadVideos | app/api/account/prompt-input/route.ts:57-96 | the query with fallback returns the videos read, flagging missing columns exactly when the fallback succeeded |
| PromptRequest.GatherRows | app/api/account/prompt-input/route.ts:29-125 | the handler's checks and queries produce what the gathering function defines |
| PromptRequest.Finish | app/api/account/prompt-input/route.ts:127-152 | the error answers or the built document are what the response function defines |
| PromptRequest.Post | app/api/account/prompt-input/route.ts:28-153 | the handler answers as the response function defines |
| PromptRequest.ResponseShape | app/api/account/prompt-input/route.ts:29-152 | status 401 iff refused, 500 iff a query failed (with its message), success iff ready |
| PromptRequest.NoVideosSkipsMetrics | app/api/account/prompt-input/route.ts:98-113 | a window without videos never fails on the metric logs |
| PromptRequest.FallbackGathersNullManualFields | app/api/account/prompt-input/route.ts:70-93 | on a missing column, the fallback rows with nulled manual fields are gathered |
| PromptRequest.FallbackWarnings | app/api/account/prompt-input/route.ts:83-90 | on the fallback path every video counts as not done, so the manual warning reports all of them |
| Timepoints.MetricValue | components/dashboard/hero-analysis.tsx:44 | a missing or non-finite metric reads as 0 |
| Timepoints.Samples | components/dashboard/hero-analysis.tsx:40-46 | samples are exactly those of the usable logs, and all have non-negative hours |
| Timepoints.SamplesAppend | components/dashboard/hero-analysis.tsx:40-46 | the sample filter distributes over concatenation |
| Timepoints.SamplesSingleton | components/dashboard/hero-analysis.tsx:40-46 | a single log gives a sample exactly when it is usable |
| Timepoints.NearestIndexSpec | components/dashboard/hero-analysis.tsx:48-57 | the scan keeps nothing iff no sample is within 3 hours, else the first of the closest |
| Timepoints.NearestIndexIff | components/dashboard/hero-analysis.tsx:48-57 | the scan keeps index k exactly when k is the first of the closest |
| Timepoints.SnapToPoint | components/dashboard/hero-analysis.tsx:49-56 | the inner loop gives the kept sample's value |
| Timepoints.PointValueSpec | components/dashboard/hero-analysis.tsx:37-57 | a point is null iff no usable log is within the window, else it holds the first-closest log's value |
| Timepoints.NullBaseline | components/dashboard/hero-analysis.tsx:32-35 | the baseline maps every grid hour to null |
| Timepoints.SnapAll | components/dashboard/hero-analysis.tsx:48-57 | every grid hour takes its nearest sample's value |
| Timepoints.BuildTimepointMetrics | components/dashboard/hero-analysis.tsx:31-60 | the record has the grid hours as keys, each holding its point value (components/analysis/hero-comparison-chart.tsx:35-64 is an identical copy) |
| Timepoints.HourAverage | components/dashboard/hero-analysis.tsx:86-101 | the sum/count loop gives the rounded mean, or null without values |
| Timepoints.AverageAtSpec | components/dashboard/hero-analysis.tsx:86-101 | the average is null iff no benchmark has a value, else within half a unit of their range |
| Timepoints.BuildChartData | components/dashboard/hero-analysis.tsx:86-102 | one point per grid hour, in order |
| Timepoints.LatestIndex | components/dashboard/hero-analysis.tsx:104-106 | the last index with both numbers, none iff no such index |
| Timepoints.BuildBenchmarkMetrics | components/dashboard/hero-analysis.tsx:82-84 | one timepoint record per benchmark video |
| Timepoints.ChartMemo | components/analysis/hero-comparison-chart.tsx:72-108 | the memo returns the chart view the specification function defines |
| Timepoints.AverageNullIff | components/dashboard/hero-analysis.tsx:86-101 | the average at an hour is null iff no video after the first has a value there |
| Timepoints.ChartViewSpec | components/dashboard/hero-analysis.tsx:78-137 | grid points in order with the target's values; benchmarks are n - 1; the latest point has both numbers, is absent iff no point has both, and needs benchmarks |
| HeroAnalysis.FormatPercentReadsBack | components/dashboard/hero-analysis.tsx:62-65 | the first character gives the sign, the text ends in `%`, and the digits spell the magnitude |
| HeroAnalysis.PercentDiffSign | components/dashboard/hero-analysis.tsx:112 | the rounded difference is positive iff 200(t - a) >= a, negative iff 200(t - a) < -a |
| HeroAnalysis.ComparisonBadge | components/dashboard/hero-analysis.tsx:108-128 | the reassigned text and tone are the verdict's |
| HeroAnalysis.VerdictSpec | components/dashboard/hero-analysis.tsx:108-128 | each badge outcome holds exactly under its numeric condition |
| HeroAnalysis.VerdictTextHead | components/dashboard/hero-analysis.tsx:108-128 | the badge's first character names the outcome |
| HeroAnalysis.HeroAnalysisMemo | components/dashboard/hero-analysis.tsx:78-137 | the memo's view and badge are the specification's |
| HeroAnalysis.HeroBadgeSpec | components/dashboard/hero-analysis.tsx:78-137 | "no average" iff at most one video; "insufficient" iff benchmarks exist without a positive latest average |
| HeroComparison.StatusBadge | components/analysis/hero-comparison-chart.tsx:131-149 | the reassigned text and class are the status's |
| HeroComparison.StatusTextsDistinct | components/analysis/hero-comparison-chart.tsx:131-149 | the five status texts are distinct |
| HeroComparison.ComparisonMemo | components/analysis/hero-comparison-chart.tsx:72-149 | the chart's view and status are the specification's |
| HeroComparison.ComparisonStatusSpec | components/analysis/hero-comparison-chart.tsx:126-149 | "no comparison" iff at most one video; "insufficient" iff benchmarks exist but no hour has both numbers |
| HeroComparison.BadgesAgree | components/analysis/hero-comparison-chart.tsx:131-149 | the dashboard's up or down implies the chart's; the chart's level implies the dashboard's level; "no average" coincides with "no comparison" |

## Left out

- Database access (Supabase queries, user and window filtering) is not modelled. The handler receives each query's rows or error message as a `Backend` value.
- Authentication is not modelled: `getUserFromRequest` becomes an optional user id.
- Request body parsing is not modelled: the body arrives already parsed as an optional JSON value, and a body that fails to parse is `None`.
- `JSON.stringify` of the document is a function parameter, so its formatting is not modelled.
- The clock (`new Date().toISOString()`) is a `generatedAt` parameter.
- Date parsing is not modelled. The parsed instants, `getHours()` in local time and `differenceInHours` are inputs attached to the rows.
- NumberParsing.StringToNumber: values are exact; a text whose nearest double is 30, 60 or 90 without being exactly that number (such as `60.00000000000000001`) reads as another number here, so it gets the 30-day default.
- Floating point is modelled with reals. `Math.round` is floor(x + 1/2). Overflow, rounding of sums and IEEE special values beyond the finite/non-finite split are not modelled.
- String lengths count code points; JavaScript counts UTF-16 code units, which differs only outside the Basic Multilingual Plane.
- `LENGTH_BUCKET_MAP` lookups of inherited object keys (such as `constructor`) are not modelled: only the listed lengths give a bucket.
- React rendering, formatting of values for display (`formatValue`, `Intl.NumberFormat`), the tooltip and the chart drawing are not modelled. The components are modelled up to the chart data and the badge.
- Timepoints.BuildTimepointMetrics: the JavaScript record's numeric keys are modelled as an integer map, so key order is not captured.
- The chart components' `metricLabel` and `manualInputAnchorId` props only affect rendering and are left out.

## Findings

| source | as written | input that shows it | evidently intended | confidence | as-written member | corrected member |
|---|---|---|---|---|---|---|
| lib/account-prompt.ts:513-516 | `String.prototype.replace` with the serialised document as the replacement string, so `$&`, `$$`, `` $` `` and `$'` in it are expanded | a caption `$&` (serialised as `{"caption":"$&"}` with no other `$` in the document): the prompt holds `{"caption":"{{ACCOUNT_INPUT_JSON}}"}` and the caption text is lost; a document `$&` alone leaves the template unfilled | the serialised document pasted into the prompt verbatim | medium (not executed) | PromptText.DollarPatternLosesJson (with PromptText.BuildPromptTextAsWritten, PromptText.DollarPatternKeepsTemplate) | PromptText.PromptRoundTrip (on PromptText.BuildPromptText, which PromptText.AsWrittenAgreesWithoutDollar shows equal to the builder as written whenever the document holds no `$`) |

=== FILE: account_document.dfy ===
/** `buildAccountInputJson`: the account-advisor input document built from
    one window of video rows, metric logs and account-insight rows. */
module AccountDocument {
  import opened Js
  import opened Database
  import opened LatestMetricsReducer
  import opened StableSort
  import G = GoalScoring
  import S = AggregateStats
  import C = Cohorts
  import T = TagInsights

  /** The three prompt modes a request can name. */
  datatype Mode = StableGrowth | Buzz | FollowFocus {
    function Name(): string {
      match this
      case StableGrowth => "stable_growth"
      case Buzz => "buzz"
      case FollowFocus => "follow_focus"
    }
  }

  /** `AccountPromptParams`. */
  datatype Params = Params(windowDays: int, primary: G.Goal, secondary: seq<G.Goal>, mode: Mode)

  /** `AccountPromptData`: the rows of the window. */
  datatype Data = Data(
    videos: seq<VideoRow>,
    metricsLogs: seq<MetricsLog>,
    accountInsights: seq<AccountInsightRow>)

  // ---------------------------------------------------------------------
  // Content overview

  datatype LengthBucket = UnderTen | TenToTwenty | OverTwenty {
    function Name(): string {
      match this
      case UnderTen => "<10"
      case TenToTwenty => "10-20"
      case OverTwenty => "20+"
    }
  }

  /** `LENGTH_BUCKET_MAP[analysisTags.basic.length]`, taken only when the
      length is set and truthy; any other value falls in no bucket. */
  function LengthBucketOf(video: VideoRow): Option<LengthBucket> {
    if video.analysisTags.None? || video.analysisTags.value.basic.None? then None
    else
      var basic := video.analysisTags.value.basic.value;
      if "length" !in basic then None
      else
        match basic["length"]
        case Bool(_) => None
        case Str(s) =>
          if s == "short" then Some(UnderTen)
          else if s == "medium" then Some(TenToTwenty)
          else if s == "long" || s == "extra_long" then Some(OverTwenty)
          else None
  }

  /** What a video is counted under in the content overview. */
  datatype Criterion = LengthIs(bucket: LengthBucket) | PostedAtHour(hour: Hour) | ManualDone(done: bool)

  predicate Meets(video: VideoRow, crit: Criterion) {
    match crit
    case LengthIs(b) => LengthBucketOf(video) == Some(b)
    case PostedAtHour(h) => video.posted.Some? && video.posted.value.localHour == h
    // `if (video.manual_input_done)`: only true counts as done; null is false
    case ManualDone(done) => (video.manualInputDone == Some(true)) == done
  }

  /** The number of videos that meet a criterion. */
  function CountMeeting(videos: seq<VideoRow>, crit: Criterion): (n: nat)
    ensures n <= |videos|
    decreases |videos|
  {
    if videos == [] then 0
    else CountMeeting(videos[..|videos| - 1], crit) + (if Meets(videos[|videos| - 1], crit) then 1 else 0)
  }

  datatype LengthCounts = LengthCounts(underTen: nat, tenToTwenty: nat, overTwenty: nat) {
    function Get(b: LengthBucket): nat {
      match b
      case UnderTen => underTen
      case TenToTwenty => tenToTwenty
      case OverTwenty => overTwenty
    }

    /** `lengthBucket[bucket] += 1`. */
    function Bump(b: LengthBucket): (r: LengthCounts)
      ensures r.Get(b) == Get(b) + 1
      ensures forall o :: o != b ==> r.Get(o) == Get(o)
    {
      match b
      case UnderTen => this.(underTen := underTen + 1)
      case TenToTwenty => this.(tenToTwenty := tenToTwenty + 1)
      case OverTwenty => this.(overTwenty := overTwenty + 1)
    }
  }

  datatype ContentOverview = ContentOverview(
    videoCount: nat,
    lengthBucket: LengthCounts,
    postingHourBucket: seq<nat>,
    manualInputDoneTrue: nat,
    manualInputDoneFalse: nat)

  /** The content overview of a set of videos, bucket by bucket. */
  function ContentOverviewOf(videos: seq<VideoRow>): ContentOverview {
    ContentOverview(
      |videos|,
      LengthCounts(
        CountMeeting(videos, LengthIs(UnderTen)),
        CountMeeting(videos, LengthIs(TenToTwenty)),
        CountMeeting(videos, LengthIs(OverTwenty))),
      seq(24, h requires 0 <= h < 24 => CountMeeting(videos, PostedAtHour(h))),
      CountMeeting(videos, ManualDone(true)),
      CountMeeting(videos, ManualDone(false)))
  }

  lemma CountMeetingAppend(videos: seq<VideoRow>, v: VideoRow, crit: Criterion)
    ensures CountMeeting(videos + [v], crit) == CountMeeting(videos, crit) + (if Meets(v, crit) then 1 else 0)
  {
    assert (videos + [v])[..|videos|] == videos;
  }

  /** The loop over the videos that fills the length and hour buckets and
      the two manual-input counters. */
  method TallyContent(videos: seq<VideoRow>) returns (overview: ContentOverview)
    ensures overview == ContentOverviewOf(videos)
  {
    var lengths := LengthCounts(0, 0, 0);
    var hours: seq<nat> := seq(24, h => 0);
    var doneTrue := 0;
    var doneFalse := 0;
    var i := 0;
    while i < |videos|
      invariant 0 <= i <= |videos|
      invariant forall b :: lengths.Get(b) == CountMeeting(videos[..i], LengthIs(b))
      invariant |hours| == 24 && forall h :: 0 <= h < 24 ==> hours[h] == CountMeeting(videos[..i], PostedAtHour(h))
      invariant doneTrue == CountMeeting(videos[..i], ManualDone(true))
      invariant doneFalse == CountMeeting(videos[..i], ManualDone(false))
    {
      var video := videos[i];
      assert videos[..i + 1] == videos[..i] + [video];
      forall crit ensures CountMeeting(videos[..i + 1], crit) == CountMeeting(videos[..i], crit) + (if Meets(video, crit) then 1 else 0) {
        CountMeetingAppend(videos[..i], video, crit);
      }
      lengths, hours, doneTrue, doneFalse := CountVideo(video, lengths, hours, doneTrue, doneFalse);
      i := i + 1;
    }
    assert videos[..i] == videos;
    overview := ContentOverview(|videos|, lengths, hours, doneTrue, doneFalse);
    OverviewOfCounts(videos, lengths, hours, doneTrue, doneFalse);
  }

  /** Counters that agree with every criterion make up the overview. */
  lemma OverviewOfCounts(videos: seq<VideoRow>, lengths: LengthCounts, hours: seq<nat>, doneTrue: nat, doneFalse: nat)
    requires forall b :: lengths.Get(b) == CountMeeting(videos, LengthIs(b))
    requires |hours| == 24 && forall h :: 0 <= h < 24 ==> hours[h] == CountMeeting(videos, PostedAtHour(h))
    requires doneTrue == CountMeeting(videos, ManualDone(true))
    requires doneFalse == CountMeeting(videos, ManualDone(false))
    ensures ContentOverview(|videos|, lengths, hours, doneTrue, doneFalse) == ContentOverviewOf(videos)
  {
    assert lengths == LengthCounts(lengths.Get(UnderTen), lengths.Get(TenToTwenty), lengths.Get(OverTwenty));
  }

  /** One iteration of the tally: every bucket the video meets goes up by one. */
  method CountVideo(video: VideoRow, lengths: LengthCounts, hours: seq<nat>, doneTrue: nat, doneFalse: nat)
    returns (lengths': LengthCounts, hours': seq<nat>, doneTrue': nat, doneFalse': nat)
    requires |hours| == 24
    ensures forall b :: lengths'.Get(b) == lengths.Get(b) + (if Meets(video, LengthIs(b)) then 1 else 0)
    ensures |hours'| == 24
    ensures forall h :: 0 <= h < 24 ==> hours'[h] == hours[h] + (if Meets(video, PostedAtHour(h)) then 1 else 0)
    ensures doneTrue' == doneTrue + (if Meets(video, ManualDone(true)) then 1 else 0)
    ensures doneFalse' == doneFalse + (if Meets(video, ManualDone(false)) then 1 else 0)
  {
    lengths', hours', doneTrue', doneFalse' := lengths, hours, doneTrue, doneFalse;
    var bucket := LengthBucketOf(video);
    if bucket.Some? {
      lengths' := lengths.Bump(bucket.value);
    }
    if video.posted.Some? {
      var hour := video.posted.value.localHour;
      hours' := hours[hour := hours[hour] + 1];
    }
    if video.manualInputDone == Some(true) {
      doneTrue' := doneTrue + 1;
    } else {
      doneFalse' := doneFalse + 1;
    }
  }

  /** Every video is counted exactly once as done or not done. */
  lemma {:induction false} ManualCoverageTotal(videos: seq<VideoRow>)
    ensures CountMeeting(videos, ManualDone(true)) + CountMeeting(videos, ManualDone(false)) == |videos|
    decreases |videos|
  {
    if videos != [] {
      ManualCoverageTotal(videos[..|videos| - 1]);
    }
  }

  /** The sum of the first `upto` hour buckets. */
  function HourSum(videos: seq<VideoRow>, upto: nat): nat
    requires upto <= 24
  {
    if upto == 0 then 0 else HourSum(videos, upto - 1) + CountMeeting(videos, PostedAtHour(upto - 1))
  }

  /** The number of videos whose posting time parses. */
  function PostedCount(videos: seq<VideoRow>): nat
    decreases |videos|
  {
    if videos == [] then 0
    else PostedCount(videos[..|videos| - 1]) + (if videos[|videos| - 1].posted.Some? then 1 else 0)
  }

  lemma {:induction false} HourSumAppend(videos: seq<VideoRow>, v: VideoRow, upto: nat)
    requires upto <= 24
    ensures HourSum(videos + [v], upto) ==
      HourSum(videos, upto) + (if v.posted.Some? && v.posted.value.localHour < upto then 1 else 0)
    decreases upto
  {
    if upto > 0 {
      HourSumAppend(videos, v, upto - 1);
      CountMeetingAppend(videos, v, PostedAtHour(upto - 1));
    }
  }

  /** The hour buckets together count every video whose posting time
      parses, each once. */
  lemma {:induction false} HourBucketsCountPosted(videos: seq<VideoRow>)
    ensures HourSum(videos, 24) == PostedCount(videos)
    decreases |videos|
  {
    if videos == [] {
      HourSumOfNone(24);
    } else {
      var pre := videos[..|videos| - 1];
      var v := videos[|videos| - 1];
      HourBucketsCountPosted(pre);
      assert videos == pre + [v];
      HourSumAppend(pre, v, 24);
    }
  }

  lemma {:induction false} HourSumOfNone(upto: nat)
    requires upto <= 24
    ensures HourSum([], upto) == 0
    decreases upto
  {
    if upto > 0 {
      HourSumOfNone(upto - 1);
    }
  }

  /** The three length buckets together count at most every video. */
  lemma {:induction false} LengthBucketsBound(videos: seq<VideoRow>)
    ensures CountMeeting(videos, LengthIs(UnderTen)) + CountMeeting(videos, LengthIs(TenToTwenty))
            + CountMeeting(videos, LengthIs(OverTwenty)) <= |videos|
    decreases |videos|
  {
    if videos != [] {
      LengthBucketsBound(videos[..|videos| - 1]);
    }
  }

  // ---------------------------------------------------------------------
  // Account summary

  /** The date as the comparator reads it: `parseDate(date)?.getTime() ?? 0`. */
  function RowDateKey(row: AccountInsightRow): real {
    if row.date.Some? then row.date.value as real else 0.0
  }

  /** `accountInsightsSorted[0] ?? null`. */
  function LatestInsight(rows: seq<AccountInsightRow>): Option<AccountInsightRow> {
    var sorted := SortDesc(rows, RowDateKey);
    if sorted == [] then None else Some(sorted[0])
  }

  /** The latest row is the first row (in input order) carrying the newest
      date; there is one exactly when there are rows. */
  lemma LatestInsightIsNewest(rows: seq<AccountInsightRow>, m: nat)
    requires m < |rows|
    requires forall j :: 0 <= j < |rows| ==> RowDateKey(rows[j]) <= RowDateKey(rows[m])
    requires forall j :: 0 <= j < m ==> RowDateKey(rows[j]) < RowDateKey(rows[m])
    ensures LatestInsight(rows) == Some(rows[m])
  {
    SortHeadIsFirstLargest(rows, RowDateKey, m);
  }

  /** Row m carries the newest date, and no earlier row carries it. */
  predicate IsNewestRow(rows: seq<AccountInsightRow>, m: int) {
    && 0 <= m < |rows|
    && (forall j :: 0 <= j < |rows| ==> RowDateKey(rows[j]) <= RowDateKey(rows[m]))
    && (forall j :: 0 <= j < m ==> RowDateKey(rows[j]) < RowDateKey(rows[m]))
  }

  /** Every non-empty window has a newest row. */
  lemma {:induction false} NewestRowExists(rows: seq<AccountInsightRow>)
    requires rows != []
    ensures exists m :: IsNewestRow(rows, m)
    decreases |rows|
  {
    var pre := rows[..|rows| - 1];
    var x := rows[|rows| - 1];
    if pre == [] {
      assert IsNewestRow(rows, 0);
    } else {
      NewestRowExists(pre);
      var m :| IsNewestRow(pre, m);
      assert forall j :: 0 <= j < |pre| ==> rows[j] == pre[j];
      if RowDateKey(x) > RowDateKey(pre[m]) {
        assert IsNewestRow(rows, |pre|);
      } else {
        assert IsNewestRow(rows, m);
      }
    }
  }

  /** The latest row is the newest row, whichever that is, and there is
      one exactly when there are rows. */
  lemma LatestIsNewestRow(rows: seq<AccountInsightRow>)
    ensures LatestInsight(rows).Some? <==> rows != []
    ensures forall m :: IsNewestRow(rows, m) ==> LatestInsight(rows) == Some(rows[m])
  {
    forall m | IsNewestRow(rows, m)
      ensures LatestInsight(rows) == Some(rows[m])
    {
      LatestInsightIsNewest(rows, m);
    }
  }

  datatype LatestSummary = LatestSummary(
    followersCount: JsNumber,
    profileViews: JsNumber,
    websiteClicks: JsNumber,
    reachDaily: JsNumber,
    impressionsDaily: JsNumber,
    onlinePeakHour: JsNumber)

  datatype AverageSummary = AverageSummary(
    profileViews: Option<real>,
    websiteClicks: Option<real>,
    reachDaily: Option<real>,
    impressionsDaily: Option<real>)

  datatype AccountSummary = AccountSummary(
    windowDays: int,
    latest: LatestSummary,
    avg: AverageSummary,
    audienceData: Json)

  function ProfileViewsOf(row: AccountInsightRow): JsNumber { row.profileViews }
  function WebsiteClicksOf(row: AccountInsightRow): JsNumber { row.websiteClicks }
  function ReachDailyOf(row: AccountInsightRow): JsNumber { row.reachDaily }
  function ImpressionsDailyOf(row: AccountInsightRow): JsNumber { row.impressionsDaily }

  /** The figures of the latest row, all null without one. */
  function LatestFigures(latest: Option<AccountInsightRow>): (r: LatestSummary)
    ensures latest.None? ==> r == LatestSummary(Null, Null, Null, Null, Null, Null)
    ensures latest.Some? ==> var row := latest.value;
      && r.followersCount == row.followersCount && r.profileViews == row.profileViews
      && r.websiteClicks == row.websiteClicks && r.reachDaily == row.reachDaily
      && r.impressionsDaily == row.impressionsDaily && r.onlinePeakHour == row.onlinePeakHour
  {
    if latest.None? then LatestSummary(Null, Null, Null, Null, Null, Null)
    else
      var row := latest.value;
      LatestSummary(row.followersCount, row.profileViews, row.websiteClicks,
                    row.reachDaily, row.impressionsDaily, row.onlinePeakHour)
  }

  /** `latestInsight?.audience_data ?? {}`: a missing row, a missing column
      value and a JSON null all give the empty object. */
  function AudienceOf(latest: Option<AccountInsightRow>): (r: Json)
    ensures latest.None? || latest.value.audienceData.None? || latest.value.audienceData == Some(JNull) ==>
      r == JObject([])
    ensures latest.Some? && latest.value.audienceData.Some? && latest.value.audienceData != Some(JNull) ==>
      r == latest.value.audienceData.value
    ensures r != JNull
  {
    if latest.Some? && latest.value.audienceData.Some? && latest.value.audienceData.value != JNull
    then latest.value.audienceData.value
    else JObject([])
  }

  /** No row of the window has a finite value in the column. */
  predicate ColumnEmpty(rows: seq<AccountInsightRow>, column: AccountInsightRow -> JsNumber) {
    forall i :: 0 <= i < |rows| ==> !IsNumber(column(rows[i]))
  }

  /** `accountSummary`: the newest row's figures (null without a row), the
      null-skipping means over all rows of the window, and the newest row's
      audience data or an empty object. */
  function AccountSummaryOf(windowDays: int, rows: seq<AccountInsightRow>): (r: AccountSummary)
    ensures r.windowDays == windowDays
    ensures rows == [] ==> r.latest == LatestSummary(Null, Null, Null, Null, Null, Null)
    ensures rows == [] ==> r.avg == AverageSummary(None, None, None, None) && r.audienceData == JObject([])
    ensures forall m :: IsNewestRow(rows, m) ==>
      r.latest == LatestFigures(Some(rows[m])) && r.audienceData == AudienceOf(Some(rows[m]))
    ensures r.avg.profileViews == S.AvgOrNull(Map(rows, ProfileViewsOf))
    ensures r.avg.websiteClicks == S.AvgOrNull(Map(rows, WebsiteClicksOf))
    ensures r.avg.reachDaily == S.AvgOrNull(Map(rows, ReachDailyOf))
    ensures r.avg.impressionsDaily == S.AvgOrNull(Map(rows, ImpressionsDailyOf))
    ensures r.avg.profileViews.None? <==> ColumnEmpty(rows, ProfileViewsOf)
    ensures r.avg.websiteClicks.None? <==> ColumnEmpty(rows, WebsiteClicksOf)
    ensures r.avg.reachDaily.None? <==> ColumnEmpty(rows, ReachDailyOf)
    ensures r.avg.impressionsDaily.None? <==> ColumnEmpty(rows, ImpressionsDailyOf)
  {
    LatestIsNewestRow(rows);
    var latest := LatestInsight(rows);
    AccountSummary(
      windowDays,
      LatestFigures(latest),
      AverageSummary(
        S.AvgOrNull(Map(rows, ProfileViewsOf)),
        S.AvgOrNull(Map(rows, WebsiteClicksOf)),
        S.AvgOrNull(Map(rows, ReachDailyOf)),
        S.AvgOrNull(Map(rows, ImpressionsDailyOf))),
      AudienceOf(latest))
  }

  /** Each average of the summary lies within any bounds its column's
      finite values respect. */
  lemma ColumnAvgWithin(rows: seq<AccountInsightRow>, column: AccountInsightRow -> JsNumber, lo: real, hi: real)
    requires forall i :: 0 <= i < |rows| && IsNumber(column(rows[i])) ==> lo <= column(rows[i]).value <= hi
    ensures S.AvgOrNull(Map(rows, column)).Some? ==> lo <= S.AvgOrNull(Map(rows, column)).value <= hi
  {
    S.AvgWithin(Map(rows, column), lo, hi);
  }

  // ---------------------------------------------------------------------
  // Samples

  /** `truncateCaption(caption, 80)`. */
  function TruncateCaption(caption: Option<string>): (r: Option<string>)
    ensures r.None? <==> caption.None? || forall i :: 0 <= i < |caption.value| ==> IsWhiteSpace(caption.value[i])
    ensures r.Some? ==> |r.value| <= 83
    ensures r.Some? ==> var t := Trim(caption.value);
      && (|t| <= 80 ==> r.value == t)
      && (|t| > 80 ==> r.value == t[..80] + "...")
  {
    if caption.None? || caption.value == "" then None
    else
      var trimmed := Trim(caption.value);
      if trimmed == "" then None
      else if |trimmed| <= 80 then Some(trimmed)
      else Some(trimmed[..80] + "...")
  }

  datatype ManualMetrics = ManualMetrics(reach: JsNumber, shares: JsNumber, profileVisits: JsNumber, follows: JsNumber)

  datatype SampleLatest = SampleLatest(views: Option<real>, likes: Option<real>, saves: Option<real>, comments: Option<real>)

  datatype SampleRates = SampleRates(saveRate: Option<real>, followRate: Option<real>)

  datatype Sample = Sample(
    videoId: string,
    postedAt: Option<string>,
    caption: Option<string>,
    manualMetrics: ManualMetrics,
    latestMetrics: SampleLatest,
    rates: SampleRates,
    analysisTags: Option<AnalysisTags>,
    selfScore: JsNumber)

  /** `buildSample`: the short description of one video given to the model. */
  function BuildSample(a: G.VideoAggregate): (r: Sample)
    ensures r.videoId == a.video.id
    ensures r.caption == TruncateCaption(a.video.caption)
    ensures r.postedAt == a.video.postedAt
    ensures r.manualMetrics.reach == a.video.reach && r.manualMetrics.shares == a.video.shares
    ensures r.manualMetrics.profileVisits == a.video.profileVisits && r.manualMetrics.follows == a.video.follows
    ensures a.latest.None? ==> r.latestMetrics == SampleLatest(None, None, None, None)
    ensures a.latest.Some? ==> r.latestMetrics.views == a.latest.value.views && r.latestMetrics.likes == a.latest.value.likes
    ensures a.latest.Some? ==> r.latestMetrics.saves == a.latest.value.saves && r.latestMetrics.comments == a.latest.value.comments
    ensures r.rates.saveRate == a.rates.saveRate && r.rates.followRate == a.rates.followRate
    ensures r.analysisTags == a.video.analysisTags && r.selfScore == a.video.selfScore
  {
    var v := a.video;
    Sample(
      v.id,
      v.postedAt,
      TruncateCaption(v.caption),
      ManualMetrics(v.reach, v.shares, v.profileVisits, v.follows),
      if a.latest.None? then SampleLatest(None, None, None, None)
      else SampleLatest(a.latest.value.views, a.latest.value.likes, a.latest.value.saves, a.latest.value.comments),
      SampleRates(a.rates.saveRate, a.rates.followRate),
      v.analysisTags,
      v.selfScore)
  }

  function Samples(items: seq<G.VideoAggregate>): (r: seq<Sample>)
    ensures |r| == |items| && forall i :: 0 <= i < |items| ==> r[i] == BuildSample(items[i])
  {
    seq(|items|, i requires 0 <= i < |items| => BuildSample(items[i]))
  }

  // ---------------------------------------------------------------------
  // Warnings

  /** A data-quality warning; the last one is added by the route handler. */
  datatype Warning =
    | NoInsights
    | NoVideos
    | MissingMetrics(missing: nat, total: nat)
    | ManualIncomplete(notDone: nat, total: nat)
    | ManualColumnsMissing
  {
    /** The text of the warning. */
    function Text(): string {
      match this
      case NoInsights => "account_insights が指定期間内に存在しません。"
      case NoVideos => "指定期間内の動画データがありません。"
      case MissingMetrics(m, t) => "metrics_logs が不足しています（latest未取得: " + NatText(m) + "/" + NatText(t) + "）。"
      case ManualIncomplete(f, t) =>
        "手入力が未完了の動画が多いです（manual_input_done=false: " + NatText(f) + "/" + NatText(t) + "）。"
      case ManualColumnsMissing => "videos の手入力指標カラム（reach/shares/profile_visits/follows）がDBに存在しません。"
    }

    /** The position of the warning in the list. */
    function Rank(): nat {
      match this
      case NoInsights => 0
      case NoVideos => 1
      case MissingMetrics(_, _) => 2
      case ManualIncomplete(_, _) => 3
      case ManualColumnsMissing => 4
    }
  }

  /** `totalVideos ? count / totalVideos : 0`. */
  function Ratio(count: nat, total: nat): real {
    if total == 0 then 0.0 else count as real / total as real
  }

  /** The engine's warnings, in the order they are pushed. */
  function WarningsOf(rowCount: nat, total: nat, missing: nat, notDone: nat): seq<Warning> {
    (if rowCount == 0 then [NoInsights] else [])
    + (if total == 0 then [NoVideos] else [])
    + (if total > 0 && Ratio(missing, total) >= 0.5 then [MissingMetrics(missing, total)] else [])
    + (if total > 0 && Ratio(notDone, total) >= 0.3 then [ManualIncomplete(notDone, total)] else [])
  }

  /** The pushes of the warning block. */
  method CollectWarnings(rowCount: nat, total: nat, missing: nat, notDone: nat) returns (warnings: seq<Warning>)
    ensures warnings == WarningsOf(rowCount, total, missing, notDone)
  {
    var notDoneRatio := if total > 0 then notDone as real / total as real else 0.0;
    var missingRatio := if total > 0 then missing as real / total as real else 0.0;
    warnings := [];
    if rowCount == 0 {
      warnings := warnings + [NoInsights];
    }
    if total == 0 {
      warnings := warnings + [NoVideos];
    }
    if total > 0 && missingRatio >= 0.5 {
      warnings := warnings + [MissingMetrics(missing, total)];
    }
    if total > 0 && notDoneRatio >= 0.3 {
      warnings := warnings + [ManualIncomplete(notDone, total)];
    }
  }

  lemma RatioThreshold(count: nat, total: nat, num: nat, den: nat)
    requires total > 0 && den > 0
    ensures Ratio(count, total) >= num as real / den as real <==> den * count >= num * total
  {
    var c := count as real;
    var t := total as real;
    var n := num as real;
    var d := den as real;
    ScaleCompare(c / t, t * d, n / d);
    assert c / t * (t * d) == c * d;
    assert n / d * (t * d) == n * t;
    assert (den * count) as real == d * c && (num * total) as real == n * t;
  }

  /** Each warning is present exactly under its condition, stated on whole
      numbers (2·missing ≥ total, 10·notDone ≥ 3·total), and the list is in
      the fixed order with no warning twice. */
  lemma WarningsSpec(rowCount: nat, total: nat, missing: nat, notDone: nat)
    ensures var w := WarningsOf(rowCount, total, missing, notDone);
      && (NoInsights in w <==> rowCount == 0)
      && (NoVideos in w <==> total == 0)
      && (MissingMetrics(missing, total) in w <==> total > 0 && 2 * missing >= total)
      && (ManualIncomplete(notDone, total) in w <==> total > 0 && 10 * notDone >= 3 * total)
      && (forall i :: 0 <= i < |w| ==> w[i] in [NoInsights, NoVideos, MissingMetrics(missing, total), ManualIncomplete(notDone, total)])
      && (forall i, j :: 0 <= i < j < |w| ==> w[i].Rank() < w[j].Rank())
  {
    if total > 0 {
      RatioThreshold(missing, total, 1, 2);
      RatioThreshold(notDone, total, 3, 10);
      assert 1 as real / 2 as real == 0.5;
      assert 3 as real / 10 as real == 0.3;
    }
  }

  // ---------------------------------------------------------------------
  // The document

  datatype CohortStats = CohortStats(count: nat, stats: S.AggregateStats)

  datatype Benchmarks = Benchmarks(
    benchmarkMetric: Option<G.ScoreMetric>,
    recent10Avg: CohortStats,
    top25Avg: CohortStats,
    bottom25Avg: CohortStats)

  datatype Document = Document(
    schemaVersion: string,
    generatedAt: string,
    analysisWindowDays: int,
    primary: G.Goal,
    secondary: seq<G.Goal>,
    mode: Mode,
    accountSummary: AccountSummary,
    contentOverview: ContentOverview,
    performanceAggregate: S.AggregateStats,
    benchmarks: Benchmarks,
    topTags: T.SectionInsights,
    weakTags: T.SectionInsights,
    topVideos: seq<Sample>,
    recentVideos: seq<Sample>,
    dataWarnings: seq<Warning>)

  function MissingLatestCount(aggregates: seq<G.VideoAggregate>): (n: nat)
    ensures n <= |aggregates|
    decreases |aggregates|
  {
    if aggregates == [] then 0
    else MissingLatestCount(aggregates[..|aggregates| - 1]) + (if aggregates[|aggregates| - 1].latest.None? then 1 else 0)
  }

  function CohortStatsOf(items: seq<G.VideoAggregate>): CohortStats {
    CohortStats(|items|, S.BuildAggregateStats(items))
  }

  function AggregatesOf(params: Params, data: Data): seq<G.VideoAggregate> {
    G.BuildAggregates(data.videos, LatestMap(data.metricsLogs), params.primary)
  }

  /** The document `buildAccountInputJson` returns, with the clock reading
      `generatedAt` given. */
  function AccountInputDocument(params: Params, data: Data, generatedAt: string): Document {
    var aggregates := AggregatesOf(params, data);
    var top := C.TopQuartile(aggregates);
    var bottom := C.BottomQuartile(aggregates);
    Document(
      "account_prompt_v1",
      generatedAt,
      params.windowDays,
      params.primary,
      params.secondary,
      params.mode,
      AccountSummaryOf(params.windowDays, data.accountInsights),
      ContentOverviewOf(data.videos),
      S.BuildAggregateStats(aggregates),
      Benchmarks(
        G.ChooseBenchmarkMetric(aggregates, params.primary),
        CohortStatsOf(C.Recent10(aggregates)),
        CohortStatsOf(top),
        CohortStatsOf(bottom)),
      T.TagInsightsOf(top),
      T.TagInsightsOf(bottom),
      Samples(SliceTo(C.ScoredSorted(aggregates), 3)),
      Samples(SliceTo(C.SortedByPostedAt(aggregates), 3)),
      WarningsOf(|data.accountInsights|, |data.videos|, MissingLatestCount(aggregates),
                 CountMeeting(data.videos, ManualDone(false))))
  }

  /** `buildAccountInputJson`, step by step as the source runs it. */
  method BuildAccountInputJson(params: Params, data: Data, generatedAt: string) returns (doc: Document)
    ensures doc == AccountInputDocument(params, data, generatedAt)
  {
    var latestMap := BuildLatestMetricsMap(data.metricsLogs);
    var aggregates := G.BuildAggregates(data.videos, latestMap, params.primary);
    var overview := TallyContent(data.videos);
    var summary := AccountSummaryOf(params.windowDays, data.accountInsights);
    var performance := S.BuildAggregateStats(aggregates);
    var recent10 := C.Recent10(aggregates);
    var top := C.TopQuartile(aggregates);
    var bottom := C.BottomQuartile(aggregates);
    var benchmarks := Benchmarks(
      G.ChooseBenchmarkMetric(aggregates, params.primary),
      CohortStatsOf(recent10), CohortStatsOf(top), CohortStatsOf(bottom));
    var topTags := T.BuildTagInsights(top);
    var weakTags := T.BuildTagInsights(bottom);
    var topVideos := Samples(SliceTo(C.ScoredSorted(aggregates), 3));
    var recentVideos := Samples(SliceTo(C.SortedByPostedAt(aggregates), 3));
    var warnings := CollectWarnings(|data.accountInsights|, |data.videos|, MissingLatestCount(aggregates),
                                    overview.manualInputDoneFalse);
    doc := Document(
      "account_prompt_v1", generatedAt, params.windowDays, params.primary, params.secondary, params.mode,
      summary, overview, performance, benchmarks, topTags, weakTags, topVideos, recentVideos, warnings);
  }

  /** The manual-input counters add up to the video count. */
  lemma DocumentManualCoverage(params: Params, data: Data, generatedAt: string)
    ensures var o := AccountInputDocument(params, data, generatedAt).contentOverview;
      o.manualInputDoneTrue + o.manualInputDoneFalse == o.videoCount == |data.videos|
  {
    ManualCoverageTotal(data.videos);
  }

  /** The warnings of the document, read against the data: the missing
      count is the number of videos without a snapshot and the not-done
      count the number of videos whose manual input is not true. */
  lemma DocumentWarnings(params: Params, data: Data, generatedAt: string)
    ensures var w := AccountInputDocument(params, data, generatedAt).dataWarnings;
      var total := |data.videos|;
      var missing := MissingLatestCount(AggregatesOf(params, data));
      var notDone := CountMeeting(data.videos, ManualDone(false));
      && (NoInsights in w <==> data.accountInsights == [])
      && (NoVideos in w <==> data.videos == [])
      && (MissingMetrics(missing, total) in w <==> total > 0 && 2 * missing >= total)
      && (ManualIncomplete(notDone, total) in w <==> total > 0 && 10 * notDone >= 3 * total)
      && missing <= total && notDone <= total
  {
    WarningsSpec(|data.accountInsights|, |data.videos|, MissingLatestCount(AggregatesOf(params, data)),
                 CountMeeting(data.videos, ManualDone(false)));
  }

  /** The engine never reports the missing manual columns itself; only
      the route handler does. */
  lemma DocumentOmitsColumnsWarning(params: Params, data: Data, generatedAt: string)
    ensures ManualColumnsMissing !in AccountInputDocument(params, data, generatedAt).dataWarnings
  {
    var aggregates := AggregatesOf(params, data);
    var w := WarningsOf(|data.accountInsights|, |data.videos|, MissingLatestCount(aggregates),
                        CountMeeting(data.videos, ManualDone(false)));
    assert AccountInputDocument(params, data, generatedAt).dataWarnings == w;
    WarningsOmitColumns(|data.accountInsights|, |data.videos|, MissingLatestCount(aggregates),
                        CountMeeting(data.videos, ManualDone(false)));
  }

  /** The warning block never pushes the missing-columns warning. */
  lemma WarningsOmitColumns(rowCount: nat, total: nat, missing: nat, notDone: nat)
    ensures ManualColumnsMissing !in WarningsOf(rowCount, total, missing, notDone)
  {
    WarningsSpec(rowCount, total, missing, notDone);
  }

  /** When no video of a non-empty window is marked done, the manual-input
      warning reports all of them. */
  lemma DocumentReportsAllNotDone(params: Params, data: Data, generatedAt: string)
    requires data.videos != []
    requires CountMeeting(data.videos, ManualDone(false)) == |data.videos|
    ensures ManualIncomplete(|data.videos|, |data.videos|) in AccountInputDocument(params, data, generatedAt).dataWarnings
    ensures NoVideos !in AccountInputDocument(params, data, generatedAt).dataWarnings
  {
    var aggregates := AggregatesOf(params, data);
    WarningsSpec(|data.accountInsights|, |data.videos|, MissingLatestCount(aggregates), |data.videos|);
  }

  /** A video has no snapshot exactly when no log of the window names it. */
  lemma {:induction false} MissingCountsUnloggedVideos(videos: seq<VideoRow>, logs: seq<MetricsLog>, goal: G.Goal)
    requires forall i :: 0 <= i < |videos| ==> videos[i].id != ""
    requires forall i, j :: 0 <= i < |videos| && 0 <= j < |logs| ==> logs[j].videoId != videos[i].id
    ensures MissingLatestCount(G.BuildAggregates(videos, LatestMap(logs), goal)) == |videos|
    decreases |videos|
  {
    if videos != [] {
      var pre := videos[..|videos| - 1];
      var aggs := G.BuildAggregates(videos, LatestMap(logs), goal);
      assert aggs[..|aggs| - 1] == G.BuildAggregates(pre, LatestMap(logs), goal);
      MissingCountsUnloggedVideos(pre, logs, goal);
      LatestMapKeys(logs, videos[|videos| - 1].id);
    }
  }

  /** An empty window: both emptiness warnings in order, no benchmark
      metric, empty cohorts, no tag insight and no sample. */
  lemma EmptyWindow(params: Params, generatedAt: string)
    ensures var doc := AccountInputDocument(params, Data([], [], []), generatedAt);
      && doc.dataWarnings == [NoInsights, NoVideos]
      && doc.benchmarks.benchmarkMetric.None?
      && doc.benchmarks.recent10Avg.count == 0
      && doc.benchmarks.top25Avg.count == 0
      && doc.benchmarks.bottom25Avg.count == 0
      && doc.topTags == T.SectionInsights([], [], [], [])
      && doc.weakTags == T.SectionInsights([], [], [], [])
      && doc.topVideos == [] && doc.recentVideos == []
      && doc.contentOverview.videoCount == 0
      && doc.accountSummary.audienceData == JObject([])
  {
    var aggs := AggregatesOf(params, Data([], [], []));
    assert aggs == [];
    T.NoTagsNoInsights([]);
  }

  /** With videos but no metric log in the window, every video counts as
      missing its snapshot, so the missing-metrics warning is raised with
      the count equal to the total. */
  lemma NoLogsAllMissing(params: Params, videos: seq<VideoRow>, rows: seq<AccountInsightRow>, generatedAt: string)
    requires videos != []
    requires forall i :: 0 <= i < |videos| ==> videos[i].id != ""
    ensures MissingMetrics(|videos|, |videos|) in AccountInputDocument(params, Data(videos, [], rows), generatedAt).dataWarnings
  {
    MissingCountsUnloggedVideos(videos, [], params.primary);
    DocumentWarnings(params, Data(videos, [], rows), generatedAt);
  }
}

=== FILE: aggregate_stats.dfy ===
/** Null-skipping averages (`avgOrNull`) and the thirteen averaged fields of
    a cohort of aggregates (`buildAggregateStats`). */
module AggregateStats {
  import opened Js
  import G = GoalScoring

  /** `values.filter(isNumber)`: the finite values, in order. */
  function Finites(values: seq<JsNumber>): (r: seq<real>)
    ensures |r| <= |values|
    ensures r == [] <==> forall i :: 0 <= i < |values| ==> !IsNumber(values[i])
    ensures forall j :: 0 <= j < |r| ==> Finite(r[j]) in values
    decreases |values|
  {
    if values == [] then []
    else
      var rest := Finites(values[1..]);
      assert forall i :: 1 <= i < |values| ==> values[i] == values[1..][i - 1];
      assert forall x :: x in values[1..] ==> x in values;
      if IsNumber(values[0]) then [values[0].value] + rest else rest
  }

  /** The filter works element by element: the finite values of a + b are
      those of a followed by those of b. */
  lemma {:induction false} FinitesAppend(a: seq<JsNumber>, b: seq<JsNumber>)
    ensures Finites(a + b) == Finites(a) + Finites(b)
    decreases |a|
  {
    if a == [] {
      assert a + b == b;
    } else {
      var t := a[1..];
      FinitesAppend(t, b);
      assert (a + b)[1..] == t + b;
      var ft, fb := Finites(t), Finites(b);
      if IsNumber(a[0]) {
        var x := a[0].value;
        calc {
          Finites(a + b);
          [x] + Finites(t + b);
          [x] + (ft + fb);
          ([x] + ft) + fb;
          Finites(a) + fb;
        }
      } else {
        calc {
          Finites(a + b);
          Finites(t + b);
          ft + fb;
          Finites(a) + fb;
        }
      }
    }
  }

  /** One value is kept exactly when it is finite. */
  lemma FinitesSingleton(x: JsNumber)
    ensures Finites([x]) == if IsNumber(x) then [x.value] else []
  {
    assert [x][1..] == [];
  }

  function Sum(xs: seq<real>): real
    decreases |xs|
  {
    if xs == [] then 0.0 else xs[0] + Sum(xs[1..])
  }

  /** A sum of values that all lie in [lo, hi] lies in [n*lo, n*hi]. */
  lemma {:induction false} SumBounds(xs: seq<real>, lo: real, hi: real)
    requires forall j :: 0 <= j < |xs| ==> lo <= xs[j] <= hi
    ensures |xs| as real * lo <= Sum(xs) <= |xs| as real * hi
    decreases |xs|
  {
    if xs != [] {
      assert forall j :: 0 <= j < |xs| - 1 ==> xs[1..][j] == xs[j + 1];
      SumBounds(xs[1..], lo, hi);
    }
  }

  /** `avgOrNull`: the mean of the finite values, or null when there is none. */
  function AvgOrNull(values: seq<JsNumber>): (r: Option<real>)
    ensures r.None? <==> forall i :: 0 <= i < |values| ==> !IsNumber(values[i])
    ensures r.Some? ==> |Finites(values)| > 0 && r.value * |Finites(values)| as real == Sum(Finites(values))
  {
    var nums := Finites(values);
    if nums == [] then None else Some(Sum(nums) / |nums| as real)
  }

  /** The mean lies between any bounds that every finite value respects;
      in particular it lies between the smallest and the largest of them. */
  lemma AvgWithin(values: seq<JsNumber>, lo: real, hi: real)
    requires forall i :: 0 <= i < |values| && IsNumber(values[i]) ==> lo <= values[i].value <= hi
    ensures AvgOrNull(values).Some? ==> lo <= AvgOrNull(values).value <= hi
  {
    var nums := Finites(values);
    if nums != [] {
      forall j | 0 <= j < |nums| ensures lo <= nums[j] <= hi {
        assert Finite(nums[j]) in values;
        var i :| 0 <= i < |values| && values[i] == Finite(nums[j]);
        assert IsNumber(values[i]);
      }
      SumBounds(nums, lo, hi);
      MeanBounds(Sum(nums), |nums| as real, lo, hi);
    }
  }

  /** A value that is not a finite number does not change the average. */
  lemma AvgSkipsNonFinite(a: seq<JsNumber>, x: JsNumber, b: seq<JsNumber>)
    requires !IsNumber(x)
    ensures AvgOrNull(a + [x] + b) == AvgOrNull(a + b)
  {
    var nums := Finites(a + [x] + b);
    assert nums == Finites(a + b) by {
      FinitesAppend(a + [x], b);
      FinitesAppend(a, [x]);
      FinitesAppend(a, b);
      FinitesSingleton(x);
      assert Finites(a) + [] == Finites(a);
    }
  }

  /** The thirteen averaged fields: four latest-snapshot fields, four manual
      fields of the video row and the five rates. */
  datatype StatField =
    | LatestViewsAvg | LatestLikesAvg | LatestSavesAvg | LatestCommentsAvg
    | ReachAvg | SharesAvg | ProfileVisitsAvg | FollowsAvg
    | LikeRateAvg | SaveRateAvg | CommentRateAvg | ShareRateAvg | FollowRateAvg

  /** The value one aggregate contributes to a field's average. */
  function FieldValue(a: G.VideoAggregate, f: StatField): JsNumber {
    match f
    case LatestViewsAvg => G.LatestField(a.latest, G.LatestViewsOf)
    case LatestLikesAvg => G.LatestField(a.latest, G.LatestLikesOf)
    case LatestSavesAvg => G.LatestField(a.latest, G.LatestSavesOf)
    case LatestCommentsAvg => G.LatestField(a.latest, G.LatestCommentsOf)
    case ReachAvg => a.video.reach
    case SharesAvg => a.video.shares
    case ProfileVisitsAvg => a.video.profileVisits
    case FollowsAvg => a.video.follows
    case LikeRateAvg => FromOption(a.rates.likeRate)
    case SaveRateAvg => FromOption(a.rates.saveRate)
    case CommentRateAvg => FromOption(a.rates.commentRate)
    case ShareRateAvg => FromOption(a.rates.shareRate)
    case FollowRateAvg => FromOption(a.rates.followRate)
  }

  /** `items.map(...)` for one field. */
  function Column(items: seq<G.VideoAggregate>, f: StatField): (c: seq<JsNumber>)
    ensures |c| == |items| && forall i :: 0 <= i < |items| ==> c[i] == FieldValue(items[i], f)
  {
    seq(|items|, i requires 0 <= i < |items| => FieldValue(items[i], f))
  }

  datatype PerVideoLatestAvg = PerVideoLatestAvg(
    views: Option<real>,
    likes: Option<real>,
    saves: Option<real>,
    comments: Option<real>,
    reach: Option<real>,
    shares: Option<real>,
    profileVisits: Option<real>,
    follows: Option<real>)

  datatype RatesAvg = RatesAvg(
    likeRate: Option<real>,
    saveRate: Option<real>,
    commentRate: Option<real>,
    shareRate: Option<real>,
    followRate: Option<real>)

  datatype AggregateStats = AggregateStats(perVideoLatestAvg: PerVideoLatestAvg, ratesAvg: RatesAvg) {
    /** The averaged value stored under a field. */
    function Get(f: StatField): Option<real> {
      match f
      case LatestViewsAvg => perVideoLatestAvg.views
      case LatestLikesAvg => perVideoLatestAvg.likes
      case LatestSavesAvg => perVideoLatestAvg.saves
      case LatestCommentsAvg => perVideoLatestAvg.comments
      case ReachAvg => perVideoLatestAvg.reach
      case SharesAvg => perVideoLatestAvg.shares
      case ProfileVisitsAvg => perVideoLatestAvg.profileVisits
      case FollowsAvg => perVideoLatestAvg.follows
      case LikeRateAvg => ratesAvg.likeRate
      case SaveRateAvg => ratesAvg.saveRate
      case CommentRateAvg => ratesAvg.commentRate
      case ShareRateAvg => ratesAvg.shareRate
      case FollowRateAvg => ratesAvg.followRate
    }
  }

  /** `buildAggregateStats`: the thirteen null-skipping means of a cohort. */
  function BuildAggregateStats(items: seq<G.VideoAggregate>): AggregateStats {
    AggregateStats(
      PerVideoLatestAvg(
        AvgOrNull(Column(items, LatestViewsAvg)), AvgOrNull(Column(items, LatestLikesAvg)),
        AvgOrNull(Column(items, LatestSavesAvg)), AvgOrNull(Column(items, LatestCommentsAvg)),
        AvgOrNull(Column(items, ReachAvg)), AvgOrNull(Column(items, SharesAvg)),
        AvgOrNull(Column(items, ProfileVisitsAvg)), AvgOrNull(Column(items, FollowsAvg))),
      RatesAvg(
        AvgOrNull(Column(items, LikeRateAvg)), AvgOrNull(Column(items, SaveRateAvg)),
        AvgOrNull(Column(items, CommentRateAvg)), AvgOrNull(Column(items, ShareRateAvg)),
        AvgOrNull(Column(items, FollowRateAvg))))
  }

  /** Every field of the stats is the mean of that field's column. */
  lemma StatsFieldIsColumnMean(items: seq<G.VideoAggregate>, f: StatField)
    ensures BuildAggregateStats(items).Get(f) == AvgOrNull(Column(items, f))
  {
    match f
    case LatestViewsAvg =>
    case LatestLikesAvg =>
    case LatestSavesAvg =>
    case LatestCommentsAvg =>
    case ReachAvg =>
    case SharesAvg =>
    case ProfileVisitsAvg =>
    case FollowsAvg =>
    case LikeRateAvg =>
    case SaveRateAvg =>
    case CommentRateAvg =>
    case ShareRateAvg =>
    case FollowRateAvg =>
  }

  /** A field is null exactly when no item has a finite value there; so
      every field of an empty cohort is null. */
  lemma StatsFieldNullIffNoValue(items: seq<G.VideoAggregate>, f: StatField)
    ensures BuildAggregateStats(items).Get(f).None? <==>
      forall i :: 0 <= i < |items| ==> !IsNumber(FieldValue(items[i], f))
    ensures items == [] ==> BuildAggregateStats(items).Get(f).None?
  {
    StatsFieldIsColumnMean(items, f);
    ColumnNullIffNoValue(items, f);
  }

  lemma ColumnNullIffNoValue(items: seq<G.VideoAggregate>, f: StatField)
    ensures AvgOrNull(Column(items, f)).None? <==>
      forall i :: 0 <= i < |items| ==> !IsNumber(FieldValue(items[i], f))
  {
    var c := Column(items, f);
    assert forall i :: 0 <= i < |items| ==> c[i] == FieldValue(items[i], f);
  }

  /** A field's mean lies between any bounds that the column's finite values
      respect. */
  lemma StatsFieldWithin(items: seq<G.VideoAggregate>, f: StatField, lo: real, hi: real)
    requires forall i :: 0 <= i < |items| && IsNumber(FieldValue(items[i], f)) ==>
               lo <= FieldValue(items[i], f).value <= hi
    ensures BuildAggregateStats(items).Get(f).Some? ==> lo <= BuildAggregateStats(items).Get(f).value <= hi
  {
    StatsFieldIsColumnMean(items, f);
    AvgWithin(Column(items, f), lo, hi);
  }
}

=== FILE: cohorts.dfy ===
/** The three cohorts the benchmarks are computed over: the ten most
    recently posted videos, and the top and bottom quartiles of the videos
    that have a numeric score. */
module Cohorts {
  import opened Js
  import opened StableSort
  import G = GoalScoring

  /** The score as the comparators read it: `scoreValue ?? 0`. */
  function ScoreKey(a: G.VideoAggregate): real {
    a.scoreValue.GetOr(0.0)
  }

  /** The ascending comparator `a - b` is the descending sort on the
      negated key. */
  function NegatedScoreKey(a: G.VideoAggregate): real {
    -ScoreKey(a)
  }

  /** The posting time as the comparator reads it: `parseDate(posted_at)
      ?.getTime() ?? 0`. */
  function PostedKey(a: G.VideoAggregate): real {
    if a.video.posted.Some? then a.video.posted.value.epochMs as real else 0.0
  }

  /** `aggregates.filter((item) => isNumber(item.scoreValue))`. */
  function Scored(aggregates: seq<G.VideoAggregate>): (r: seq<G.VideoAggregate>)
    ensures |r| <= |aggregates|
    ensures forall j :: 0 <= j < |r| ==> r[j].scoreValue.Some? && r[j] in aggregates
    ensures forall i :: 0 <= i < |aggregates| && aggregates[i].scoreValue.Some? ==> aggregates[i] in r
    decreases |aggregates|
  {
    if aggregates == [] then []
    else
      var rest := Scored(aggregates[1..]);
      assert forall i :: 1 <= i < |aggregates| ==> aggregates[i] == aggregates[1..][i - 1];
      assert forall x :: x in aggregates[1..] ==> x in aggregates;
      if aggregates[0].scoreValue.Some? then [aggregates[0]] + rest else rest
  }

  /** The filter works element by element and keeps input order: the
      scored videos of a + b are those of a followed by those of b. */
  lemma {:induction false} ScoredAppend(a: seq<G.VideoAggregate>, b: seq<G.VideoAggregate>)
    ensures Scored(a + b) == Scored(a) + Scored(b)
    decreases |a|
  {
    if a == [] {
      assert a + b == b;
    } else {
      var ab := a + b;
      assert ab[0] == a[0] && ab[1..] == a[1..] + b;
      ScoredAppend(a[1..], b);
      assert Scored(ab) == (if a[0].scoreValue.Some? then [a[0]] else []) + Scored(ab[1..]);
      assert Scored(a) == (if a[0].scoreValue.Some? then [a[0]] else []) + Scored(a[1..]);
    }
  }

  /** One video is kept exactly when it has a score. */
  lemma ScoredSingleton(x: G.VideoAggregate)
    ensures Scored([x]) == if x.scoreValue.Some? then [x] else []
  {
    assert [x][1..] == [];
  }

  /** The scored videos by descending score, ties in input order. */
  function ScoredSorted(aggregates: seq<G.VideoAggregate>): seq<G.VideoAggregate> {
    SortDesc(Scored(aggregates), ScoreKey)
  }

  /** `max(1, Math.round(n * 0.25))` when n > 0, else 0. */
  function QuartileCount(n: nat): (q: nat)
    ensures n == 0 <==> q == 0
    ensures q <= n
    ensures n >= 2 ==> n as real / 4.0 - 1.0 / 2.0 < q as real <= n as real / 4.0 + 1.0 / 2.0
  {
    if n == 0 then 0
    else
      var r := Round(n as real * 0.25);
      if r < 1 then 1 else r
  }

  /** `scoredSorted.slice(0, quartileCount)`. */
  function TopQuartile(aggregates: seq<G.VideoAggregate>): seq<G.VideoAggregate> {
    var sorted := ScoredSorted(aggregates);
    SliceTo(sorted, QuartileCount(|sorted|))
  }

  /** `[...scoredSorted].sort(ascending).slice(0, quartileCount)`. */
  function BottomQuartile(aggregates: seq<G.VideoAggregate>): seq<G.VideoAggregate> {
    var sorted := ScoredSorted(aggregates);
    SliceTo(SortDesc(sorted, NegatedScoreKey), QuartileCount(|sorted|))
  }

  /** All videos by descending posting time, ties in input order. */
  function SortedByPostedAt(aggregates: seq<G.VideoAggregate>): seq<G.VideoAggregate> {
    SortDesc(aggregates, PostedKey)
  }

  /** `sortedByPostedAt.slice(0, 10)`. */
  function Recent10(aggregates: seq<G.VideoAggregate>): seq<G.VideoAggregate> {
    SliceTo(SortedByPostedAt(aggregates), 10)
  }

  lemma PrefixMultiset<T>(s: seq<T>, k: nat)
    requires k <= |s|
    ensures multiset(s[..k]) <= multiset(s)
  {
    assert s == s[..k] + s[k..];
  }

  /** The top quartile has quartileCount entries, all scored videos, by
      descending score, and none scores below a scored video left out; of
      the videos sharing a score it keeps the first ones in input order. */
  lemma TopQuartileSpec(aggregates: seq<G.VideoAggregate>)
    ensures var top := TopQuartile(aggregates);
      var n := |Scored(aggregates)|;
      && |top| == QuartileCount(n)
      && (n > 0 ==> 1 <= |top|)
      && multiset(top) <= multiset(Scored(aggregates))
      && (forall i, j :: 0 <= i < j < |top| ==> ScoreKey(top[i]) >= ScoreKey(top[j]))
      && (forall i, j :: 0 <= i < |top| <= j < n ==> ScoreKey(top[i]) >= ScoreKey(ScoredSorted(aggregates)[j]))
      && (forall score :: KeyFilter(top, ScoreKey, score) <= KeyFilter(Scored(aggregates), ScoreKey, score))
  {
    var sorted := ScoredSorted(aggregates);
    SortIsSorted(Scored(aggregates), ScoreKey);
    PrefixMultiset(sorted, QuartileCount(|sorted|));
    PrefixKeepsFirstTies(Scored(aggregates), ScoreKey, QuartileCount(|sorted|));
  }

  /** The bottom quartile has quartileCount entries, all scored videos, by
      ascending score, and none scores above a scored video left out. The
      two stable sorts keep videos of equal score in input order, so of
      the videos sharing a score it keeps the first ones in input order. */
  lemma BottomQuartileSpec(aggregates: seq<G.VideoAggregate>)
    ensures var bottom := BottomQuartile(aggregates);
      var asc := SortDesc(ScoredSorted(aggregates), NegatedScoreKey);
      var n := |Scored(aggregates)|;
      && |bottom| == QuartileCount(n)
      && (n > 0 ==> 1 <= |bottom|)
      && multiset(bottom) <= multiset(Scored(aggregates))
      && (forall i, j :: 0 <= i < j < |bottom| ==> ScoreKey(bottom[i]) <= ScoreKey(bottom[j]))
      && (forall i, j :: 0 <= i < |bottom| <= j < n ==> ScoreKey(bottom[i]) <= ScoreKey(asc[j]))
      && (forall score :: KeyFilter(asc, ScoreKey, score) == KeyFilter(Scored(aggregates), ScoreKey, score))
      && (forall score :: KeyFilter(bottom, ScoreKey, score) <= KeyFilter(Scored(aggregates), ScoreKey, score))
  {
    var sorted := ScoredSorted(aggregates);
    var q := QuartileCount(|sorted|);
    AscendingPrefix(sorted, q);
    AscendingKeepsTies(sorted, q);
    forall score ensures KeyFilter(sorted, ScoreKey, score) == KeyFilter(Scored(aggregates), ScoreKey, score) {
      ScoredTiesKeepInputOrder(aggregates, score);
    }
  }

  /** The ascending sort keeps videos of equal score in their order, so a
      prefix of it keeps the first of them. */
  lemma AscendingKeepsTies(s: seq<G.VideoAggregate>, k: nat)
    requires k <= |s|
    ensures forall score :: KeyFilter(SortDesc(s, NegatedScoreKey), ScoreKey, score) == KeyFilter(s, ScoreKey, score)
    ensures forall score :: KeyFilter(SortDesc(s, NegatedScoreKey)[..k], ScoreKey, score) <= KeyFilter(s, ScoreKey, score)
  {
    var asc := SortDesc(s, NegatedScoreKey);
    PrefixKeepsFirstTies(s, NegatedScoreKey, k);
    forall score
      ensures KeyFilter(asc, ScoreKey, score) == KeyFilter(s, ScoreKey, score)
      ensures KeyFilter(asc[..k], ScoreKey, score) <= KeyFilter(s, ScoreKey, score)
    {
      NegatedKeyFilter(asc, score);
      NegatedKeyFilter(asc[..k], score);
      NegatedKeyFilter(s, score);
    }
  }

  /** Videos share a negated score exactly when they share the score. */
  lemma {:induction false} NegatedKeyFilter(s: seq<G.VideoAggregate>, score: real)
    ensures KeyFilter(s, NegatedScoreKey, -score) == KeyFilter(s, ScoreKey, score)
    decreases |s|
  {
    if s != [] {
      NegatedKeyFilter(s[1..], score);
    }
  }

  /** A prefix of the ascending order is drawn from the input, ascending,
      and scores no higher than what follows it. */
  lemma AscendingPrefix(s: seq<G.VideoAggregate>, k: nat)
    requires k <= |s|
    ensures var asc := SortDesc(s, NegatedScoreKey);
      var p := SliceTo(asc, k);
      && |p| == k
      && multiset(p) <= multiset(s)
      && (forall i, j :: 0 <= i < j < |p| ==> ScoreKey(p[i]) <= ScoreKey(p[j]))
      && (forall i, j :: 0 <= i < |p| <= j < |s| ==> ScoreKey(p[i]) <= ScoreKey(asc[j]))
  {
    var asc := SortDesc(s, NegatedScoreKey);
    SortIsSorted(s, NegatedScoreKey);
    PrefixMultiset(asc, k);
  }

  /** Scored videos with equal scores keep their input order in the
      descending order the top quartile is cut from. */
  lemma ScoredTiesKeepInputOrder(aggregates: seq<G.VideoAggregate>, score: real)
    ensures KeyFilter(ScoredSorted(aggregates), ScoreKey, score) == KeyFilter(Scored(aggregates), ScoreKey, score)
  {
    SortIsStable(Scored(aggregates), ScoreKey, score);
  }

  /** recent10 has min(10, n) entries taken from the videos, newest first,
      and none is older than a video left out. Videos with the same posting
      time (every undated video reads as 0) keep their input order, so of
      those it keeps the first ones. */
  lemma Recent10Spec(aggregates: seq<G.VideoAggregate>)
    ensures var recent := Recent10(aggregates);
      var sorted := SortedByPostedAt(aggregates);
      && |recent| == (if |aggregates| < 10 then |aggregates| else 10)
      && multiset(recent) <= multiset(aggregates)
      && (forall i, j :: 0 <= i < j < |recent| ==> PostedKey(recent[i]) >= PostedKey(recent[j]))
      && (forall i, j :: 0 <= i < |recent| <= j < |aggregates| ==> PostedKey(recent[i]) >= PostedKey(sorted[j]))
      && (forall t :: KeyFilter(sorted, PostedKey, t) == KeyFilter(aggregates, PostedKey, t))
      && (forall t :: KeyFilter(recent, PostedKey, t) <= KeyFilter(aggregates, PostedKey, t))
  {
    var sorted := SortedByPostedAt(aggregates);
    var m := |Recent10(aggregates)|;
    assert Recent10(aggregates) == sorted[..m];
    SortIsSorted(aggregates, PostedKey);
    PrefixMultiset(sorted, m);
    PrefixKeepsFirstTies(aggregates, PostedKey, m);
  }
}

=== FILE: database.dfy ===
/** The rows the engine consumes (the `videos`, `metrics_logs` and
    `account_insights` tables) and the analysis-tag record attached to a
    video. Date strings appear in their parsed form: `parseDate` either
    fails (None) or gives milliseconds since the epoch, and for a video's
    posting time also the local hour that `getHours()` reports. */
module Database {
  import opened Js

  /** A tag value as stored in a section: an enumerated string, or the one
      boolean field (`strategy.cta`). A field that is null or missing is
      simply absent from the section's map. */
  datatype TagValue = Str(s: string) | Bool(b: bool)

  /** One of the four tag sections, read as a record of field -> value. */
  type Section = map<string, TagValue>

  /** The four fixed sections of `analysis_tags`; a section may be null. */
  datatype AnalysisTags = AnalysisTags(
    basic: Option<Section>,
    content: Option<Section>,
    editing: Option<Section>,
    strategy: Option<Section>)

  type Hour = h: int | 0 <= h < 24

  /** A parsed `posted_at`: its instant and its hour in local time. */
  datatype PostedTime = PostedTime(epochMs: int, localHour: Hour)

  /** A row of `videos` (only the columns the engine reads). `postedAt` is
      the raw column value, echoed in the samples; `posted` is what
      parseDate and getHours make of it. */
  datatype VideoRow = VideoRow(
    id: string,
    caption: Option<string>,
    postedAt: Option<string>,
    posted: Option<PostedTime>,
    analysisTags: Option<AnalysisTags>,
    selfScore: JsNumber,
    reach: JsNumber,
    shares: JsNumber,
    profileVisits: JsNumber,
    follows: JsNumber,
    manualInputDone: Option<bool>)

  /** A row of `metrics_logs`: one metric snapshot of one video. An empty
      `videoId` stands for the falsy ids the reducer skips. */
  datatype MetricsLog = MetricsLog(
    videoId: string,
    fetchedAt: Option<int>,
    views: JsNumber,
    likes: JsNumber,
    saves: JsNumber,
    comments: JsNumber)

  /** A row of `account_insights`: the account's totals for one date. */
  datatype AccountInsightRow = AccountInsightRow(
    date: Option<int>,
    followersCount: JsNumber,
    profileViews: JsNumber,
    websiteClicks: JsNumber,
    reachDaily: JsNumber,
    impressionsDaily: JsNumber,
    onlinePeakHour: JsNumber,
    audienceData: Option<Json>)
}

=== FILE: goal_scoring.dfy ===
/** Rates, the goal scorer and the benchmark-metric choice: each video is
    paired with its latest snapshot, five guarded ratios and one score
    picked by a fixed fallback chain that depends on the primary goal. */
module GoalScoring {
  import opened Js
  import opened Database
  import opened LatestMetricsReducer

  /** The four primary goals a request can name. */
  datatype Goal = Followers | Reach | Saves | ProfileVisits {
    function Name(): string {
      match this
      case Followers => "followers"
      case Reach => "reach"
      case Saves => "saves"
      case ProfileVisits => "profile_visits"
    }
  }

  /** The metrics a score can be taken from, written out by Name(). */
  datatype ScoreMetric =
    | FollowRate | FollowsCount | ProfileVisitsCount
    | SaveRate | SavesCount
    | ManualReach | LatestViews
  {
    function Name(): string {
      match this
      case FollowRate => "follow_rate"
      case FollowsCount => "follows"
      case ProfileVisitsCount => "profile_visits"
      case SaveRate => "save_rate"
      case SavesCount => "saves"
      case ManualReach => "reach"
      case LatestViews => "views"
    }
  }

  datatype Rates = Rates(
    likeRate: Option<real>,
    saveRate: Option<real>,
    commentRate: Option<real>,
    shareRate: Option<real>,
    followRate: Option<real>)

  datatype Score = Score(value: Option<real>, metric: Option<ScoreMetric>)

  /** A video with everything the engine derives for it. */
  datatype VideoAggregate = VideoAggregate(
    video: VideoRow,
    latest: Option<LatestMetrics>,
    rates: Rates,
    scoreValue: Option<real>,
    scoreMetric: Option<ScoreMetric>)

  /** `safeRate`: the quotient rounded to 4 decimals, or null unless both
      operands are finite and the denominator is not zero. */
  function SafeRate(numerator: JsNumber, denominator: JsNumber): (r: Option<real>)
    ensures r.Some? <==> IsNumber(numerator) && IsNumber(denominator) && denominator.value != 0.0
    ensures r.Some? ==>
      var q := numerator.value / denominator.value;
      q - 1.0 / 20000.0 < r.value <= q + 1.0 / 20000.0
    ensures r.Some? ==> (r.value * 10000.0).Floor as real == r.value * 10000.0
    ensures r.Some? && numerator.value >= 0.0 && denominator.value > 0.0 ==> r.value >= 0.0
  {
    if !IsNumber(numerator) || !IsNumber(denominator) || denominator.value == 0.0 then None
    else Some(RoundTo4(numerator.value / denominator.value))
  }

  /** `latestMetrics?.field`: undefined when there is no snapshot. */
  function LatestField(latest: Option<LatestMetrics>, field: LatestMetrics -> Option<real>): JsNumber {
    if latest.None? then Null else FromOption(field(latest.value))
  }

  function LatestViewsOf(m: LatestMetrics): Option<real> { m.views }
  function LatestLikesOf(m: LatestMetrics): Option<real> { m.likes }
  function LatestSavesOf(m: LatestMetrics): Option<real> { m.saves }
  function LatestCommentsOf(m: LatestMetrics): Option<real> { m.comments }

  /** The five ratios of one video. */
  function RatesOf(video: VideoRow, latest: Option<LatestMetrics>): Rates {
    var views := LatestField(latest, LatestViewsOf);
    Rates(
      SafeRate(LatestField(latest, LatestLikesOf), views),
      SafeRate(LatestField(latest, LatestSavesOf), views),
      SafeRate(LatestField(latest, LatestCommentsOf), views),
      SafeRate(video.shares, video.reach),
      SafeRate(video.follows, video.profileVisits))
  }

  /** Where each score metric is read from. */
  function MetricSource(metric: ScoreMetric, video: VideoRow, latest: Option<LatestMetrics>, rates: Rates): Option<real> {
    match metric
    case FollowRate => rates.followRate
    case FollowsCount => ToOption(video.follows)
    case ProfileVisitsCount => ToOption(video.profileVisits)
    case SaveRate => rates.saveRate
    case SavesCount => ToOption(LatestField(latest, LatestSavesOf))
    case ManualReach => ToOption(video.reach)
    case LatestViews => ToOption(LatestField(latest, LatestViewsOf))
  }

  /** The fallback chain of each goal, most preferred first. */
  function Chain(goal: Goal): seq<ScoreMetric> {
    match goal
    case Followers => [FollowRate, FollowsCount, ProfileVisitsCount]
    case Saves => [SaveRate, SavesCount]
    case Reach => [ManualReach, LatestViews]
    case ProfileVisits => [ProfileVisitsCount]
  }

  /** Reference definition of a fallback chain: the first metric of the
      chain whose source holds a number. */
  function FirstAvailable(chain: seq<ScoreMetric>, video: VideoRow, latest: Option<LatestMetrics>, rates: Rates): (r: Score)
    ensures r.value.None? <==> r.metric.None?
    ensures r.metric.None? <==> forall i :: 0 <= i < |chain| ==> MetricSource(chain[i], video, latest, rates).None?
    ensures r.metric.Some? ==>
      r.value == MetricSource(r.metric.value, video, latest, rates) &&
      exists i :: 0 <= i < |chain| && chain[i] == r.metric.value &&
        (forall j :: 0 <= j < i ==> MetricSource(chain[j], video, latest, rates).None?)
    decreases |chain|
  {
    if chain == [] then Score(None, None)
    else
      var v := MetricSource(chain[0], video, latest, rates);
      if v.Some? then Score(v, Some(chain[0]))
      else
        var rest := FirstAvailable(chain[1..], video, latest, rates);
        assert rest.metric.Some? ==> (exists i :: 1 <= i < |chain| && chain[i] == rest.metric.value &&
                                       (forall j :: 0 <= j < i ==> MetricSource(chain[j], video, latest, rates).None?)) by {
          if rest.metric.Some? {
            var i :| 0 <= i < |chain[1..]| && chain[1..][i] == rest.metric.value &&
              forall j :: 0 <= j < i ==> MetricSource(chain[1..][j], video, latest, rates).None?;
            assert chain[i + 1] == rest.metric.value;
            forall j | 0 <= j < i + 1 ensures MetricSource(chain[j], video, latest, rates).None? {
              if j > 0 { assert chain[j] == chain[1..][j - 1]; }
            }
          }
        }
        assert rest.metric.None? ==> forall i :: 0 <= i < |chain| ==> MetricSource(chain[i], video, latest, rates).None? by {
          if rest.metric.None? {
            forall i | 0 <= i < |chain| ensures MetricSource(chain[i], video, latest, rates).None? {
              if i > 0 { assert chain[i] == chain[1..][i - 1]; }
            }
          }
        }
        rest
  }

  /** `pickScoreValue`: the goal's fallback chain, written as the
      sequence of tests the scorer performs. */
  function PickScoreValue(video: VideoRow, latest: Option<LatestMetrics>, rates: Rates, goal: Goal): (r: Score)
    ensures r == FirstAvailable(Chain(goal), video, latest, rates)
    ensures r.value.None? <==> r.metric.None?
    ensures r.metric.Some? ==> r.metric.value in Chain(goal)
  {
    var chain := Chain(goal);
    assert chain == [chain[0]] + chain[1..];
    assert |chain| > 1 ==> chain[1..] == [chain[1]] + chain[2..];
    assert |chain| > 2 ==> chain[2..] == [chain[2]] + chain[3..];
    match goal
    case Followers =>
      if rates.followRate.Some? then Score(rates.followRate, Some(FollowRate))
      else if IsNumber(video.follows) then Score(Some(video.follows.value), Some(FollowsCount))
      else if IsNumber(video.profileVisits) then Score(Some(video.profileVisits.value), Some(ProfileVisitsCount))
      else Score(None, None)
    case Saves =>
      if rates.saveRate.Some? then Score(rates.saveRate, Some(SaveRate))
      else if latest.Some? && latest.value.saves.Some? then Score(latest.value.saves, Some(SavesCount))
      else Score(None, None)
    case Reach =>
      if IsNumber(video.reach) then Score(Some(video.reach.value), Some(ManualReach))
      else if latest.Some? && latest.value.views.Some? then Score(latest.value.views, Some(LatestViews))
      else Score(None, None)
    case ProfileVisits =>
      if IsNumber(video.profileVisits) then Score(Some(video.profileVisits.value), Some(ProfileVisitsCount))
      else Score(None, None)
  }

  /** `hasMetric`: some aggregate was scored with this metric. */
  predicate HasMetric(aggregates: seq<VideoAggregate>, metric: ScoreMetric) {
    exists i :: 0 <= i < |aggregates| && aggregates[i].scoreMetric == Some(metric)
  }

  /** `chooseBenchmarkMetric`: the earliest metric of the goal's chain that
      some aggregate was scored with, or null. */
  function ChooseBenchmarkMetric(aggregates: seq<VideoAggregate>, goal: Goal): (r: Option<ScoreMetric>)
    ensures r.Some? ==> r.value in Chain(goal) && HasMetric(aggregates, r.value)
    ensures r.Some? ==> (exists i :: 0 <= i < |Chain(goal)| && Chain(goal)[i] == r.value &&
                          (forall j :: 0 <= j < i ==> !HasMetric(aggregates, Chain(goal)[j])))
    ensures r.None? <==> forall i :: 0 <= i < |Chain(goal)| ==> !HasMetric(aggregates, Chain(goal)[i])
  {
    match goal
    case Followers =>
      if HasMetric(aggregates, FollowRate) then Some(FollowRate)
      else if HasMetric(aggregates, FollowsCount) then Some(FollowsCount)
      else if HasMetric(aggregates, ProfileVisitsCount) then Some(ProfileVisitsCount)
      else None
    case Saves =>
      if HasMetric(aggregates, SaveRate) then Some(SaveRate)
      else if HasMetric(aggregates, SavesCount) then Some(SavesCount)
      else None
    case Reach =>
      if HasMetric(aggregates, ManualReach) then Some(ManualReach)
      else if HasMetric(aggregates, LatestViews) then Some(LatestViews)
      else None
    case ProfileVisits =>
      if HasMetric(aggregates, ProfileVisitsCount) then Some(ProfileVisitsCount)
      else None
  }

  /** One element of `buildAggregates`. */
  function BuildAggregate(video: VideoRow, latestMap: map<string, LatestMetrics>, goal: Goal): VideoAggregate {
    var latest := if video.id in latestMap then Some(latestMap[video.id]) else None;
    var rates := RatesOf(video, latest);
    var score := PickScoreValue(video, latest, rates, goal);
    VideoAggregate(video, latest, rates, score.value, score.metric)
  }

  /** `buildAggregates`: one aggregate per video, in the videos' order. */
  function BuildAggregates(videos: seq<VideoRow>, latestMap: map<string, LatestMetrics>, goal: Goal): (r: seq<VideoAggregate>)
    ensures |r| == |videos|
    ensures forall i :: 0 <= i < |videos| ==> r[i] == BuildAggregate(videos[i], latestMap, goal)
  {
    seq(|videos|, i requires 0 <= i < |videos| => BuildAggregate(videos[i], latestMap, goal))
  }

  /** Every aggregate keeps its video and its snapshot, is scored from the
      goal's chain, and has a metric exactly when it has a score. */
  lemma AggregatesScoredFromChain(videos: seq<VideoRow>, latestMap: map<string, LatestMetrics>, goal: Goal, i: nat)
    requires i < |videos|
    ensures var a := BuildAggregates(videos, latestMap, goal)[i];
      && a.video == videos[i]
      && (a.latest.Some? <==> videos[i].id in latestMap)
      && (a.latest.Some? ==> a.latest.value == latestMap[videos[i].id])
      && (a.scoreValue.None? <==> a.scoreMetric.None?)
      && (a.scoreMetric.Some? ==>
            (a.scoreMetric.value in Chain(goal) &&
             a.scoreValue == MetricSource(a.scoreMetric.value, a.video, a.latest, a.rates)))
  {
  }

  /** The benchmark metric is null exactly when no video could be scored. */
  lemma BenchmarkAbsentIffUnscored(videos: seq<VideoRow>, latestMap: map<string, LatestMetrics>, goal: Goal)
    ensures var aggs := BuildAggregates(videos, latestMap, goal);
      ChooseBenchmarkMetric(aggs, goal).None? <==> forall i :: 0 <= i < |aggs| ==> aggs[i].scoreValue.None?
  {
    var aggs := BuildAggregates(videos, latestMap, goal);
    var chain := Chain(goal);
    if ChooseBenchmarkMetric(aggs, goal).None? {
      forall i | 0 <= i < |aggs| ensures aggs[i].scoreValue.None? {
        AggregatesScoredFromChain(videos, latestMap, goal, i);
      }
    } else {
      var m := ChooseBenchmarkMetric(aggs, goal).value;
      var i :| 0 <= i < |aggs| && aggs[i].scoreMetric == Some(m);
      AggregatesScoredFromChain(videos, latestMap, goal, i);
    }
  }
}

=== FILE: hero_analysis.dfy ===
/** The dashboard's hero section: the early-growth chart of the latest video
    against the average of the earlier ones, with a badge that reports the
    rounded percentage difference at the latest comparable hour. */
module HeroAnalysis {
  import opened Js
  import opened Timepoints

  /** `formatPercent`: "+" before a positive value, then the value and "%". */
  function FormatPercent(value: int): string {
    (if value > 0 then "+" else "") + IntText(value) + "%"
  }

  function Abs(n: int): nat {
    if n < 0 then -n else n
  }

  /** The percentage reads back: its first character gives the value's
      sign, it ends in "%", and the digits in between spell the magnitude. */
  lemma FormatPercentReadsBack(value: int)
    ensures var s := FormatPercent(value);
      var start := if value == 0 then 0 else 1;
      && start < |s| - 1 && s[|s| - 1] == '%'
      && (s[0] == '+' <==> value > 0)
      && (s[0] == '-' <==> value < 0)
      && ParseDecimal(s[start..|s| - 1]) == Abs(value)
  {
    var sign := if value > 0 then "+" else if value < 0 then "-" else "";
    var s := FormatPercent(value);
    assert s == sign + NatText(Abs(value)) + "%";
    SignedText(sign, Abs(value));
    assert s[|sign|..|s| - 1] == NatText(Abs(value)) by {
      SignedText(sign, Abs(value));
    }
    NatTextRoundTrip(Abs(value));
  }

  /** A sign, the digits of a magnitude, then "%". */
  lemma SignedText(sign: string, n: nat)
    requires |sign| <= 1
    ensures var s := sign + NatText(n) + "%";
      && |sign| < |s| - 1 && s[|s| - 1] == '%'
      && s[|sign|..|s| - 1] == NatText(n)
      && (sign == [] ==> IsDigit(s[0]))
      && (sign != [] ==> s[0] == sign[0])
  {
    var s := sign + NatText(n) + "%";
    assert s[|sign|..|s| - 1] == NatText(n);
  }

  /** `Math.round((target - average) / average * 100)`. */
  function PercentDiff(target: real, average: int): int
    requires average > 0
  {
    Round((target - average as real) / average as real * 100.0)
  }

  /** The rounded percentage is positive exactly when the target exceeds
      the average by at least half a percent of it, and negative exactly
      when it falls short by more than half a percent. */
  lemma PercentDiffSign(target: real, average: int)
    requires average > 0
    ensures PercentDiff(target, average) > 0 <==> 200.0 * (target - average as real) >= average as real
    ensures PercentDiff(target, average) < 0 <==> 200.0 * (target - average as real) < -(average as real)
  {
    var a := average as real;
    var x := (target - a) / a * 100.0;
    var scaled := (target - a) * 100.0;
    RoundSign(x);
    assert x * a == scaled;
    HalfThresholds(x, a, scaled);
  }

  /** For a positive a, the half-unit thresholds on x are thresholds on
      x * a. */
  lemma HalfThresholds(x: real, a: real, scaled: real)
    requires a > 0.0 && x * a == scaled
    ensures x >= 1.0 / 2.0 <==> 2.0 * scaled >= a
    ensures x < -1.0 / 2.0 <==> 2.0 * scaled < -a
  {
    ScaleCompare(x, a, 1.0 / 2.0);
    ScaleCompare(x, a, -1.0 / 2.0);
  }

  /** A rounded value is positive exactly from one half up, and negative
      exactly below minus one half. */
  lemma RoundSign(x: real)
    ensures Round(x) > 0 <==> x >= 1.0 / 2.0
    ensures Round(x) < 0 <==> x < -1.0 / 2.0
  {
  }

  /** The badge's five outcomes. */
  datatype Verdict = Ahead(diff: int) | Behind(diff: int) | Level | Insufficient | NoAverage {
    /** `comparisonText`. */
    function Text(): string {
      match this
      case Ahead(d) => "🚀 平均比 " + FormatPercent(d)
      case Behind(d) => "🐢 平均比 " + FormatPercent(d)
      case Level => "🟰 平均比 0%"
      case Insufficient => "📊 データ不足"
      case NoAverage => "平均データなし"
    }

    /** `comparisonTone`. */
    function Tone(): string {
      match this
      case Ahead(_) => "bg-emerald-100 text-emerald-700 border-emerald-200"
      case Behind(_) => "bg-amber-100 text-amber-700 border-amber-200"
      case _ => "bg-slate-100 text-slate-600 border-slate-200"
    }
  }

  /** The badge for the latest comparison: with a positive average, the sign
      of the rounded percentage picks up, down or level; without a latest
      comparison and without benchmark videos there is no average; otherwise
      the data is insufficient. A null target counts as 0. */
  function VerdictOf(latest: Option<ChartPoint>, benchmarkCount: nat): Verdict {
    if latest.Some? && latest.value.average.Some? && latest.value.average.value > 0 then
      var d := PercentDiff(latest.value.target.GetOr(0.0), latest.value.average.value);
      if d > 0 then Ahead(d) else if d < 0 then Behind(d) else Level
    else if latest.None? && benchmarkCount == 0 then NoAverage
    else Insufficient
  }

  /** The badge, reassigning `comparisonText` and `comparisonTone`. */
  method ComparisonBadge(latest: Option<ChartPoint>, benchmarkCount: nat) returns (text: string, tone: string)
    ensures text == VerdictOf(latest, benchmarkCount).Text()
    ensures tone == VerdictOf(latest, benchmarkCount).Tone()
  {
    text := "📊 データ不足";
    tone := "bg-slate-100 text-slate-600 border-slate-200";
    if latest.Some? && latest.value.average.Some? && latest.value.average.value > 0 {
      var average := latest.value.average.value;
      var diff := PercentDiff(latest.value.target.GetOr(0.0), average);
      if diff > 0 {
        text := "🚀 平均比 " + FormatPercent(diff);
        tone := "bg-emerald-100 text-emerald-700 border-emerald-200";
      } else if diff < 0 {
        text := "🐢 平均比 " + FormatPercent(diff);
        tone := "bg-amber-100 text-amber-700 border-amber-200";
      } else {
        text := "🟰 平均比 0%";
        tone := "bg-slate-100 text-slate-600 border-slate-200";
      }
    }
    if latest.None? && benchmarkCount == 0 {
      text := "平均データなし";
      tone := "bg-slate-100 text-slate-600 border-slate-200";
    }
  }

  /** Each outcome in terms of the latest comparison's numbers: up when
      200(t - a) >= a, down when 200(t - a) < -a, level in between (all with
      a positive average a); no average exactly when there is neither a
      latest comparison nor a benchmark video. */
  lemma VerdictSpec(latest: Option<ChartPoint>, benchmarkCount: nat)
    ensures var v := VerdictOf(latest, benchmarkCount);
      var positive := latest.Some? && latest.value.average.Some? && latest.value.average.value > 0;
      var t := if latest.Some? then latest.value.target.GetOr(0.0) else 0.0;
      var a := if positive then latest.value.average.value as real else 0.0;
      && (v.Ahead? <==> positive && 200.0 * (t - a) >= a)
      && (v.Behind? <==> positive && 200.0 * (t - a) < -a)
      && (v.Level? <==> positive && -a <= 200.0 * (t - a) < a)
      && (v.NoAverage? <==> latest.None? && benchmarkCount == 0)
      && (v.Insufficient? <==> !positive && !(latest.None? && benchmarkCount == 0))
      && (v.Ahead? ==> v.diff > 0)
      && (v.Behind? ==> v.diff < 0)
  {
    if latest.Some? && latest.value.average.Some? && latest.value.average.value > 0 {
      PercentDiffSign(latest.value.target.GetOr(0.0), latest.value.average.value);
    }
  }

  /** The badge's first character names the outcome. */
  lemma VerdictTextHead(v: Verdict)
    ensures v.Text() != []
    ensures v.Ahead? <==> v.Text()[0] == '🚀'
    ensures v.Behind? <==> v.Text()[0] == '🐢'
    ensures v.Level? <==> v.Text()[0] == '🟰'
    ensures v.Insufficient? <==> v.Text()[0] == '📊'
    ensures v.NoAverage? <==> v.Text()[0] == '平'
  {
  }

  /** The section's `useMemo`: the chart view and the badge. */
  method HeroAnalysisMemo(videos: seq<ChartVideo>, metricKey: string) returns (view: ChartView, text: string, tone: string)
    ensures view == ChartViewOf(videos, metricKey)
    ensures text == VerdictOf(view.latest, view.benchmarkCount).Text()
    ensures tone == VerdictOf(view.latest, view.benchmarkCount).Tone()
  {
    view := ChartMemo(videos, metricKey);
    text, tone := ComparisonBadge(view.latest, view.benchmarkCount);
  }

  /** On the section's own view, "no average" is shown exactly when there
      is at most one video, and "insufficient" exactly when there are
      benchmark videos but no latest comparison with a positive average. */
  lemma HeroBadgeSpec(videos: seq<ChartVideo>, metricKey: string)
    ensures var view := ChartViewOf(videos, metricKey);
      var v := VerdictOf(view.latest, view.benchmarkCount);
      && (v.NoAverage? <==> |videos| <= 1)
      && (v.Insufficient? <==> |videos| >= 2 && (view.latest.None? || view.latest.value.average.value <= 0))
  {
    ChartViewSpec(videos, metricKey);
  }
}

=== FILE: hero_comparison.dfy ===
/** The analysis page's comparison chart: the same early-growth chart as the
    dashboard hero section, with a status badge that compares the latest
    comparable values directly. */
module HeroComparison {
  import opened Js
  import opened Timepoints
  import H = HeroAnalysis

  /** The status badge's five outcomes. */
  datatype Status = Ahead | Behind | Level | NoComparison | Insufficient {
    /** `statusText`. */
    function Text(): string {
      match this
      case Ahead => "🚀 ペース良好"
      case Behind => "🐢 伸び悩み"
      case Level => "🟰 ほぼ平均"
      case NoComparison => "比較データなし"
      case Insufficient => "データ不足"
    }

    /** `statusClass`. */
    function ClassName(): string {
      match this
      case Ahead => "border-emerald-200 bg-emerald-500 text-white"
      case Behind => "border-amber-200 bg-amber-500 text-white"
      case Level => "border-slate-100 bg-slate-200 text-slate-700"
      case _ => "border-slate-100 bg-slate-100 text-slate-600"
    }
  }

  /** `latestComparison?.target ?? null`. */
  function LatestTarget(latest: Option<ChartPoint>): Option<real> {
    if latest.Some? then latest.value.target else None
  }

  /** `latestComparison?.average ?? null`. */
  function LatestAverage(latest: Option<ChartPoint>): Option<int> {
    if latest.Some? then latest.value.average else None
  }

  /** The status: with both latest values numbers, their order; else, with
      no benchmark video, no comparison; else insufficient data. */
  function StatusOf(latest: Option<ChartPoint>, benchmarkCount: nat): Status {
    var target := LatestTarget(latest);
    var average := LatestAverage(latest);
    if target.Some? && average.Some? then
      if target.value > average.value as real then Ahead
      else if target.value < average.value as real then Behind
      else Level
    else if benchmarkCount == 0 then NoComparison
    else Insufficient
  }

  /** The status, reassigning `statusText` and `statusClass`. */
  method StatusBadge(latest: Option<ChartPoint>, benchmarkCount: nat) returns (text: string, className: string)
    ensures text == StatusOf(latest, benchmarkCount).Text()
    ensures className == StatusOf(latest, benchmarkCount).ClassName()
  {
    var latestTarget := if latest.Some? then latest.value.target else None;
    var latestAverage := if latest.Some? then latest.value.average else None;
    text := "データ不足";
    className := "border-slate-100 bg-slate-100 text-slate-600";
    if latestTarget.Some? && latestAverage.Some? {
      if latestTarget.value > latestAverage.value as real {
        text := "🚀 ペース良好";
        className := "border-emerald-200 bg-emerald-500 text-white";
      } else if latestTarget.value < latestAverage.value as real {
        text := "🐢 伸び悩み";
        className := "border-amber-200 bg-amber-500 text-white";
      } else {
        text := "🟰 ほぼ平均";
        className := "border-slate-100 bg-slate-200 text-slate-700";
      }
    } else if benchmarkCount == 0 {
      text := "比較データなし";
      className := "border-slate-100 bg-slate-100 text-slate-600";
    }
  }

  /** The five outcomes are told apart by their texts. */
  lemma StatusTextsDistinct(s1: Status, s2: Status)
    ensures s1.Text() == s2.Text() <==> s1 == s2
  {
    if s1 != s2 {
      assert s1.Text()[0] != s2.Text()[0];
    }
  }

  /** The chart's `useMemo` and its status badge. */
  method ComparisonMemo(videos: seq<ChartVideo>, metricKey: string) returns (view: ChartView, text: string, className: string)
    ensures view == ChartViewOf(videos, metricKey)
    ensures text == StatusOf(view.latest, view.benchmarkCount).Text()
    ensures className == StatusOf(view.latest, view.benchmarkCount).ClassName()
  {
    view := ChartMemo(videos, metricKey);
    text, className := StatusBadge(view.latest, view.benchmarkCount);
  }

  /** On the chart's own view, "no comparison" is shown exactly when there
      is at most one video, and "insufficient" exactly when there are
      benchmark videos but no hour with both numbers. */
  lemma ComparisonStatusSpec(videos: seq<ChartVideo>, metricKey: string)
    ensures var view := ChartViewOf(videos, metricKey);
      var s := StatusOf(view.latest, view.benchmarkCount);
      && (s.NoComparison? <==> |videos| <= 1)
      && (s.Insufficient? <==> |videos| >= 2 && forall i :: 0 <= i < |view.data| ==> !Comparable(view.data[i]))
  {
    var view := ChartViewOf(videos, metricKey);
    ChartViewSpec(videos, metricKey);
    StatusOfLatest(view.latest, view.benchmarkCount, view.data);
  }

  /** The status for the last comparable point of some data. */
  lemma StatusOfLatest(latest: Option<ChartPoint>, benchmarkCount: nat, data: seq<ChartPoint>)
    requires latest.None? <==> forall i :: 0 <= i < |data| ==> !Comparable(data[i])
    requires latest.Some? ==> Comparable(latest.value) && benchmarkCount > 0
    ensures StatusOf(latest, benchmarkCount).NoComparison? <==> benchmarkCount == 0
    ensures StatusOf(latest, benchmarkCount).Insufficient? <==>
      benchmarkCount > 0 && forall i :: 0 <= i < |data| ==> !Comparable(data[i])
  {
  }

  /** The two badges agree on a latest comparison with a positive average:
      the dashboard's up or down implies the chart's, and the chart's level
      implies the dashboard's level; the dashboard's "no average" and the
      chart's "no comparison" coincide. */
  lemma BadgesAgree(latest: Option<ChartPoint>, benchmarkCount: nat)
    requires latest.Some? ==> Comparable(latest.value)
    ensures var v := H.VerdictOf(latest, benchmarkCount);
      var s := StatusOf(latest, benchmarkCount);
      && (v.Ahead? ==> s.Ahead?)
      && (v.Behind? ==> s.Behind?)
      && (s.Level? && latest.value.average.value > 0 ==> v.Level?)
      && (v.NoAverage? <==> s.NoComparison?)
  {
    H.VerdictSpec(latest, benchmarkCount);
  }
}

=== FILE: js.dfy ===
/** The parts of the JavaScript runtime that the engine depends on: values
    that may be null or non-finite, Math.round, String.prototype.trim,
    String.prototype.replace with a string pattern, and the decimal text of
    integers inside template literals. */
module Js {

  datatype Option<T> = None | Some(value: T) {
    function GetOr(default: T): T {
      if Some? then value else default
    }
  }

  /** A `number | null | undefined` read from a row: absent, a finite
      number, or NaN / +-Infinity. */
  datatype JsNumber = Null | Finite(value: real) | NonFinite

  /** `isNumber`: `typeof value === "number" && Number.isFinite(value)`. */
  predicate IsNumber(x: JsNumber) {
    x.Finite?
  }

  /** The finite value, or None for everything `isNumber` rejects. */
  function ToOption(x: JsNumber): Option<real> {
    if x.Finite? then Some(x.value) else None
  }

  /** A `number | null` that is known to be finite when present. */
  function FromOption(o: Option<real>): JsNumber {
    if o.Some? then Finite(o.value) else Null
  }

  /** A JSON value, as stored in `jsonb` columns and request bodies. */
  datatype Json =
    | JNull
    | JBool(b: bool)
    | JNumber(n: real)
    | JString(s: string)
    | JArray(items: seq<Json>)
    | JObject(members: seq<(string, Json)>)

  /** Math.round: the integer nearest to x, halves going toward +infinity. */
  function Round(x: real): (n: int)
    ensures x - 1.0 / 2.0 < n as real <= x + 1.0 / 2.0
  {
    (x + 1.0 / 2.0).Floor
  }

  lemma RoundMonotonic(x: real, y: real)
    requires x <= y
    ensures Round(x) <= Round(y)
  {
  }

  /** Multiplying by a positive number keeps a comparison. */
  lemma ScaleCompare(x: real, a: real, c: real)
    requires a > 0.0
    ensures x >= c <==> x * a >= c * a
  {
    assert (x - c) * a == x * a - c * a;
    if x >= c {
      assert (x - c) * a >= 0.0;
    } else {
      assert (c - x) * a > 0.0;
    }
  }

  /** A total of n values that all lie in [lo, hi] has its mean there too. */
  lemma MeanBounds(total: real, n: real, lo: real, hi: real)
    requires n > 0.0 && n * lo <= total <= n * hi
    ensures lo <= total / n <= hi
  {
    assert total == total / n * n;
  }

  /** `roundTo(value, 4)`: Math.round(value * 10^4) / 10^4, the point of
      the 10^-4 grid nearest to x (halves going up). The two clauses pin r:
      only one grid point lies in a half-open interval of width 10^-4. */
  function RoundTo4(x: real): (r: real)
    ensures x - 1.0 / 20000.0 < r <= x + 1.0 / 20000.0
    ensures (r * 10000.0).Floor as real == r * 10000.0
  {
    Round(x * 10000.0) as real / 10000.0
  }

  /** The characters String.prototype.trim removes: ECMAScript WhiteSpace
      and LineTerminator code points. */
  predicate IsWhiteSpace(c: char) {
    c == '\t' || c == '\n' || c == '\U{000B}' || c == '\U{000C}' || c == '\r'
    || c == ' ' || c == '\U{00A0}' || c == '\U{1680}'
    || ('\U{2000}' <= c <= '\U{200A}')
    || c == '\U{2028}' || c == '\U{2029}' || c == '\U{202F}' || c == '\U{205F}'
    || c == '\U{3000}' || c == '\U{FEFF}'
  }

  function TrimStart(s: string): (r: string)
    ensures |r| <= |s| && r == s[|s| - |r|..]
    ensures r != [] ==> !IsWhiteSpace(r[0])
    ensures forall i :: 0 <= i < |s| - |r| ==> IsWhiteSpace(s[i])
  {
    if s != [] && IsWhiteSpace(s[0]) then TrimStart(s[1..]) else s
  }

  function TrimEnd(s: string): (r: string)
    ensures |r| <= |s| && r == s[..|r|]
    ensures r != [] ==> !IsWhiteSpace(r[|r| - 1])
    ensures forall i :: |r| <= i < |s| ==> IsWhiteSpace(s[i])
  {
    if s != [] && IsWhiteSpace(s[|s| - 1]) then TrimEnd(s[..|s| - 1]) else s
  }

  /** String.prototype.trim: the slice of s between its leading and its
      trailing white space. */
  function Trim(s: string): (r: string)
    ensures |r| <= |s|
    ensures r != [] ==> !IsWhiteSpace(r[0]) && !IsWhiteSpace(r[|r| - 1])
    ensures r == [] <==> forall i :: 0 <= i < |s| ==> IsWhiteSpace(s[i])
    ensures exists i :: TrimmedAt(s, r, i)
  {
    TrimBlank(s);
    TrimSlice(s);
    TrimEnd(TrimStart(s))
  }

  /** r is the slice of s starting at i, and everything of s before and
      after it is white space. */
  predicate TrimmedAt(s: string, r: string, i: nat) {
    && i + |r| <= |s| && r == s[i..i + |r|]
    && (forall k :: 0 <= k < i ==> IsWhiteSpace(s[k]))
    && (forall k :: i + |r| <= k < |s| ==> IsWhiteSpace(s[k]))
  }

  /** Trimming both ends cuts s at |s| - |TrimStart(s)|. */
  lemma TrimSlice(s: string)
    ensures TrimmedAt(s, TrimEnd(TrimStart(s)), |s| - |TrimStart(s)|)
  {
    var t := TrimStart(s);
    SuffixThenPrefix(s, t, TrimEnd(t), |s| - |t|);
  }

  /** A prefix r of the suffix t of s starting at i, with white space
      before i and after r within t, is trimmed out of s at i. */
  lemma SuffixThenPrefix(s: string, t: string, r: string, i: nat)
    requires i <= |s| && t == s[i..] && |r| <= |t| && r == t[..|r|]
    requires forall k :: 0 <= k < i ==> IsWhiteSpace(s[k])
    requires forall k :: |r| <= k < |t| ==> IsWhiteSpace(t[k])
    ensures TrimmedAt(s, r, i)
  {
    forall k | i + |r| <= k < |s| ensures IsWhiteSpace(s[k]) {
      assert s[k] == t[k - i];
    }
  }

  lemma TrimBlank(s: string)
    ensures TrimEnd(TrimStart(s)) == [] <==> forall i :: 0 <= i < |s| ==> IsWhiteSpace(s[i])
  {
    var t := TrimStart(s);
    var r := TrimEnd(t);
    if r == [] {
      forall i | 0 <= i < |s| ensures IsWhiteSpace(s[i]) {
        if i >= |s| - |t| {
          assert s[i] == t[i - (|s| - |t|)];
        }
      }
    } else {
      assert r[0] == t[0] == s[|s| - |t|];
    }
  }

  /** True when p occurs in s starting at index i. */
  predicate OccursAt(s: string, p: string, i: nat) {
    i + |p| <= |s| && s[i..i + |p|] == p
  }

  /** The first index at or after `from` where p occurs in s. */
  function IndexOfFrom(s: string, p: string, from: nat): (r: Option<nat>)
    requires from <= |s|
    ensures r.Some? ==> from <= r.value && OccursAt(s, p, r.value)
    ensures r.Some? ==> forall i :: from <= i < r.value ==> !OccursAt(s, p, i)
    ensures r.None? ==> forall i :: from <= i <= |s| ==> !OccursAt(s, p, i)
    decreases |s| - from
  {
    if OccursAt(s, p, from) then Some(from)
    else if from == |s| then None
    else IndexOfFrom(s, p, from + 1)
  }

  /** String.prototype.indexOf: the first occurrence of p in s. */
  function IndexOf(s: string, p: string): Option<nat> {
    IndexOfFrom(s, p, 0)
  }

  /** GetSubstitution for a string pattern (no capture groups): in the
      replacement, `$$` stands for `$`, `$&` for the matched text, `` $` ``
      for the text before the match and `$'` for the text after it; any
      other `$` is kept as it is. */
  function Substitution(matched: string, before: string, after: string, replacement: string): string
    decreases |replacement|
  {
    if replacement == [] then []
    else if replacement[0] == '$' && |replacement| >= 2 then
      var c := replacement[1];
      if c == '$' then "$" + Substitution(matched, before, after, replacement[2..])
      else if c == '&' then matched + Substitution(matched, before, after, replacement[2..])
      else if c == '`' then before + Substitution(matched, before, after, replacement[2..])
      else if c == '\'' then after + Substitution(matched, before, after, replacement[2..])
      else "$" + Substitution(matched, before, after, replacement[1..])
    else [replacement[0]] + Substitution(matched, before, after, replacement[1..])
  }

  /** A replacement without `$` is inserted verbatim. */
  lemma {:induction false} SubstitutionVerbatim(matched: string, before: string, after: string, replacement: string)
    requires '$' !in replacement
    ensures Substitution(matched, before, after, replacement) == replacement
    decreases |replacement|
  {
    if replacement != [] {
      assert replacement[0] != '$';
      assert '$' !in replacement[1..] by {
        forall i | 0 <= i < |replacement| - 1 ensures replacement[1..][i] != '$' {
          assert replacement[1..][i] == replacement[i + 1];
        }
      }
      SubstitutionVerbatim(matched, before, after, replacement[1..]);
    }
  }

  /** `$&` alone inserts the matched text. */
  lemma SubstitutionOfMatch(matched: string, before: string, after: string)
    ensures Substitution(matched, before, after, "$&") == matched
  {
    assert "$&"[2..] == [];
  }

  /** A text without `$` in front of the replacement is copied as it is,
      and the rest is expanded on its own. */
  lemma {:induction false} SubstitutionPlainPrefix(matched: string, before: string, after: string, plain: string, rest: string)
    requires '$' !in plain
    ensures Substitution(matched, before, after, plain + rest) == plain + Substitution(matched, before, after, rest)
    decreases |plain|
  {
    if plain != [] {
      var r := plain + rest;
      assert r[0] == plain[0] && r[1..] == plain[1..] + rest;
      assert '$' !in plain[1..] by {
        forall i | 0 <= i < |plain| - 1 ensures plain[1..][i] != '$' {
          assert plain[1..][i] == plain[i + 1];
        }
      }
      SubstitutionPlainPrefix(matched, before, after, plain[1..], rest);
      assert plain == [plain[0]] + plain[1..];
    } else {
      assert plain + rest == rest;
    }
  }

  /** A replacement holding one `$&` and no other `$` puts the matched
      text in place of those two characters. */
  lemma SubstitutionOfEmbeddedMatch(matched: string, before: string, after: string, a: string, b: string)
    requires '$' !in a && '$' !in b
    ensures Substitution(matched, before, after, a + "$&" + b) == a + matched + b
  {
    var tail := "$&" + b;
    assert a + "$&" + b == a + tail;
    SubstitutionPlainPrefix(matched, before, after, a, tail);
    assert tail[0] == '$' && tail[1] == '&' && tail[2..] == b;
    SubstitutionVerbatim(matched, before, after, b);
  }

  /** String.prototype.replace(pattern, replacement) with a string pattern:
      only the first occurrence is replaced. */
  function Replace(s: string, pattern: string, replacement: string): (r: string)
    ensures IndexOf(s, pattern).None? ==> r == s
  {
    match IndexOf(s, pattern)
    case None => s
    case Some(i) =>
      s[..i] + Substitution(pattern, s[..i], s[i + |pattern|..], replacement) + s[i + |pattern|..]
  }

  /** Array.prototype.slice(0, n): the first n elements, or all of them. */
  function SliceTo<T>(s: seq<T>, n: nat): (r: seq<T>)
    ensures |r| == if |s| < n then |s| else n
    ensures r == s[..|r|]
  {
    if |s| <= n then s else s[..n]
  }

  /** Array.prototype.map: f applied to each element, in order. */
  function Map<T, U>(xs: seq<T>, f: T -> U): (r: seq<U>)
    ensures |r| == |xs| && forall i :: 0 <= i < |xs| ==> r[i] == f(xs[i])
  {
    seq(|xs|, i requires 0 <= i < |xs| => f(xs[i]))
  }

  predicate IsDigit(c: char) {
    '0' <= c <= '9'
  }

  function DigitChar(d: nat): (c: char)
    requires d < 10
    ensures IsDigit(c)
  {
    ['0', '1', '2', '3', '4', '5', '6', '7', '8', '9'][d]
  }

  function DigitValue(c: char): nat
    requires IsDigit(c)
  {
    (c as int - '0' as int) as nat
  }

  /** The decimal text of a natural number, as `${n}` writes it. */
  function NatText(n: nat): (s: string)
    ensures s != [] && forall i :: 0 <= i < |s| ==> IsDigit(s[i])
    ensures |s| > 1 ==> s[0] != '0'
    decreases n
  {
    if n < 10 then [DigitChar(n)] else NatText(n / 10) + [DigitChar(n % 10)]
  }

  /** Reading a string of decimal digits back into a number. */
  function ParseDecimal(s: string): nat
    requires forall i :: 0 <= i < |s| ==> IsDigit(s[i])
    decreases |s|
  {
    if s == [] then 0 else ParseDecimal(s[..|s| - 1]) * 10 + DigitValue(s[|s| - 1])
  }

  /** NatText is an exact decimal rendering: reading it back gives n. */
  lemma {:induction false} NatTextRoundTrip(n: nat)
    ensures ParseDecimal(NatText(n)) == n
    decreases n
  {
    var s := NatText(n);
    if n < 10 {
      assert DigitValue(DigitChar(n)) == n;
    } else {
      NatTextRoundTrip(n / 10);
      assert s[..|s| - 1] == NatText(n / 10);
      assert DigitValue(DigitChar(n % 10)) == n % 10;
    }
  }

  /** The decimal text of an integer, with a leading `-` when negative. */
  function IntText(n: int): (s: string)
    ensures s != []
    ensures (s[0] == '-') <==> n < 0
  {
    if n < 0 then "-" + NatText(-n) else NatText(n)
  }

  predicate Distinct<T(==)>(s: seq<T>) {
    forall i, j :: 0 <= i < j < |s| ==> s[i] != s[j]
  }

  /** The index of the first occurrence of x in s. */
  function FirstIndex<T(==)>(s: seq<T>, x: T): (k: nat)
    requires x in s
    ensures k < |s| && s[k] == x && forall i :: 0 <= i < k ==> s[i] != x
  {
    if s[0] == x then 0 else 1 + FirstIndex(s[1..], x)
  }

  /** `Array.from(new Set(xs))`: each value once, in the order of its first
      occurrence. */
  function Dedup<T(==,!new)>(xs: seq<T>): (r: seq<T>)
    ensures forall x :: x in r <==> x in xs
    ensures Distinct(r)
    decreases |xs|
  {
    if xs == [] then []
    else
      var d := Dedup(xs[..|xs| - 1]);
      assert xs == xs[..|xs| - 1] + [xs[|xs| - 1]];
      if xs[|xs| - 1] in d then d else d + [xs[|xs| - 1]]
  }

  lemma FirstIndexOfPrefix<T>(xs: seq<T>, x: T)
    requires xs != [] && x in xs[..|xs| - 1]
    ensures FirstIndex(xs, x) == FirstIndex(xs[..|xs| - 1], x)
  {
    var k := FirstIndex(xs[..|xs| - 1], x);
    var m := FirstIndex(xs, x);
    assert xs[k] == x;
    assert xs[..|xs| - 1][m] == x by {
      assert m <= k;
    }
  }

  /** The values of `Dedup` come in the order of their first occurrence. */
  lemma {:induction false} DedupKeepsFirstOrder<T(!new)>(xs: seq<T>)
    ensures forall i, j :: 0 <= i < j < |Dedup(xs)| ==> FirstIndex(xs, Dedup(xs)[i]) < FirstIndex(xs, Dedup(xs)[j])
    decreases |xs|
  {
    if xs != [] {
      var pre := xs[..|xs| - 1];
      var last := xs[|xs| - 1];
      var d := Dedup(pre);
      DedupKeepsFirstOrder(pre);
      assert xs == pre + [last];
      forall x | x in d
        ensures FirstIndex(xs, x) == FirstIndex(pre, x)
      {
        FirstIndexOfPrefix(xs, x);
      }
      if last !in d {
        assert last !in pre;
        assert FirstIndex(xs, last) == |xs| - 1;
        forall i, j | 0 <= i < j < |Dedup(xs)|
          ensures FirstIndex(xs, Dedup(xs)[i]) < FirstIndex(xs, Dedup(xs)[j])
        {
          if j == |d| {
            assert Dedup(xs)[i] == d[i];
          } else {
            assert Dedup(xs)[i] == d[i] && Dedup(xs)[j] == d[j];
          }
        }
      }
    }
  }
}

=== FILE: latest_metrics.dfy ===
/** The metrics reducer: one latest snapshot per video out of all the
    metric logs of the window. */
module LatestMetricsReducer {
  import opened Js
  import opened Database

  /** The snapshot kept for a video; only finite numbers survive. */
  datatype LatestMetrics = LatestMetrics(
    views: Option<real>,
    likes: Option<real>,
    saves: Option<real>,
    comments: Option<real>,
    fetchedAt: Option<int>)

  function Snapshot(log: MetricsLog): LatestMetrics {
    LatestMetrics(ToOption(log.views), ToOption(log.likes), ToOption(log.saves),
                  ToOption(log.comments), log.fetchedAt)
  }

  /** Whether a log overwrites what is stored for its video: when nothing
      is stored, when the stored date does not parse, or when both dates
      parse and the log's is strictly later. */
  predicate Overwrites(stored: Option<LatestMetrics>, log: MetricsLog) {
    || stored.None?
    || stored.value.fetchedAt.None?
    || (log.fetchedAt.Some? && stored.value.fetchedAt.value < log.fetchedAt.value)
  }

  /** What one iteration of the reducer's loop does to the map. */
  function Step(m: map<string, LatestMetrics>, log: MetricsLog): map<string, LatestMetrics> {
    if log.videoId == "" then m
    else if Overwrites(if log.videoId in m then Some(m[log.videoId]) else None, log) then
      m[log.videoId := Snapshot(log)]
    else m
  }

  /** The map after all logs have been visited in order. */
  function LatestMap(logs: seq<MetricsLog>): map<string, LatestMetrics>
    decreases |logs|
  {
    if logs == [] then map[] else Step(LatestMap(logs[..|logs| - 1]), logs[|logs| - 1])
  }

  /** `buildLatestMetricsMap`: visits the logs in order, updating the map. */
  method BuildLatestMetricsMap(logs: seq<MetricsLog>) returns (latest: map<string, LatestMetrics>)
    ensures latest == LatestMap(logs)
  {
    latest := map[];
    var i := 0;
    while i < |logs|
      invariant 0 <= i <= |logs|
      invariant latest == LatestMap(logs[..i])
    {
      var log := logs[i];
      if log.videoId != "" {
        var existing := if log.videoId in latest then Some(latest[log.videoId]) else None;
        if Overwrites(existing, log) {
          latest := latest[log.videoId := Snapshot(log)];
        }
      }
      assert logs[..i + 1][..i] == logs[..i];
      i := i + 1;
    }
    assert logs[..i] == logs;
  }

  /** The videos that get an entry are exactly the non-empty ids of the logs. */
  lemma {:induction false} LatestMapKeys(logs: seq<MetricsLog>, id: string)
    ensures id in LatestMap(logs) <==> id != "" && exists j :: 0 <= j < |logs| && logs[j].videoId == id
    decreases |logs|
  {
    if logs != [] {
      var pre := logs[..|logs| - 1];
      LatestMapKeys(pre, id);
      if id in LatestMap(pre) {
        var j :| 0 <= j < |pre| && pre[j].videoId == id;
        assert logs[j].videoId == id;
      }
      if id != "" && (exists j :: 0 <= j < |logs| && logs[j].videoId == id) {
        var j :| 0 <= j < |logs| && logs[j].videoId == id;
        if j < |pre| {
          assert pre[j].videoId == id;
        }
      }
    }
  }

  /** Every stored entry is the snapshot of one of that video's logs. */
  lemma {:induction false} LatestComesFromLog(logs: seq<MetricsLog>, id: string)
    requires id in LatestMap(logs)
    ensures exists j :: 0 <= j < |logs| && logs[j].videoId == id && LatestMap(logs)[id] == Snapshot(logs[j])
    decreases |logs|
  {
    var pre := logs[..|logs| - 1];
    var last := logs[|logs| - 1];
    if last.videoId == id && LatestMap(logs)[id] == Snapshot(last) {
    } else {
      assert id in LatestMap(pre);
      LatestComesFromLog(pre, id);
      var j :| 0 <= j < |pre| && pre[j].videoId == id && LatestMap(pre)[id] == Snapshot(pre[j]);
      assert logs[j] == pre[j];
    }
  }

  /** Latest wins: when the video has logs whose date parses, its entry is
      the first log (in input order) carrying the latest date. */
  lemma {:induction false} LatestIsFirstOfLatestDate(logs: seq<MetricsLog>, id: string, k: nat)
    requires k < |logs| && id != "" && logs[k].videoId == id && logs[k].fetchedAt.Some?
    requires forall j :: 0 <= j < |logs| && logs[j].videoId == id && logs[j].fetchedAt.Some? ==>
               logs[j].fetchedAt.value <= logs[k].fetchedAt.value
    requires forall j :: 0 <= j < k && logs[j].videoId == id && logs[j].fetchedAt.Some? ==>
               logs[j].fetchedAt.value < logs[k].fetchedAt.value
    ensures id in LatestMap(logs) && LatestMap(logs)[id] == Snapshot(logs[k])
    decreases |logs|
  {
    var pre := logs[..|logs| - 1];
    var last := logs[|logs| - 1];
    if k == |logs| - 1 {
      if id in LatestMap(pre) {
        LatestComesFromLog(pre, id);
        var j :| 0 <= j < |pre| && pre[j].videoId == id && LatestMap(pre)[id] == Snapshot(pre[j]);
        assert logs[j] == pre[j];
      }
    } else {
      forall j | 0 <= j < |pre| && pre[j].videoId == id && pre[j].fetchedAt.Some?
        ensures pre[j].fetchedAt.value <= pre[k].fetchedAt.value
      {
        assert logs[j] == pre[j];
      }
      forall j | 0 <= j < k && pre[j].videoId == id && pre[j].fetchedAt.Some?
        ensures pre[j].fetchedAt.value < pre[k].fetchedAt.value
      {
        assert logs[j] == pre[j];
      }
      LatestIsFirstOfLatestDate(pre, id, k);
    }
  }

  /** When none of the video's log dates parse, the last of its logs wins. */
  lemma {:induction false} UndatedLatestIsLast(logs: seq<MetricsLog>, id: string, k: nat)
    requires k < |logs| && id != "" && logs[k].videoId == id
    requires forall j :: k < j < |logs| ==> logs[j].videoId != id
    requires forall j :: 0 <= j < |logs| && logs[j].videoId == id ==> logs[j].fetchedAt.None?
    ensures id in LatestMap(logs) && LatestMap(logs)[id] == Snapshot(logs[k])
    decreases |logs|
  {
    var pre := logs[..|logs| - 1];
    if k == |logs| - 1 {
      if id in LatestMap(pre) {
        LatestComesFromLog(pre, id);
        var j :| 0 <= j < |pre| && pre[j].videoId == id && LatestMap(pre)[id] == Snapshot(pre[j]);
        assert logs[j] == pre[j];
      }
    } else {
      forall j | 0 <= j < |pre| && pre[j].videoId == id ensures pre[j].fetchedAt.None? {
        assert logs[j] == pre[j];
      }
      UndatedLatestIsLast(pre, id, k);
    }
  }
}

=== FILE: number_parsing.dfy ===
/** `Number(text)`: the StringToNumber conversion of ECMAScript (section
    7.1.4.1.1 of ECMA-262). The text is trimmed; a blank text is 0; `0x`,
    `0o` and `0b` (either case) introduce an unsigned hexadecimal, octal or
    binary integer; otherwise an optionally signed `Infinity` or decimal
    literal with an optional fraction and exponent is read; anything else
    is NaN. Values are kept exact; NaN and the infinities are `NonFinite`. */
module NumberParsing {
  import opened Js

  /** The value of a digit or letter as a digit in bases up to 36. */
  function RadixDigit(c: char): (r: Option<nat>)
    ensures r.Some? ==> r.value < 36
    ensures IsDigit(c) ==> r == Some(DigitValue(c))
    ensures r.Some? && r.value < 10 ==> IsDigit(c)
  {
    if '0' <= c <= '9' then Some(c as int - '0' as int)
    else if 'a' <= c <= 'z' then Some(c as int - 'a' as int + 10)
    else if 'A' <= c <= 'Z' then Some(c as int - 'A' as int + 10)
    else None
  }

  predicate IsRadixDigit(c: char, radix: nat) {
    RadixDigit(c).Some? && RadixDigit(c).value < radix
  }

  predicate AllRadixDigits(s: string, radix: nat) {
    forall i :: 0 <= i < |s| ==> IsRadixDigit(s[i], radix)
  }

  /** The value of a non-empty run of digits of the given base; None when
      the run is empty or holds another character. */
  function DigitsValue(s: string, radix: nat): (r: Option<nat>)
    ensures r.Some? <==> s != [] && AllRadixDigits(s, radix)
    decreases |s|
  {
    if s == [] then None
    else
      AllRadixDigitsSnoc(s, radix);
      if !IsRadixDigit(s[|s| - 1], radix) then None
      else if |s| == 1 then Some(RadixDigit(s[0]).value)
      else
        match DigitsValue(s[..|s| - 1], radix)
        case None => None
        case Some(v) => Some(v * radix + RadixDigit(s[|s| - 1]).value)
  }

  /** A run is all digits exactly when its initial part is and its last
      character is one. */
  lemma AllRadixDigitsSnoc(s: string, radix: nat)
    requires s != []
    ensures AllRadixDigits(s, radix) <==>
      AllRadixDigits(s[..|s| - 1], radix) && IsRadixDigit(s[|s| - 1], radix)
  {
    if AllRadixDigits(s[..|s| - 1], radix) && IsRadixDigit(s[|s| - 1], radix) {
      forall i | 0 <= i < |s| ensures IsRadixDigit(s[i], radix) {
        if i < |s| - 1 {
          assert s[i] == s[..|s| - 1][i];
        }
      }
    }
  }

  predicate AllDecimal(s: string) {
    forall i :: 0 <= i < |s| ==> IsDigit(s[i])
  }

  /** Decimal digits read in base 10 give the same value as `ParseDecimal`. */
  lemma {:induction false} DecimalDigitsValue(s: string)
    requires s != [] && AllDecimal(s)
    ensures DigitsValue(s, 10) == Some(ParseDecimal(s))
    decreases |s|
  {
    if |s| > 1 {
      DecimalDigitsValue(s[..|s| - 1]);
    } else {
      assert s[..0] == [];
    }
  }

  /** The index of the first character of s that is in cs. */
  function FindChar(s: string, cs: set<char>): (r: Option<nat>)
    ensures r.Some? ==> r.value < |s| && s[r.value] in cs && forall i :: 0 <= i < r.value ==> s[i] !in cs
    ensures r.None? ==> forall i :: 0 <= i < |s| ==> s[i] !in cs
  {
    if s == [] then None
    else if s[0] in cs then Some(0)
    else
      match FindChar(s[1..], cs)
      case None => None
      case Some(k) => Some(k + 1)
  }

  function Pow10(n: nat): (r: nat)
    ensures r >= 1
  {
    if n == 0 then 1 else 10 * Pow10(n - 1)
  }

  /** `DecimalDigits . DecimalDigits`: either side may be empty but not
      both, and the dot may be absent. */
  function MantissaValue(m: string): (r: Option<real>)
    ensures r.Some? ==> 0.0 <= r.value
  {
    match FindChar(m, {'.'})
    case None => if m != [] && AllDecimal(m) then Some(ParseDecimal(m) as real) else None
    case Some(d) =>
      var whole := m[..d];
      var frac := m[d + 1..];
      if (whole != [] || frac != []) && AllDecimal(whole) && AllDecimal(frac) then
        var fraction := ParseDecimal(frac) as real / Pow10(|frac|) as real;
        QuotientNonNegative(ParseDecimal(frac) as real, Pow10(|frac|) as real);
        Some(ParseDecimal(whole) as real + fraction)
      else None
  }

  lemma QuotientNonNegative(a: real, b: real)
    requires 0.0 <= a && 0.0 < b
    ensures 0.0 <= a / b
  {
  }

  /** The exponent after `e` or `E`: an optionally signed run of digits. */
  function ExponentValue(x: string): (r: Option<int>)
  {
    if x != [] && (x[0] == '+' || x[0] == '-') then
      var digits := x[1..];
      if digits != [] && AllDecimal(digits) then
        var v: int := ParseDecimal(digits);
        Some(if x[0] == '-' then -v else v)
      else None
    else if x != [] && AllDecimal(x) then Some(ParseDecimal(x))
    else None
  }

  /** v times ten to the power e. */
  function Scale(v: real, e: int): (r: real)
    ensures 0.0 <= v ==> 0.0 <= r
  {
    if e >= 0 then v * Pow10(e) as real else v / Pow10(-e) as real
  }

  /** `StrUnsignedDecimalLiteral`: `Infinity`, or a mantissa with an
      optional exponent. */
  function UnsignedDecimal(u: string): (r: JsNumber)
    ensures !r.Null?
    ensures r.Finite? ==> 0.0 <= r.value
  {
    if u == "Infinity" then NonFinite
    else
      match FindChar(u, {'e', 'E'})
      case None =>
        var m := MantissaValue(u);
        if m.Some? then Finite(m.value) else NonFinite
      case Some(k) =>
        var m := MantissaValue(u[..k]);
        var e := ExponentValue(u[k + 1..]);
        if m.Some? && e.Some? then Finite(Scale(m.value, e.value)) else NonFinite
  }

  function Negate(x: JsNumber): JsNumber {
    if x.Finite? then Finite(-x.value) else x
  }

  /** The base a `0x`, `0o` or `0b` prefix stands for. */
  function RadixOf(c: char): (radix: Option<nat>)
    ensures radix.Some? ==> radix.value in {2, 8, 16}
  {
    if c == 'x' || c == 'X' then Some(16)
    else if c == 'o' || c == 'O' then Some(8)
    else if c == 'b' || c == 'B' then Some(2)
    else None
  }

  /** `Number(t)` for a text t that is already trimmed. */
  function TrimmedToNumber(t: string): (r: JsNumber)
    ensures !r.Null?
    ensures t == [] ==> r == Finite(0.0)
    ensures r.Finite? && t != [] && t[0] == '-' ==> r.value <= 0.0
  {
    if t == [] then Finite(0.0)
    else if |t| >= 2 && t[0] == '0' && RadixOf(t[1]).Some? then
      match DigitsValue(t[2..], RadixOf(t[1]).value)
      case None => NonFinite
      case Some(v) => Finite(v as real)
    else if t[0] == '-' then Negate(UnsignedDecimal(t[1..]))
    else if t[0] == '+' then UnsignedDecimal(t[1..])
    else UnsignedDecimal(t)
  }

  /** `Number(s)` for a string s: the trimmed text is read. */
  function StringToNumber(s: string): (r: JsNumber)
    ensures !r.Null?
    ensures (forall i :: 0 <= i < |s| ==> IsWhiteSpace(s[i])) ==> r == Finite(0.0)
  {
    TrimmedToNumber(Trim(s))
  }

  lemma DigitIsNotSpace(c: char)
    requires IsDigit(c)
    ensures !IsWhiteSpace(c)
  {
  }

  /** A non-empty run of decimal digits reads as its value. */
  lemma DigitsUnsigned(d: string)
    requires d != [] && AllDecimal(d)
    ensures UnsignedDecimal(d) == Finite(ParseDecimal(d) as real)
  {
    assert d != "Infinity" by {
      if |d| == |"Infinity"| {
        assert !IsDigit("Infinity"[0]);
      }
    }
    assert FindChar(d, {'e', 'E'}).None?;
    assert FindChar(d, {'.'}).None?;
  }

  /** A text with no white space at either end is its own trim. */
  lemma TrimKeeps(s: string)
    requires s != [] && !IsWhiteSpace(s[0]) && !IsWhiteSpace(s[|s| - 1])
    ensures Trim(s) == s
  {
    var r := Trim(s);
    var i: nat :| TrimmedAt(s, r, i);
  }

  /** A run of zeros reads as 0. */
  lemma {:induction false} ZerosValue(z: string)
    requires forall i :: 0 <= i < |z| ==> z[i] == '0'
    ensures AllDecimal(z) && ParseDecimal(z) == 0
    decreases |z|
  {
    if z != [] {
      ZerosValue(z[..|z| - 1]);
    }
  }

  /** `Number(String(n))` is n for every natural n. */
  lemma NatTextNumber(n: nat)
    ensures StringToNumber(NatText(n)) == Finite(n as real)
  {
    var d := NatText(n);
    DigitIsNotSpace(d[0]);
    DigitIsNotSpace(d[|d| - 1]);
    TrimKeeps(d);
    NatTextRoundTrip(n);
    DigitsUnsigned(d);
  }

  /** `Number(String(i))` is i for every integer i, negative ones included. */
  lemma IntTextNumber(i: int)
    ensures StringToNumber(IntText(i)) == Finite(i as real)
  {
    if i >= 0 {
      NatTextNumber(i);
    } else {
      var d := NatText(-i);
      var s := "-" + d;
      assert s[|s| - 1] == d[|d| - 1];
      DigitIsNotSpace(d[|d| - 1]);
      TrimKeeps(s);
      assert s[1..] == d;
      NatTextRoundTrip(-i);
      DigitsUnsigned(d);
      assert TrimmedToNumber(s) == Negate(UnsignedDecimal(d));
    }
  }

  /** A leading `+` changes nothing: `Number("+" + String(n))` is n. */
  lemma PlusNatTextNumber(n: nat)
    ensures StringToNumber("+" + NatText(n)) == Finite(n as real)
  {
    var d := NatText(n);
    var s := "+" + d;
    assert s[|s| - 1] == d[|d| - 1];
    DigitIsNotSpace(d[|d| - 1]);
    TrimKeeps(s);
    assert s[1..] == d;
    NatTextRoundTrip(n);
    DigitsUnsigned(d);
    assert TrimmedToNumber(s) == UnsignedDecimal(d);
  }

  /** A mantissa `d.z` with a fraction of zeros is worth d. */
  lemma ZeroFractionMantissa(d: string, z: string)
    requires d != [] && AllDecimal(d)
    requires forall i :: 0 <= i < |z| ==> z[i] == '0'
    ensures MantissaValue(d + "." + z) == Some(ParseDecimal(d) as real)
  {
    var s := d + "." + z;
    ZerosValue(z);
    forall i | 0 <= i < |d| ensures s[i] !in {'.'} {
      assert s[i] == d[i];
    }
    FindCharAt(s, {'.'}, |d|);
    assert s[..|d|] == d && s[|d| + 1..] == z;
    WholeMantissa(s, |d|);
  }

  /** A mantissa whose fraction is worth nothing is worth its whole part. */
  lemma WholeMantissa(m: string, k: nat)
    requires FindChar(m, {'.'}) == Some(k)
    requires m[..k] != [] && AllDecimal(m[..k])
    requires AllDecimal(m[k + 1..]) && ParseDecimal(m[k + 1..]) == 0
    ensures MantissaValue(m) == Some(ParseDecimal(m[..k]) as real)
  {
    assert 0 as real / Pow10(|m[k + 1..]|) as real == 0.0;
  }

  /** The first index holding one of cs is the one FindChar reports. */
  lemma FindCharAt(s: string, cs: set<char>, k: nat)
    requires k < |s| && s[k] in cs
    requires forall i :: 0 <= i < k ==> s[i] !in cs
    ensures FindChar(s, cs) == Some(k)
  {
  }

  /** Digits, a dot and zeros: the value of the digits. */
  lemma ZeroFractionUnsigned(d: string, z: string)
    requires d != [] && AllDecimal(d)
    requires forall i :: 0 <= i < |z| ==> z[i] == '0'
    ensures UnsignedDecimal(d + "." + z) == Finite(ParseDecimal(d) as real)
  {
    var s := d + "." + z;
    ZeroFractionMantissa(d, z);
    assert FindChar(s, {'e', 'E'}).None? by {
      forall i | 0 <= i < |s| ensures s[i] !in {'e', 'E'} {
        if i < |d| { assert s[i] == d[i]; } else if i > |d| { assert s[i] == z[i - |d| - 1]; }
      }
    }
    assert s != "Infinity" by {
      assert !IsDigit("Infinity"[0]);
    }
  }

  /** A fraction of zeros changes nothing: `Number(String(n) + ".000")` is n. */
  lemma ZeroFractionNumber(n: nat, z: string)
    requires forall i :: 0 <= i < |z| ==> z[i] == '0'
    ensures StringToNumber(NatText(n) + "." + z) == Finite(n as real)
  {
    var d := NatText(n);
    var s := d + "." + z;
    assert s[0] == d[0];
    if z != [] {
      assert s[|s| - 1] == z[|z| - 1];
    }
    if |d| == 1 {
      assert s[1] == '.';
    } else {
      assert s[0] != '0';
    }
    LeadingDigitDecimal(s);
    ZeroFractionUnsigned(d, z);
    NatTextRoundTrip(n);
  }

  lemma MantissaOfDigits(a: string)
    requires a != [] && AllDecimal(a)
    ensures MantissaValue(a) == Some(ParseDecimal(a) as real)
  {
    assert FindChar(a, {'.'}).None?;
  }

  lemma ExponentOfDigits(b: string)
    requires b != [] && AllDecimal(b)
    ensures ExponentValue(b) == Some(ParseDecimal(b) as int)
  {
    assert IsDigit(b[0]);
  }

  lemma ScaleNat(m: nat, k: nat)
    ensures Scale(m as real, k) == (m * Pow10(k)) as real
  {
  }

  /** Digits, `e` and digits: the mantissa times ten to the exponent. */
  lemma ExponentUnsigned(a: string, b: string)
    requires a != [] && AllDecimal(a) && b != [] && AllDecimal(b)
    ensures UnsignedDecimal(a + "e" + b) == Finite((ParseDecimal(a) * Pow10(ParseDecimal(b))) as real)
  {
    var s := a + "e" + b;
    assert FindChar(s, {'e', 'E'}) == Some(|a|) by {
      assert s[|a|] == 'e';
      assert forall i :: 0 <= i < |a| ==> s[i] == a[i];
    }
    assert s[..|a|] == a && s[|a| + 1..] == b;
    MantissaOfDigits(a);
    ExponentOfDigits(b);
    ScaleNat(ParseDecimal(a), ParseDecimal(b));
    assert s != "Infinity" by {
      assert !IsDigit("Infinity"[0]);
    }
  }

  /** A text that starts with a digit, not followed by a base letter
      after a `0`, and ends without white space is read as a decimal. */
  lemma LeadingDigitDecimal(s: string)
    requires s != [] && IsDigit(s[0]) && !IsWhiteSpace(s[|s| - 1])
    requires |s| >= 2 && s[0] == '0' ==> RadixOf(s[1]).None?
    ensures StringToNumber(s) == UnsignedDecimal(s)
  {
    DigitIsNotSpace(s[0]);
    TrimKeeps(s);
  }

  /** An exponent scales by a power of ten: `Number(String(m) + "e" +
      String(k))` is m times ten to the k. */
  lemma ExponentNumber(m: nat, k: nat)
    ensures StringToNumber(NatText(m) + "e" + NatText(k)) == Finite((m * Pow10(k)) as real)
  {
    var a := NatText(m);
    var b := NatText(k);
    var s := a + "e" + b;
    assert s[0] == a[0] && s[|s| - 1] == b[|b| - 1];
    DigitIsNotSpace(b[|b| - 1]);
    if |a| == 1 {
      assert s[1] == 'e';
    } else {
      assert s[0] != '0';
    }
    LeadingDigitDecimal(s);
    ExponentUnsigned(a, b);
    NatTextRoundTrip(m);
    NatTextRoundTrip(k);
  }

  /** `0x`, `0o` and `0b` read the digits after them in base 16, 8 and 2. */
  lemma RadixNumber(c: char, digits: string)
    requires RadixOf(c).Some? && DigitsValue(digits, RadixOf(c).value).Some?
    ensures StringToNumber("0" + [c] + digits) == Finite(DigitsValue(digits, RadixOf(c).value).value as real)
  {
    var s := "0" + [c] + digits;
    assert s[|s| - 1] == digits[|digits| - 1];
    assert IsRadixDigit(digits[|digits| - 1], RadixOf(c).value);
    TrimKeeps(s);
    assert s[2..] == digits;
  }

  // ---------------------------------------------------------------------
  // Spellings of sixty

  lemma SixtyPlain()
    ensures StringToNumber("60") == Finite(60.0)
  {
    assert NatText(60) == "60";
    NatTextNumber(60);
  }

  lemma SixtyWithFraction()
    ensures StringToNumber("60.0") == Finite(60.0)
  {
    assert NatText(60) + "." + "0" == "60.0";
    ZeroFractionNumber(60, "0");
  }

  lemma SixtyWithPlus()
    ensures StringToNumber("+60") == Finite(60.0)
  {
    assert "+" + NatText(60) == "+60";
    PlusNatTextNumber(60);
  }

  lemma SixOnePowerText()
    ensures NatText(6) + "e" + NatText(1) == "6e1"
  {
    assert NatText(6) == "6" && NatText(1) == "1";
  }

  lemma SixtyWithExponentText()
    ensures StringToNumber(NatText(6) + "e" + NatText(1)) == Finite(60.0)
  {
    ExponentNumber(6, 1);
    assert Pow10(1) == 10;
  }

  lemma SixtyWithExponent()
    ensures StringToNumber("6e1") == Finite(60.0)
  {
    SixOnePowerText();
    SixtyWithExponentText();
  }

  lemma SixtyInHex()
    ensures StringToNumber("0x3c") == Finite(60.0)
  {
    assert "3c"[..1] == "3";
    assert DigitsValue("3c", 16) == Some(60);
    RadixNumber('x', "3c");
    assert "0" + ['x'] + "3c" == "0x3c";
  }
}

=== FILE: prompt_request.dfy ===
/** The `POST /api/account/prompt-input` handler: the request body is
    normalised into prompt parameters, the window's rows are read (their
    query results are inputs here), the document and the prompt are built,
    and the missing-column warning is appended when the manual columns are
    absent from the database. */
module PromptRequest {
  import opened Js
  import opened Database
  import G = GoalScoring
  import D = AccountDocument
  import P = PromptText
  import N = NumberParsing

  // ---------------------------------------------------------------------
  // Request normalisation

  /** `body?.[key]`: the value of a member of an object body (the last one
      when the key repeats, as `JSON.parse` keeps it); None stands for
      `undefined`. */
  function Member(body: Option<Json>, key: string): (r: Option<Json>)
    ensures r.Some? ==> body.Some? && body.value.JObject? && exists i :: 0 <= i < |body.value.members| && body.value.members[i] == (key, r.value)
  {
    if body.None? || !body.value.JObject? then None
    else LastMember(body.value.members, key)
  }

  function LastMember(members: seq<(string, Json)>, key: string): (r: Option<Json>)
    ensures r.Some? ==> exists i :: 0 <= i < |members| && members[i] == (key, r.value)
    ensures r.None? <==> forall i :: 0 <= i < |members| ==> members[i].0 != key
    decreases |members|
  {
    if members == [] then None
    else if members[|members| - 1].0 == key then Some(members[|members| - 1].1)
    else LastMember(members[..|members| - 1], key)
  }

  /** `Number(String(v))` for the only element v of an array: the array's
      text is `[v].join()`, which is empty for null, `true`/`false` for a
      boolean (not a number), the number's own text, the string itself, the
      nested array's text, or `[object Object]` (not a number). */
  function ElementToNumber(v: Json): (r: JsNumber)
    ensures !r.Null?
    ensures v.JArray? && |v.items| == 0 ==> r == Finite(0.0)
    ensures v.JArray? && |v.items| >= 2 ==> r == NonFinite
  {
    match v
    case JNull => Finite(0.0)
    case JBool(_) => NonFinite
    case JNumber(n) => Finite(n)
    case JString(s) => N.StringToNumber(s)
    case JArray(items) =>
      // two or more elements are joined with a comma, which no number holds
      if |items| == 0 then Finite(0.0)
      else if |items| == 1 then
        assert items[0] in items;
        ElementToNumber(items[0])
      else NonFinite
    case JObject(_) => NonFinite
  }

  /** `Number(value)` for the values a body can hold: undefined is NaN,
      null and false are 0, true is 1, a number is itself, a string is
      read as `Number` reads text, an array is read through its text, and
      an object is NaN. */
  function ToNumber(value: Option<Json>): (r: JsNumber)
    ensures value.None? ==> r == NonFinite
    ensures value.Some? && value.value.JNumber? ==> r == Finite(value.value.n)
    ensures value.Some? && value.value.JString? ==> r == N.StringToNumber(value.value.s)
    ensures value.Some? && value.value.JArray? && |value.value.items| == 1 ==> r == ElementToNumber(value.value.items[0])
    ensures value.Some? && value.value.JArray? && |value.value.items| >= 2 ==> r == NonFinite
    ensures value.Some? && value.value.JObject? ==> r == NonFinite
    ensures value == Some(JNull) ==> r == Finite(0.0)
  {
    if value.None? then NonFinite
    else
      match value.value
      case JNull => Finite(0.0)
      case JBool(b) => Finite(if b then 1.0 else 0.0)
      case JNumber(n) => Finite(n)
      case JString(s) => N.StringToNumber(s)
      case JArray(_) => ElementToNumber(value.value)
      case JObject(_) => NonFinite
  }

  /** `WINDOW_DAY_OPTIONS`. */
  const WindowDayOptions: seq<int> := [30, 60, 90]

  /** The requested window when it is one of the options, 30 otherwise. */
  function NormalizeWindow(requested: JsNumber): (days: int)
    ensures days in WindowDayOptions
    ensures requested.Finite? && requested.value in {30.0, 60.0, 90.0} ==> days as real == requested.value
    ensures !(requested.Finite? && requested.value in {30.0, 60.0, 90.0}) ==> days == 30
  {
    if requested.Finite? && requested.value == 30.0 then 30
    else if requested.Finite? && requested.value == 60.0 then 60
    else if requested.Finite? && requested.value == 90.0 then 90
    else 30
  }

  /** The spellings `Number` accepts for sixty all select the 60-day
      window: a fraction of zeros, a plus sign, an exponent, hexadecimal,
      and one-element arrays. */
  lemma SixtySpellings()
    ensures NormalizeWindow(ToNumber(Some(JString("60.0")))) == 60
    ensures NormalizeWindow(ToNumber(Some(JString("+60")))) == 60
    ensures NormalizeWindow(ToNumber(Some(JString("6e1")))) == 60
    ensures NormalizeWindow(ToNumber(Some(JString("0x3c")))) == 60
    ensures NormalizeWindow(ToNumber(Some(JArray([JNumber(60.0)])))) == 60
    ensures NormalizeWindow(ToNumber(Some(JArray([JString("60")])))) == 60
  {
    N.SixtyPlain();
    N.SixtyWithFraction();
    N.SixtyWithPlus();
    N.SixtyWithExponent();
    N.SixtyInHex();
  }

  /** `isPrimaryGoal`: the goal a string names, if any. */
  function GoalNamed(value: Json): (r: Option<G.Goal>)
    ensures r.Some? ==> value == JString(r.value.Name())
  {
    if value == JString("followers") then Some(G.Followers)
    else if value == JString("reach") then Some(G.Reach)
    else if value == JString("saves") then Some(G.Saves)
    else if value == JString("profile_visits") then Some(G.ProfileVisits)
    else None
  }

  /** Every goal is recognised by its own name. */
  lemma GoalNameRoundTrip(g: G.Goal)
    ensures GoalNamed(JString(g.Name())) == Some(g)
  {
  }

  /** `isMode`: the mode a string names, if any. */
  function ModeNamed(value: Json): (r: Option<D.Mode>)
    ensures r.Some? ==> value == JString(r.value.Name())
  {
    if value == JString("stable_growth") then Some(D.StableGrowth)
    else if value == JString("buzz") then Some(D.Buzz)
    else if value == JString("follow_focus") then Some(D.FollowFocus)
    else None
  }

  /** Every mode is recognised by its own name. */
  lemma ModeNameRoundTrip(m: D.Mode)
    ensures ModeNamed(JString(m.Name())) == Some(m)
  {
  }

  /** The primary goal, `followers` when the body names none. */
  function PrimaryOf(body: Option<Json>): (g: G.Goal)
    ensures Member(body, "primary").Some? && GoalNamed(Member(body, "primary").value).Some? ==>
      g == GoalNamed(Member(body, "primary").value).value
    ensures Member(body, "primary").None? || GoalNamed(Member(body, "primary").value).None? ==> g == G.Followers
  {
    var v := Member(body, "primary");
    if v.Some? && GoalNamed(v.value).Some? then GoalNamed(v.value).value else G.Followers
  }

  /** The mode, `stable_growth` when the body names none. */
  function ModeOf(body: Option<Json>): (m: D.Mode)
    ensures Member(body, "mode").Some? && ModeNamed(Member(body, "mode").value).Some? ==>
      m == ModeNamed(Member(body, "mode").value).value
    ensures Member(body, "mode").None? || ModeNamed(Member(body, "mode").value).None? ==> m == D.StableGrowth
  {
    var v := Member(body, "mode");
    if v.Some? && ModeNamed(v.value).Some? then ModeNamed(v.value).value else D.StableGrowth
  }

  /** `secondaryRaw.filter(isPrimaryGoal).filter((goal) => goal !== primary)`. */
  function GoalsOtherThan(raw: seq<Json>, primary: G.Goal): (r: seq<G.Goal>)
    ensures forall g :: g in r <==> g != primary && JString(g.Name()) in raw
    decreases |raw|
  {
    if raw == [] then []
    else
      var last := raw[|raw| - 1];
      assert raw == raw[..|raw| - 1] + [last];
      GoalsOtherThan(raw[..|raw| - 1], primary) + KeptGoal(last, primary)
  }

  /** The goal one raw value contributes: the goal it names, unless that is
      the primary. */
  function KeptGoal(x: Json, primary: G.Goal): (r: seq<G.Goal>)
    ensures forall g :: g in r <==> g != primary && JString(g.Name()) == x
  {
    var g := GoalNamed(x);
    if g.Some? && g.value != primary then [g.value] else []
  }

  /** The filter distributes over concatenation ... */
  lemma {:induction false} GoalsOtherThanAppend(a: seq<Json>, b: seq<Json>, primary: G.Goal)
    ensures GoalsOtherThan(a + b, primary) == GoalsOtherThan(a, primary) + GoalsOtherThan(b, primary)
    decreases |b|
  {
    if b == [] {
      assert a + b == a;
    } else {
      var init := b[..|b| - 1];
      var last := b[|b| - 1];
      GoalsOtherThanAppend(a, init, primary);
      SplitLast(a, b);
      var ga, gi, k := GoalsOtherThan(a, primary), GoalsOtherThan(init, primary), KeptGoal(last, primary);
      calc {
        GoalsOtherThan(a + b, primary);
        { GoalsOtherThanSnoc(a + init, last, primary); }
        GoalsOtherThan(a + init, primary) + k;
        (ga + gi) + k;
        ga + (gi + k);
        { GoalsOtherThanSnoc(init, last, primary); }
        ga + GoalsOtherThan(b, primary);
      }
    }
  }

  /** b, and a + b, are their initial part followed by the last value of b. */
  lemma SplitLast<T>(a: seq<T>, b: seq<T>)
    requires b != []
    ensures b == b[..|b| - 1] + [b[|b| - 1]]
    ensures a + b == (a + b[..|b| - 1]) + [b[|b| - 1]]
  {
  }

  /** One unfolding of the filter: the goals of raw, then the one x
      contributes. */
  lemma GoalsOtherThanSnoc(raw: seq<Json>, x: Json, primary: G.Goal)
    ensures GoalsOtherThan(raw + [x], primary) == GoalsOtherThan(raw, primary) + KeptGoal(x, primary)
  {
    var s := raw + [x];
    assert s[..|s| - 1] == raw && s[|s| - 1] == x;
  }

  /** ... and keeps a single value exactly when it names a goal other than
      the primary. */
  lemma GoalsOtherThanSingleton(x: Json, primary: G.Goal)
    ensures GoalsOtherThan([x], primary) ==
      if GoalNamed(x).Some? && GoalNamed(x).value != primary then [GoalNamed(x).value] else []
  {
    assert [x][0] == x;
    assert [x][..0] == [];
  }

  /** Goals the filter keeps come in the order in which their names first
      occur among the raw values. */
  lemma {:induction false} GoalsOtherThanKeepsOrder(raw: seq<Json>, primary: G.Goal, g: G.Goal, h: G.Goal)
    requires g in GoalsOtherThan(raw, primary) && h in GoalsOtherThan(raw, primary)
    requires FirstIndex(GoalsOtherThan(raw, primary), g) < FirstIndex(GoalsOtherThan(raw, primary), h)
    ensures JString(g.Name()) in raw && JString(h.Name()) in raw
    ensures FirstIndex(raw, JString(g.Name())) < FirstIndex(raw, JString(h.Name()))
    decreases |raw|
  {
    var pre := raw[..|raw| - 1];
    var gs := GoalsOtherThan(raw, primary);
    var ps := GoalsOtherThan(pre, primary);
    var jg := JString(g.Name());
    var jh := JString(h.Name());
    assert gs == ps || (|gs| == |ps| + 1 && gs[..|ps|] == ps);
    var fg := FirstIndex(gs, g);
    var fh := FirstIndex(gs, h);
    if h in ps {
      if gs != ps {
        FirstIndexOfPrefix(gs, h);
      }
      assert fg < fh < |ps|;
      assert g == gs[fg] == ps[fg];
      if gs != ps {
        FirstIndexOfPrefix(gs, g);
      }
      GoalsOtherThanKeepsOrder(pre, primary, g, h);
      FirstIndexOfPrefix(raw, jg);
      FirstIndexOfPrefix(raw, jh);
    } else {
      assert gs != ps && gs[|ps|] == h;
      assert fh == |ps|;
      assert g == gs[fg] == ps[fg];
      assert jg in pre;
      FirstIndexOfPrefix(raw, jg);
      assert jh !in pre;
      assert FirstIndex(raw, jh) == |pre|;
    }
  }

  /** The deduplicated goals come in the order in which their names first
      occur among the raw values. */
  lemma SecondaryKeepsOrder(raw: seq<Json>, primary: G.Goal)
    ensures NamesInOrder(Dedup(GoalsOtherThan(raw, primary)), raw)
  {
    var gs := GoalsOtherThan(raw, primary);
    var r := Dedup(gs);
    DedupKeepsFirstOrder(gs);
    forall i, j | 0 <= i < j < |r|
      ensures && JString(r[i].Name()) in raw && JString(r[j].Name()) in raw
              && FirstIndex(raw, JString(r[i].Name())) < FirstIndex(raw, JString(r[j].Name()))
    {
      assert r[i] in gs && r[j] in gs;
      GoalsOtherThanKeepsOrder(raw, primary, r[i], r[j]);
    }
  }

  /** Each goal is named among the raw values, and the goals come in the
      order of the first occurrences of their names. */
  predicate NamesInOrder(r: seq<G.Goal>, raw: seq<Json>) {
    forall i, j :: 0 <= i < j < |r| ==>
      && JString(r[i].Name()) in raw && JString(r[j].Name()) in raw
      && FirstIndex(raw, JString(r[i].Name())) < FirstIndex(raw, JString(r[j].Name()))
  }

  /** The values of the `secondary` array, or none when the body has no
      such array. */
  function SecondaryItems(body: Option<Json>): (items: seq<Json>)
    ensures Member(body, "secondary").Some? && Member(body, "secondary").value.JArray? ==>
      items == Member(body, "secondary").value.items
    ensures !(Member(body, "secondary").Some? && Member(body, "secondary").value.JArray?) ==> items == []
  {
    var raw := Member(body, "secondary");
    if raw.Some? && raw.value.JArray? then raw.value.items else []
  }

  /** The secondary goals: the recognised goal names of the `secondary`
      array other than the primary, each once, in first-occurrence order;
      a body without such an array gives none. */
  function SecondaryOf(body: Option<Json>, primary: G.Goal): (r: seq<G.Goal>)
    ensures Distinct(r) && primary !in r
    ensures forall g :: g in r <==> g != primary && JString(g.Name()) in SecondaryItems(body)
    ensures NamesInOrder(r, SecondaryItems(body))
  {
    var items := SecondaryItems(body);
    SecondaryKeepsOrder(items, primary);
    Dedup(GoalsOtherThan(items, primary))
  }

  /** The prompt parameters a request body stands for. */
  function ParamsOf(body: Option<Json>): (p: D.Params)
    ensures p.windowDays in WindowDayOptions
    ensures Distinct(p.secondary) && p.primary !in p.secondary
  {
    var primary := PrimaryOf(body);
    D.Params(NormalizeWindow(ToNumber(Member(body, "window_days"))), primary, SecondaryOf(body, primary), ModeOf(body))
  }

  /** A body that is absent or not JSON gives the defaults. */
  lemma MissingBodyDefaults()
    ensures ParamsOf(None) == D.Params(30, G.Followers, [], D.StableGrowth)
  {
  }

  // ---------------------------------------------------------------------
  // The handler

  /** What a database query returned: rows or an error message. */
  datatype QueryResult<T> = Rows(rows: seq<T>) | QueryError(message: string)

  /** The answers of the database to the handler's queries, in order. */
  datatype Backend = Backend(
    videosWithManual: QueryResult<VideoRow>,
    videosBase: QueryResult<VideoRow>,
    metricsLogs: QueryResult<MetricsLog>,
    accountInsights: QueryResult<AccountInsightRow>)

  datatype Response =
    | Unauthorized
    | ServerError(message: string)
    | Success(prompt: string, document: D.Document, dataWarnings: seq<D.Warning>)
  {
    /** The HTTP status the response is sent with. */
    function Status(): int {
      match this
      case Unauthorized => 401
      case ServerError(_) => 500
      case Success(_, _, _) => 200
    }
  }

  /** A row read without the manual columns: they are set to null. */
  function WithoutManualColumns(video: VideoRow): (r: VideoRow)
    ensures r.reach.Null? && r.shares.Null? && r.profileVisits.Null? && r.follows.Null? && r.manualInputDone.None?
    ensures r.id == video.id && r.caption == video.caption && r.postedAt == video.postedAt
    ensures r.posted == video.posted && r.analysisTags == video.analysisTags && r.selfScore == video.selfScore
  {
    video.(reach := Null, shares := Null, profileVisits := Null, follows := Null, manualInputDone := None)
  }

  /** True when a query failed because a selected column is missing. */
  predicate MissingColumnError(message: string) {
    IndexOf(message, "does not exist").Some?
  }

  /** The videos of the window: the rows with the manual columns, or, when
      those columns are missing, the rows without them and with the manual
      fields set to null; an error otherwise. */
  function VideosRead(backend: Backend): (r: QueryResult<VideoRow>)
    ensures backend.videosWithManual.Rows? ==> r == backend.videosWithManual
    ensures backend.videosWithManual.QueryError? && !MissingColumnError(backend.videosWithManual.message) ==>
      r == backend.videosWithManual
    ensures backend.videosWithManual.QueryError? && MissingColumnError(backend.videosWithManual.message) ==>
      if backend.videosBase.Rows? then r == Rows(Map(backend.videosBase.rows, WithoutManualColumns))
      else r == backend.videosBase
  {
    match backend.videosWithManual
    case Rows(rows) => Rows(rows)
    case QueryError(message) =>
      if !MissingColumnError(message) then QueryError(message)
      else
        match backend.videosBase
        case QueryError(fallbackMessage) => QueryError(fallbackMessage)
        case Rows(rows) => Rows(Map(rows, WithoutManualColumns))
  }

  /** The metric logs of the window; they are not queried without videos. */
  function LogsRead(videos: seq<VideoRow>, backend: Backend): (r: QueryResult<MetricsLog>)
    ensures videos == [] ==> r == Rows([])
  {
    if videos == [] then Rows([]) else backend.metricsLogs
  }

  /** What the handler has gathered before building the document: a
      refusal, a failed query, or the parameters and rows of the window with
      the flag for rows read without the manual columns. */
  datatype Gathered =
    | Refused
    | Failed(message: string)
    | Ready(params: D.Params, data: D.Data, manualColumnsMissing: bool)

  /** The checks and queries of the handler, in order. */
  function Gather(user: Option<string>, body: Option<Json>, backend: Backend): (g: Gathered)
    ensures g.Refused? <==> user.None?
    ensures user.Some? && VideosRead(backend).QueryError? ==> g == Failed(VideosRead(backend).message)
    ensures user.Some? && VideosRead(backend).Rows? && VideosRead(backend).rows != [] && backend.metricsLogs.QueryError? ==>
      g == Failed(backend.metricsLogs.message)
    ensures user.Some? && VideosRead(backend).Rows? && (VideosRead(backend).rows == [] || backend.metricsLogs.Rows?) ==>
      if backend.accountInsights.QueryError? then g == Failed(backend.accountInsights.message) else g.Ready?
    ensures g.Ready? ==> VideosRead(backend).Rows? && g.data.videos == VideosRead(backend).rows
    ensures g.Ready? ==> g.params == ParamsOf(body)
    ensures g.Ready? ==> backend.accountInsights.Rows? && g.data.accountInsights == backend.accountInsights.rows
    ensures g.Ready? ==> (g.manualColumnsMissing <==> backend.videosWithManual.QueryError?)
    ensures g.Ready? && g.data.videos != [] ==> backend.metricsLogs.Rows? && g.data.metricsLogs == backend.metricsLogs.rows
    ensures g.Ready? && g.data.videos == [] ==> g.data.metricsLogs == []
    ensures g.Failed? ==>
      || (backend.videosWithManual.QueryError? && g.message == backend.videosWithManual.message)
      || (backend.videosBase.QueryError? && g.message == backend.videosBase.message)
      || (backend.metricsLogs.QueryError? && g.message == backend.metricsLogs.message)
      || (backend.accountInsights.QueryError? && g.message == backend.accountInsights.message)
  {
    if user.None? then Refused
    else
      var videos := VideosRead(backend);
      if videos.QueryError? then Failed(videos.message)
      else
        var logs := LogsRead(videos.rows, backend);
        if logs.QueryError? then Failed(logs.message)
        else if backend.accountInsights.QueryError? then Failed(backend.accountInsights.message)
        else Ready(ParamsOf(body), D.Data(videos.rows, logs.rows, backend.accountInsights.rows),
                   backend.videosWithManual.QueryError?)
  }

  /** The successful answer for a built document: the missing-column
      warning is pushed when flagged, and the answer carries the prompt
      `buildAccountPromptText` makes of the serialised document and the
      document's own warning list. The document can be read back from the
      prompt whenever its serialisation holds no `$`. */
  function Answer(doc: D.Document, manualColumnsMissing: bool, serialize: D.Document -> string): (r: Response)
    ensures r.Success? && r.dataWarnings == r.document.dataWarnings
    ensures r.prompt == P.BuildPromptTextAsWritten(serialize(r.document))
    ensures '$' !in serialize(r.document) ==> P.ExtractJson(r.prompt) == Some(serialize(r.document))
    ensures r.document == doc.(dataWarnings := r.dataWarnings)
    ensures D.ManualColumnsMissing !in doc.dataWarnings ==>
      (D.ManualColumnsMissing in r.dataWarnings <==> manualColumnsMissing)
    ensures manualColumnsMissing ==> r.dataWarnings == doc.dataWarnings + [D.ManualColumnsMissing]
    ensures !manualColumnsMissing ==> r.dataWarnings == doc.dataWarnings
  {
    var full := if manualColumnsMissing then doc.(dataWarnings := doc.dataWarnings + [D.ManualColumnsMissing]) else doc;
    var json := serialize(full);
    if '$' !in json then
      P.AsWrittenAgreesWithoutDollar(json);
      P.PromptRoundTrip(json);
      Success(P.BuildPromptTextAsWritten(json), full, full.dataWarnings)
    else
      Success(P.BuildPromptTextAsWritten(json), full, full.dataWarnings)
  }

  /** The response for what was gathered: 401, 500 with the failing
      query's message, or the answer built from the engine's document.
      `generatedAt` is the clock reading and `serialize` the JSON
      serialisation of the document. */
  function RespondTo(g: Gathered, generatedAt: string, serialize: D.Document -> string): Response {
    match g
    case Refused => Unauthorized
    case Failed(message) => ServerError(message)
    case Ready(params, data, manualColumnsMissing) =>
      Answer(D.AccountInputDocument(params, data, generatedAt), manualColumnsMissing, serialize)
  }

  /** The response of the handler. `user` is the signed-in user's id and
      `body` the parsed body (None when it does not parse). */
  function Respond(user: Option<string>, body: Option<Json>, backend: Backend, generatedAt: string,
                   serialize: D.Document -> string): Response
  {
    RespondTo(Gather(user, body, backend), generatedAt, serialize)
  }

  /** The video query with its fallback: the rows read, and whether they
      were read without the manual columns. */
  method ReadVideos(backend: Backend) returns (videos: QueryResult<VideoRow>, manualMetricsMissing: bool)
    ensures videos == VideosRead(backend)
    ensures manualMetricsMissing <==> videos.Rows? && backend.videosWithManual.QueryError?
  {
    manualMetricsMissing := false;
    match backend.videosWithManual {
      case QueryError(message) =>
        if !MissingColumnError(message) {
          return QueryError(message), false;
        }
        manualMetricsMissing := true;
        match backend.videosBase {
          case QueryError(fallbackMessage) =>
            return QueryError(fallbackMessage), false;
          case Rows(rows) =>
            videos := Rows(Map(rows, WithoutManualColumns));
        }
      case Rows(rows) =>
        videos := Rows(rows);
    }
  }

  /** The handler's first half, step by step: the user check, the body,
      and the three queries. */
  method GatherRows(user: Option<string>, body: Option<Json>, backend: Backend) returns (g: Gathered)
    ensures g == Gather(user, body, backend)
  {
    if user.None? {
      return Refused;
    }
    var params := ParamsOf(body);
    var videos, manualMetricsMissing := ReadVideos(backend);
    if videos.QueryError? {
      return Failed(videos.message);
    }
    var metricsLogs: seq<MetricsLog> := [];
    if |videos.rows| > 0 {
      if backend.metricsLogs.QueryError? {
        return Failed(backend.metricsLogs.message);
      }
      metricsLogs := backend.metricsLogs.rows;
    }
    if backend.accountInsights.QueryError? {
      return Failed(backend.accountInsights.message);
    }
    g := Ready(params, D.Data(videos.rows, metricsLogs, backend.accountInsights.rows), manualMetricsMissing);
  }

  /** The handler's second half: the error answers, or the document built,
      the missing-column warning pushed when flagged, and the prompt. */
  method Finish(g: Gathered, generatedAt: string, serialize: D.Document -> string) returns (response: Response)
    ensures response == RespondTo(g, generatedAt, serialize)
  {
    match g {
      case Refused =>
        response := Unauthorized;
      case Failed(message) =>
        response := ServerError(message);
      case Ready(params, data, manualMetricsMissing) =>
        var doc := D.BuildAccountInputJson(params, data, generatedAt);
        if manualMetricsMissing {
          doc := doc.(dataWarnings := doc.dataWarnings + [D.ManualColumnsMissing]);
        }
        var prompt := P.BuildPromptTextAsWritten(serialize(doc));
        response := Success(prompt, doc, doc.dataWarnings);
    }
  }

  /** The handler. */
  method Post(user: Option<string>, body: Option<Json>, backend: Backend, generatedAt: string,
              serialize: D.Document -> string)
    returns (response: Response)
    ensures response == Respond(user, body, backend, generatedAt, serialize)
  {
    var g := GatherRows(user, body, backend);
    response := Finish(g, generatedAt, serialize);
  }

  /** A refusal is answered 401, a failed query 500 with that query's
      message, and a gathered window with a success; with `Gather`'s
      contract, the handler answers 401 exactly when no user is signed in. */
  lemma ResponseShape(g: Gathered, generatedAt: string, serialize: D.Document -> string)
    ensures var r := RespondTo(g, generatedAt, serialize);
      && (r.Status() == 401 <==> g.Refused?)
      && (r.Status() == 500 <==> g.Failed?)
      && (r.ServerError? ==> r.message == g.message)
      && (r.Success? <==> g.Ready?)
  {
    if g.Ready? {
      AnswerSucceeds(D.AccountInputDocument(g.params, g.data, generatedAt), g.manualColumnsMissing, serialize);
    }
  }

  lemma AnswerSucceeds(doc: D.Document, manualColumnsMissing: bool, serialize: D.Document -> string)
    ensures Answer(doc, manualColumnsMissing, serialize).Status() == 200
  {
  }

  /** A window without videos never reads the metric logs, so a failing
      metrics query cannot turn it into an error. */
  lemma NoVideosSkipsMetrics(user: string, body: Option<Json>, backend: Backend)
    requires VideosRead(backend) == Rows([]) && backend.accountInsights.Rows?
    ensures Gather(Some(user), body, backend).Ready?
  {
  }

  /** Videos none of which is marked done all count as not done. */
  lemma {:induction false} NoneDoneAllNotDone(videos: seq<VideoRow>)
    requires forall i :: 0 <= i < |videos| ==> videos[i].manualInputDone.None?
    ensures D.CountMeeting(videos, D.ManualDone(false)) == |videos|
    decreases |videos|
  {
    if videos != [] {
      NoneDoneAllNotDone(videos[..|videos| - 1]);
    }
  }

  /** When the manual columns are missing and the fallback query returns
      rows, the gathered videos are those rows with null manual fields. */
  lemma FallbackGathersNullManualFields(user: string, body: Option<Json>, backend: Backend)
    requires backend.videosWithManual.QueryError? && MissingColumnError(backend.videosWithManual.message)
    requires backend.videosBase.Rows? && backend.videosBase.rows != []
    requires backend.metricsLogs.Rows? && backend.accountInsights.Rows?
    ensures Gather(Some(user), body, backend) ==
      Ready(ParamsOf(body), D.Data(Map(backend.videosBase.rows, WithoutManualColumns), backend.metricsLogs.rows,
                                   backend.accountInsights.rows), true)
  {
  }

  /** On the fallback path every video counts as not done, so the
      engine's manual-input warning reports all of them (the handler's
      answer then closes the list with the missing-column warning, as
      `Answer` states). */
  lemma FallbackWarnings(params: D.Params, rows: seq<VideoRow>, logs: seq<MetricsLog>,
                         insights: seq<AccountInsightRow>, generatedAt: string)
    requires rows != []
    ensures var data := D.Data(Map(rows, WithoutManualColumns), logs, insights);
      var w := D.AccountInputDocument(params, data, generatedAt).dataWarnings;
      && D.ManualIncomplete(|rows|, |rows|) in w
      && D.NoVideos !in w
      && D.ManualColumnsMissing !in w
  {
    var data := D.Data(Map(rows, WithoutManualColumns), logs, insights);
    NoneDoneAllNotDone(data.videos);
    D.DocumentReportsAllNotDone(params, data, generatedAt);
    D.DocumentOmitsColumnsWarning(params, data, generatedAt);
  }
}

=== FILE: prompt_text.dfy ===
/** `buildAccountPromptText`: the consultant prompt with the serialised
    input document put where the template's placeholder is. */
module PromptText {
  import opened Js

  const Placeholder: string := "{{ACCOUNT_INPUT_JSON}}"

  /** The role and the aim. */
  const RoleText: string := RolePart1 + RolePart2 + RolePart3
  const RolePart1: string :=
    "あなたはInstagramアカウントの" + "成長戦略AIコンサルです。\n"
  const RolePart2: string :=
    "単発バズではなく、" + "アカウントを継続的に成長させる視点で" + "分析・提案してください。\n"
  const RolePart3: string :=
    "\n"

  /** The ground rules, first half. */
  const RulesText: string := RulesPart1 + RulesPart2
  const RulesPart1: string :=
    "【前提】\n"
    + "- 感覚論は禁止。必ず与えられたデータを根拠にすること\n"
  const RulesPart2: string :=
    "- 不確実な点は「仮説」と明記すること\n"

  /** The ground rules, second half. */
  const TagRulesText: string := TagRulesPart1 + TagRulesPart2 + TagRulesPart3
  const TagRulesPart1: string :=
    "- analysis_tags（basic / content / " + "editing / strategy）を必ず参照し、" + "強みと弱みを結びつけること\n"
  const TagRulesPart2: string :=
    "- ユーザーが「次に何をすればいいか」が" + "明確に分かるように書くこと\n"
  const TagRulesPart3: string :=
    "\n"

  /** The demand for three blocks. */
  const FormatText: string :=
    "【出力は必ず以下の3ブロック構成で行ってください】\n"
    + "\n"

  /** Block one: the diagnosis of the present state. */
  const DiagnosisText: string := DiagnosisPart1 + DiagnosisPart2 + DiagnosisPart3 + DiagnosisPart4
  const DiagnosisPart1: string :=
    "────────────────\n"
    + "① 今はどうなのか？（現状診断）\n"
  const DiagnosisPart2: string :=
    "────────────────\n"
    + "- 現在のアカウント状態を3行で要約\n"
  const DiagnosisPart3: string :=
    "- 成長を妨げている主なボトルネック（最大3つ、優先度順）\n"
    + "- すでに機能している強み（データ根拠つき）\n"
  const DiagnosisPart4: string :=
    "\n"

  /** Block two, first half: the video types to make. */
  const VideoTypesText: string := VideoTypesPart1 + VideoTypesPart2 + VideoTypesPart3 + VideoTypesPart4
  const VideoTypesPart1: string :=
    "────────────────\n"
    + "② 次にどんな動画を作るべきか？\n"
  const VideoTypesPart2: string :=
    "────────────────\n"
    + "- 今のアカウントで最も効果が出やすい動画タイプ（3〜5個）\n"
  const VideoTypesPart3: string :=
    "  - 各タイプについて：\n"
    + "    - どんな内容か\n"
  const VideoTypesPart4: string :=
    "    - なぜ今それが効くのか（データ根拠 or 仮説）\n"

  /** Block two, second half: the next ten video plans. */
  const VideoPlansText: string := VideoPlansPart1 + VideoPlansPart2 + VideoPlansPart3 + VideoPlansPart4
  const VideoPlansPart1: string :=
    "- 次の10本分の具体的な動画企画\n"
    + "  - 各企画に含めること：\n"
  const VideoPlansPart2: string :=
    "    - テーマ\n"
    + "    - 冒頭フック（0–3秒）\n"
  const VideoPlansPart3: string :=
    "    - 構成の流れ（秒単位で簡潔に）\n"
    + "    - 推奨CTA（" + "保存 / フォロー / プロフ遷移 など）\n"
  const VideoPlansPart4: string :=
    "\n"

  /** Block three: the outlook over thirty to ninety days. */
  const OutlookText: string := OutlookPart1 + OutlookPart2 + OutlookPart3 + OutlookPart4
  const OutlookPart1: string :=
    "────────────────\n"
    + "③ 今後の展望・伸ばし方（30–90日）\n"
  const OutlookPart2: string :=
    "────────────────\n"
    + "- 30日以内に安定させるべき指標\n"
  const OutlookPart3: string :=
    "- 60日で伸ばしに行くポイント\n"
    + "- 90日でやるべきスケール戦略（シリーズ化・型化）\n"
  const OutlookPart4: string :=
    "- 今後「やらない方がいいこと」「捨てるべきこと」\n"
    + "\n"

  /** The heading of the input data. */
  const InputNoteText: string := InputNotePart1 + InputNotePart2
  const InputNotePart1: string :=
    "【入力データ（JSON）】\n"
    + "以下のデータのみを根拠に、上記3ブロックを作成してください。\n"
  const InputNotePart2: string :=
    "\n"

  /** The template text before the placeholder. */
  const TemplatePrefix: string := RoleText + RulesText + TagRulesText + FormatText + DiagnosisText + VideoTypesText + VideoPlansText + OutlookText
    + InputNoteText

  /** The template text after the placeholder. */
  const TemplateSuffix: string := "\n"

  /** `ACCOUNT_PROMPT_TEMPLATE`. */
  const Template: string := TemplatePrefix + Placeholder + TemplateSuffix

  // No piece of the template before the placeholder holds a brace; each
  // piece is checked on its own, a few lines at a time.
  lemma RolePart1AvoidsBrace() ensures '{' !in RolePart1 {}
  lemma RolePart2AvoidsBrace() ensures '{' !in RolePart2 {}
  lemma RolePart3AvoidsBrace() ensures '{' !in RolePart3 {}
  lemma RulesPart1AvoidsBrace() ensures '{' !in RulesPart1 {}
  lemma RulesPart2AvoidsBrace() ensures '{' !in RulesPart2 {}
  lemma TagRulesPart1AvoidsBrace() ensures '{' !in TagRulesPart1 {}
  lemma TagRulesPart2AvoidsBrace() ensures '{' !in TagRulesPart2 {}
  lemma TagRulesPart3AvoidsBrace() ensures '{' !in TagRulesPart3 {}
  lemma DiagnosisPart1AvoidsBrace() ensures '{' !in DiagnosisPart1 {}
  lemma DiagnosisPart2AvoidsBrace() ensures '{' !in DiagnosisPart2 {}
  lemma DiagnosisPart3AvoidsBrace() ensures '{' !in DiagnosisPart3 {}
  lemma DiagnosisPart4AvoidsBrace() ensures '{' !in DiagnosisPart4 {}
  lemma VideoTypesPart1AvoidsBrace() ensures '{' !in VideoTypesPart1 {}
  lemma VideoTypesPart2AvoidsBrace() ensures '{' !in VideoTypesPart2 {}
  lemma VideoTypesPart3AvoidsBrace() ensures '{' !in VideoTypesPart3 {}
  lemma VideoTypesPart4AvoidsBrace() ensures '{' !in VideoTypesPart4 {}
  lemma VideoPlansPart1AvoidsBrace() ensures '{' !in VideoPlansPart1 {}
  lemma VideoPlansPart2AvoidsBrace() ensures '{' !in VideoPlansPart2 {}
  lemma VideoPlansPart3AvoidsBrace() ensures '{' !in VideoPlansPart3 {}
  lemma VideoPlansPart4AvoidsBrace() ensures '{' !in VideoPlansPart4 {}
  lemma OutlookPart1AvoidsBrace() ensures '{' !in OutlookPart1 {}
  lemma OutlookPart2AvoidsBrace() ensures '{' !in OutlookPart2 {}
  lemma OutlookPart3AvoidsBrace() ensures '{' !in OutlookPart3 {}
  lemma OutlookPart4AvoidsBrace() ensures '{' !in OutlookPart4 {}
  lemma InputNotePart1AvoidsBrace() ensures '{' !in InputNotePart1 {}
  lemma InputNotePart2AvoidsBrace() ensures '{' !in InputNotePart2 {}

  lemma RoleTextAvoidsBrace()
    ensures '{' !in RoleText
  {
    RolePart1AvoidsBrace();
    RolePart2AvoidsBrace();
    RolePart3AvoidsBrace();
  }

  lemma RulesTextAvoidsBrace()
    ensures '{' !in RulesText
  {
    RulesPart1AvoidsBrace();
    RulesPart2AvoidsBrace();
  }

  lemma TagRulesTextAvoidsBrace()
    ensures '{' !in TagRulesText
  {
    TagRulesPart1AvoidsBrace();
    TagRulesPart2AvoidsBrace();
    TagRulesPart3AvoidsBrace();
  }

  lemma FormatTextAvoidsBrace() ensures '{' !in FormatText {}

  lemma DiagnosisTextAvoidsBrace()
    ensures '{' !in DiagnosisText
  {
    DiagnosisPart1AvoidsBrace();
    DiagnosisPart2AvoidsBrace();
    DiagnosisPart3AvoidsBrace();
    DiagnosisPart4AvoidsBrace();
  }

  lemma VideoTypesTextAvoidsBrace()
    ensures '{' !in VideoTypesText
  {
    VideoTypesPart1AvoidsBrace();
    VideoTypesPart2AvoidsBrace();
    VideoTypesPart3AvoidsBrace();
    VideoTypesPart4AvoidsBrace();
  }

  lemma VideoPlansTextAvoidsBrace()
    ensures '{' !in VideoPlansText
  {
    VideoPlansPart1AvoidsBrace();
    VideoPlansPart2AvoidsBrace();
    VideoPlansPart3AvoidsBrace();
    VideoPlansPart4AvoidsBrace();
  }

  lemma OutlookTextAvoidsBrace()
    ensures '{' !in OutlookText
  {
    OutlookPart1AvoidsBrace();
    OutlookPart2AvoidsBrace();
    OutlookPart3AvoidsBrace();
    OutlookPart4AvoidsBrace();
  }

  lemma InputNoteTextAvoidsBrace()
    ensures '{' !in InputNoteText
  {
    InputNotePart1AvoidsBrace();
    InputNotePart2AvoidsBrace();
  }

  /** The first character of the placeholder does not occur before it. */
  lemma PrefixHasNoBrace()
    ensures '{' !in TemplatePrefix
  {
    RoleTextAvoidsBrace();
    RulesTextAvoidsBrace();
    TagRulesTextAvoidsBrace();
    FormatTextAvoidsBrace();
    DiagnosisTextAvoidsBrace();
    VideoTypesTextAvoidsBrace();
    VideoPlansTextAvoidsBrace();
    OutlookTextAvoidsBrace();
    InputNoteTextAvoidsBrace();
    var p := RoleText;
    JoinAvoidsBrace(p, RulesText);
    p := p + RulesText;
    JoinAvoidsBrace(p, TagRulesText);
    p := p + TagRulesText;
    JoinAvoidsBrace(p, FormatText);
    p := p + FormatText;
    JoinAvoidsBrace(p, DiagnosisText);
    p := p + DiagnosisText;
    JoinAvoidsBrace(p, VideoTypesText);
    p := p + VideoTypesText;
    JoinAvoidsBrace(p, VideoPlansText);
    p := p + VideoPlansText;
    JoinAvoidsBrace(p, OutlookText);
    p := p + OutlookText;
    JoinAvoidsBrace(p, InputNoteText);
  }

  lemma JoinAvoidsBrace(a: string, b: string)
    requires '{' !in a && '{' !in b
    ensures '{' !in a + b
  {
  }

  // ---------------------------------------------------------------------
  // Filling a template split at its placeholder

  /** The first occurrence of a pattern whose first character does not
      occur in `pre` is right after `pre`. */
  lemma FirstOccurrenceAfter(pre: string, p: string, suf: string)
    requires p != [] && p[0] !in pre
    ensures IndexOf(pre + p + suf, p) == Some(|pre|)
  {
    var s := pre + p + suf;
    assert OccursAt(s, p, |pre|) by {
      assert s[|pre|..|pre| + |p|] == p;
    }
    forall i | 0 <= i < |pre|
      ensures !OccursAt(s, p, i)
    {
      if i + |p| <= |s| {
        assert s[i..i + |p|][0] == pre[i];
      }
    }
  }

  /** `template.replace(placeholder, json)`: the replacement string goes
      through the `$` patterns of `String.prototype.replace`. */
  function FillAsWritten(prefix: string, suffix: string, json: string): string {
    Replace(prefix + Placeholder + suffix, Placeholder, json)
  }

  /** The template with the text put in verbatim. */
  function Fill(prefix: string, suffix: string, json: string): string {
    prefix + json + suffix
  }

  /** The inverse of filling: the text between the prefix and the suffix,
      when the prompt has both. */
  function Extract(prefix: string, suffix: string, prompt: string): (r: Option<string>)
    ensures r.Some? ==> |r.value| + |prefix| + |suffix| == |prompt|
  {
    if |prompt| >= |prefix| + |suffix|
       && prompt[..|prefix|] == prefix
       && prompt[|prompt| - |suffix|..] == suffix
    then Some(prompt[|prefix|..|prompt| - |suffix|])
    else None
  }

  /** The filled-in text can be read back. */
  lemma FillRoundTrip(prefix: string, suffix: string, json: string)
    ensures Extract(prefix, suffix, Fill(prefix, suffix, json)) == Some(json)
  {
    var r := Fill(prefix, suffix, json);
    assert r[..|prefix|] == prefix;
    assert r[|r| - |suffix|..] == suffix;
    assert r[|prefix|..|r| - |suffix|] == json;
  }

  /** With the placeholder first found right after the prefix, `replace`
      puts the expanded replacement between prefix and suffix. */
  lemma FillAsWrittenShape(prefix: string, suffix: string, json: string)
    requires '{' !in prefix
    ensures FillAsWritten(prefix, suffix, json) == prefix + Substitution(Placeholder, prefix, suffix, json) + suffix
  {
    var t := prefix + Placeholder + suffix;
    FirstOccurrenceAfter(prefix, Placeholder, suffix);
    assert t[..|prefix|] == prefix;
    assert t[|prefix| + |Placeholder|..] == suffix;
  }

  /** Both fillings agree on every text without `$`. */
  lemma FillAgreesWithoutDollar(prefix: string, suffix: string, json: string)
    requires '{' !in prefix && '$' !in json
    ensures FillAsWritten(prefix, suffix, json) == Fill(prefix, suffix, json)
  {
    FillAsWrittenShape(prefix, suffix, json);
    SubstitutionVerbatim(Placeholder, prefix, suffix, json);
  }

  /** A text holding `$&` and no other `$` gets the placeholder back in
      place of those two characters: that part of the text is lost. */
  lemma FillAsWrittenLosesText(prefix: string, suffix: string, a: string, b: string)
    requires '{' !in prefix && '$' !in a && '$' !in b
    ensures FillAsWritten(prefix, suffix, a + "$&" + b) == prefix + a + Placeholder + b + suffix
    ensures Extract(prefix, suffix, FillAsWritten(prefix, suffix, a + "$&" + b)) == Some(a + Placeholder + b)
  {
    FillAsWrittenShape(prefix, suffix, a + "$&" + b);
    SubstitutionOfEmbeddedMatch(Placeholder, prefix, suffix, a, b);
    FillRoundTrip(prefix, suffix, a + Placeholder + b);
    assert prefix + (a + Placeholder + b) + suffix == prefix + a + Placeholder + b + suffix;
  }

  /** The placeholder is not the two characters `$&`. */
  lemma PlaceholderDiffers(a: string, b: string)
    ensures a + Placeholder + b != a + "$&" + b
  {
    assert |a + Placeholder + b| == |a| + 22 + |b|;
  }

  // ---------------------------------------------------------------------
  // The account prompt

  /** The prompt as `buildAccountPromptText` builds it. */
  function BuildPromptTextAsWritten(json: string): string {
    FillAsWritten(TemplatePrefix, TemplateSuffix, json)
  }

  /** The prompt with the serialised document put in verbatim. */
  function BuildPromptText(json: string): string {
    Fill(TemplatePrefix, TemplateSuffix, json)
  }

  /** Reading the serialised document back from a prompt. */
  function ExtractJson(prompt: string): Option<string> {
    Extract(TemplatePrefix, TemplateSuffix, prompt)
  }

  /** The serialised document can be read back from the prompt. */
  lemma PromptRoundTrip(json: string)
    ensures ExtractJson(BuildPromptText(json)) == Some(json)
  {
    FillRoundTrip(TemplatePrefix, TemplateSuffix, json);
  }

  /** The template's placeholder is found right after its prefix (no brace
      occurs before it), so the prompt as written is the prefix, the
      `$`-expanded document and the suffix. */
  lemma AsWrittenExpandsDollar(json: string)
    ensures BuildPromptTextAsWritten(json) ==
      TemplatePrefix + Substitution(Placeholder, TemplatePrefix, TemplateSuffix, json) + TemplateSuffix
  {
    PrefixHasNoBrace();
    FillAsWrittenShape(TemplatePrefix, TemplateSuffix, json);
  }

  /** The two builders agree on every document whose serialisation has no
      `$`. */
  lemma AsWrittenAgreesWithoutDollar(json: string)
    requires '$' !in json
    ensures BuildPromptTextAsWritten(json) == BuildPromptText(json)
  {
    PrefixHasNoBrace();
    FillAgreesWithoutDollar(TemplatePrefix, TemplateSuffix, json);
  }

  /** A serialised document holding `$&` and no other `$` (a caption
      `$&` is serialised as `{"caption":"$&"}`, say) has those two
      characters replaced by the placeholder in the prompt as written;
      with a and b empty, the prompt is the unfilled template. */
  lemma DollarPatternKeepsTemplate(a: string, b: string)
    requires '$' !in a && '$' !in b
    ensures BuildPromptTextAsWritten(a + "$&" + b) == TemplatePrefix + a + Placeholder + b + TemplateSuffix
  {
    PrefixHasNoBrace();
    FillAsWrittenLosesText(TemplatePrefix, TemplateSuffix, a, b);
  }

  /** Reading the document back from that prompt gives a different text,
      with the placeholder where `$&` was; the corrected builder gives the
      document back (`PromptRoundTrip`). */
  lemma DollarPatternLosesJson(a: string, b: string)
    requires '$' !in a && '$' !in b
    ensures ExtractJson(BuildPromptTextAsWritten(a + "$&" + b)) == Some(a + Placeholder + b)
    ensures ExtractJson(BuildPromptTextAsWritten(a + "$&" + b)) != Some(a + "$&" + b)
  {
    PrefixHasNoBrace();
    FillAsWrittenLosesText(TemplatePrefix, TemplateSuffix, a, b);
    PlaceholderDiffers(a, b);
  }
}

=== FILE: stable_sort.dfy ===
/** Array.prototype.sort with a comparator of the form
    `(a, b) => key(b) - key(a)`. Since ES2019 the sort is stable, so the
    result is the unique ordering by descending key in which equal keys
    keep their input order. An ascending sort is the same sort on the
    negated key. */
module StableSort {

  ghost predicate SortedDesc<T>(s: seq<T>, key: T -> real) {
    forall i, j :: 0 <= i < j < |s| ==> key(s[i]) >= key(s[j])
  }

  /** The elements of s whose key is k, in their order in s. */
  function KeyFilter<T>(s: seq<T>, key: T -> real, k: real): seq<T>
    decreases |s|
  {
    if s == [] then [] else (if key(s[0]) == k then [s[0]] else []) + KeyFilter(s[1..], key, k)
  }

  /** Inserts x before the first element whose key is not larger. */
  function Insert<T>(x: T, s: seq<T>, key: T -> real): (r: seq<T>)
    ensures |r| == |s| + 1 && multiset(r) == multiset(s) + multiset{x}
    decreases |s|
  {
    if s == [] || key(x) >= key(s[0]) then [x] + s
    else
      assert s == [s[0]] + s[1..];
      [s[0]] + Insert(x, s[1..], key)
  }

  function SortDesc<T>(s: seq<T>, key: T -> real): (r: seq<T>)
    ensures |r| == |s| && multiset(r) == multiset(s)
    decreases |s|
  {
    if s == [] then []
    else
      assert s == [s[0]] + s[1..];
      Insert(s[0], SortDesc(s[1..], key), key)
  }

  lemma {:induction false} InsertSorted<T>(x: T, s: seq<T>, key: T -> real)
    requires SortedDesc(s, key)
    ensures SortedDesc(Insert(x, s, key), key)
    decreases |s|
  {
    if s != [] && key(x) < key(s[0]) {
      InsertSorted(x, s[1..], key);
      var t := Insert(x, s[1..], key);
      forall i | 0 <= i < |t| ensures key(s[0]) >= key(t[i]) {
        assert t[i] in multiset(s[1..]) + multiset{x};
        if t[i] != x {
          var j :| 0 <= j < |s[1..]| && s[1..][j] == t[i];
          assert s[1..][j] == s[j + 1];
        }
      }
    }
  }

  /** The sort orders by descending key. */
  lemma {:induction false} SortIsSorted<T>(s: seq<T>, key: T -> real)
    ensures SortedDesc(SortDesc(s, key), key)
    decreases |s|
  {
    if s != [] {
      SortIsSorted(s[1..], key);
      InsertSorted(s[0], SortDesc(s[1..], key), key);
    }
  }

  lemma {:induction false} InsertKeyFilter<T>(x: T, s: seq<T>, key: T -> real, k: real)
    requires SortedDesc(s, key)
    ensures KeyFilter(Insert(x, s, key), key, k) == (if key(x) == k then [x] else []) + KeyFilter(s, key, k)
    decreases |s|
  {
    if s == [] || key(x) >= key(s[0]) {
      assert ([x] + s)[1..] == s;
    } else {
      var tail := s[1..];
      assert SortedDesc(tail, key) by {
        forall i, j | 0 <= i < j < |tail| ensures key(tail[i]) >= key(tail[j]) {
          assert tail[i] == s[i + 1] && tail[j] == s[j + 1];
        }
      }
      var t := Insert(x, tail, key);
      InsertKeyFilter(x, tail, key, k);
      var r := [s[0]] + t;
      assert r[1..] == t;
      var head := if key(s[0]) == k then [s[0]] else [];
      var xs := if key(x) == k then [x] else [];
      calc {
        KeyFilter(r, key, k);
        head + KeyFilter(t, key, k);
        head + (xs + KeyFilter(tail, key, k));
        { assert head == [] || xs == []; }
        xs + (head + KeyFilter(tail, key, k));
        xs + KeyFilter(s, key, k);
      }
    }
  }

  /** Stability: for every key, the elements with that key keep their
      relative input order. */
  lemma {:induction false} SortIsStable<T>(s: seq<T>, key: T -> real, k: real)
    ensures KeyFilter(SortDesc(s, key), key, k) == KeyFilter(s, key, k)
    decreases |s|
  {
    if s != [] {
      SortIsStable(s[1..], key, k);
      SortIsSorted(s[1..], key);
      InsertKeyFilter(s[0], SortDesc(s[1..], key), key, k);
    }
  }

  lemma {:induction false} KeyFilterHead<T>(s: seq<T>, key: T -> real, m: nat)
    requires m < |s|
    requires forall j :: 0 <= j < m ==> key(s[j]) != key(s[m])
    ensures KeyFilter(s, key, key(s[m])) != [] && KeyFilter(s, key, key(s[m]))[0] == s[m]
    decreases m
  {
    if m > 0 {
      forall j | 0 <= j < m - 1 ensures key(s[1..][j]) != key(s[1..][m - 1]) {
        assert s[1..][j] == s[j + 1];
      }
      KeyFilterHead(s[1..], key, m - 1);
    }
  }

  /** Every element of the sorted sequence comes from the input. */
  lemma SortMembers<T>(s: seq<T>, key: T -> real)
    ensures forall i :: 0 <= i < |s| ==> SortDesc(s, key)[i] in s
  {
    var r := SortDesc(s, key);
    forall i | 0 <= i < |s| ensures r[i] in s {
      assert r[i] in multiset(r);
    }
  }

  /** Filtering by key works element by element. */
  lemma {:induction false} KeyFilterAppend<T>(a: seq<T>, b: seq<T>, key: T -> real, k: real)
    ensures KeyFilter(a + b, key, k) == KeyFilter(a, key, k) + KeyFilter(b, key, k)
    decreases |a|
  {
    if a == [] {
      assert a + b == b;
    } else {
      var ab := a + b;
      var head := if key(a[0]) == k then [a[0]] else [];
      assert ab[0] == a[0] && ab[1..] == a[1..] + b;
      KeyFilterAppend(a[1..], b, key, k);
      calc {
        KeyFilter(ab, key, k);
        head + KeyFilter(a[1..] + b, key, k);
        head + (KeyFilter(a[1..], key, k) + KeyFilter(b, key, k));
        (head + KeyFilter(a[1..], key, k)) + KeyFilter(b, key, k);
      }
    }
  }

  /** Keeping the first m elements of the sorted sequence keeps, for every
      key, the elements carrying that key that come first in the input. */
  lemma PrefixKeepsFirstTies<T>(s: seq<T>, key: T -> real, m: nat)
    requires m <= |s|
    ensures forall k :: KeyFilter(SortDesc(s, key), key, k) == KeyFilter(s, key, k)
    ensures forall k :: KeyFilter(SortDesc(s, key)[..m], key, k) <= KeyFilter(s, key, k)
  {
    var sorted := SortDesc(s, key);
    forall k
      ensures KeyFilter(sorted, key, k) == KeyFilter(s, key, k)
      ensures KeyFilter(sorted[..m], key, k) <= KeyFilter(s, key, k)
    {
      assert sorted == sorted[..m] + sorted[m..];
      KeyFilterAppend(sorted[..m], sorted[m..], key, k);
      SortIsStable(s, key, k);
    }
  }

  /** Keeping the first n elements of the sorted sequence keeps elements of
      the input, and every input element left out has a key no larger than
      that of the last element kept, of which there are then n. */
  lemma TopOfSorted<T>(s: seq<T>, key: T -> real, n: nat)
    requires n > 0
    ensures var r := SortDesc(s, key)[..if |s| < n then |s| else n];
      && multiset(r) <= multiset(s)
      && (forall x :: x in multiset(s) - multiset(r) ==> |r| == n && key(x) <= key(r[n - 1]))
      && (forall j :: 0 <= j < |s| && s[j] !in r ==> |r| == n && key(s[j]) <= key(r[n - 1]))
  {
    var sorted := SortDesc(s, key);
    if s != [] {
      SortIsSorted(s, key);
      SortedPrefixAbove(sorted, key, if |s| < n then |s| else n);
      forall j | 0 <= j < |s| ensures s[j] in sorted {
        assert s[j] in multiset(sorted);
      }
    }
  }

  /** A prefix of a sorted sequence is part of it, and what follows the
      prefix has keys no larger than its last element. */
  lemma SortedPrefixAbove<T>(t: seq<T>, key: T -> real, m: nat)
    requires SortedDesc(t, key) && 0 < m <= |t|
    ensures multiset(t[..m]) <= multiset(t)
    ensures forall x :: x in multiset(t) - multiset(t[..m]) ==> m < |t| && key(x) <= key(t[m - 1])
    ensures forall x :: x in t && x !in t[..m] ==> m < |t| && key(x) <= key(t[m - 1])
  {
    var rest := t[m..];
    assert t == t[..m] + rest;
    assert multiset(t) == multiset(t[..m]) + multiset(rest);
    forall x | x in multiset(t) - multiset(t[..m]) ensures m < |t| && key(x) <= key(t[m - 1]) {
      assert x in multiset(rest);
      AfterPrefixBelow(t, key, m, x);
    }
    forall x | x in t && x !in t[..m] ensures m < |t| && key(x) <= key(t[m - 1]) {
      AfterPrefixBelow(t, key, m, x);
    }
  }

  lemma AfterPrefixBelow<T>(t: seq<T>, key: T -> real, m: nat, x: T)
    requires SortedDesc(t, key) && 0 < m <= |t| && x in t[m..]
    ensures m < |t| && key(x) <= key(t[m - 1])
  {
    var k :| 0 <= k < |t[m..]| && t[m..][k] == x;
    assert t[m + k] == x;
  }

  /** The head of the sorted sequence is the first input element (in input
      order) that carries the largest key. */
  lemma SortHeadIsFirstLargest<T>(s: seq<T>, key: T -> real, m: nat)
    requires m < |s|
    requires forall j :: 0 <= j < |s| ==> key(s[j]) <= key(s[m])
    requires forall j :: 0 <= j < m ==> key(s[j]) < key(s[m])
    ensures SortDesc(s, key)[0] == s[m]
  {
    var r := SortDesc(s, key);
    var top := key(s[m]);
    SortIsSorted(s, key);
    SortMembers(s, key);
    assert s[m] in multiset(r);
    var i :| 0 <= i < |r| && r[i] == s[m];
    assert key(r[0]) >= top;
    var j :| 0 <= j < |s| && s[j] == r[0];
    assert key(r[0]) == top;
    KeyFilterHead(s, key, m);
    KeyFilterHead(r, key, 0);
    SortIsStable(s, key, top);
  }
}

=== FILE: tag_insights.dfy ===
/** `buildTagInsights`: for each of the four tag sections, how often each
    `field::value` pair occurs in a cohort, as the five most frequent pairs. */
module TagInsights {
  import opened Js
  import opened Database
  import opened StableSort
  import G = GoalScoring

  datatype Category = Basic | Content | Editing | Strategy

  /** `TAG_FIELDS`: the fields counted in each section, in counting order. */
  function TagFields(c: Category): seq<string> {
    match c
    case Basic => ["time_slot", "length", "thumbnail_type", "sound_type"]
    case Content => ["location", "action", "companion", "language_element", "reality_level", "mood", "info_density"]
    case Editing => ["hook_visual", "hook_text", "structure", "tempo", "telop_amount", "filter", "ending"]
    case Strategy => ["caption_style", "target", "cta", "origin", "cost", "purpose"]
  }

  /** The field names are distinct within a section and contain no colon. */
  lemma TagFieldsWellFormed(c: Category)
    ensures Distinct(TagFields(c))
    ensures forall i :: 0 <= i < |TagFields(c)| ==> ':' !in TagFields(c)[i]
  {
  }

  function SectionOf(tags: AnalysisTags, c: Category): Option<Section> {
    match c
    case Basic => tags.basic
    case Content => tags.content
    case Editing => tags.editing
    case Strategy => tags.strategy
  }

  /** `String(raw)`: a string as it is, a boolean as "true" or "false". */
  function TagText(v: TagValue): string {
    match v
    case Str(s) => s
    case Bool(b) => if b then "true" else "false"
  }

  /** The counting key `${field}::${value}`. */
  function TagKey(field: string, value: string): string {
    field + "::" + value
  }

  /** In a key the first colon is the one right after the field. */
  lemma TagKeyColon(f: string, v: string)
    requires ':' !in f
    ensures forall i :: 0 <= i < |f| ==> TagKey(f, v)[i] != ':'
    ensures TagKey(f, v)[|f|] == ':' && TagKey(f, v)[|f| + 1] == ':'
  {
    assert forall i :: 0 <= i < |f| ==> TagKey(f, v)[i] == f[i];
  }

  /** A key determines its field and value when the field has no colon. */
  lemma TagKeyInjective(f1: string, v1: string, f2: string, v2: string)
    requires ':' !in f1 && ':' !in f2
    requires TagKey(f1, v1) == TagKey(f2, v2)
    ensures f1 == f2 && v1 == v2
  {
    var k := TagKey(f1, v1);
    TagKeyColon(f1, v1);
    TagKeyColon(f2, v2);
    assert f1 == k[..|f1|] == f2;
    assert v1 == k[|f1| + 2..] == v2;
  }

  /** The keys one section contributes, one per present field, in field
      order. */
  function SectionKeys(section: Section, fields: seq<string>): seq<string>
    decreases |fields|
  {
    if fields == [] then []
    else
      var f := fields[|fields| - 1];
      SectionKeys(section, fields[..|fields| - 1]) + (if f in section then [TagKey(f, TagText(section[f]))] else [])
  }

  /** Each key of a section names one of the fields and that field's value. */
  lemma {:induction false} SectionKeysFrom(section: Section, fields: seq<string>, k: string)
    requires k in SectionKeys(section, fields)
    ensures exists f :: f in fields && f in section && k == TagKey(f, TagText(section[f]))
    decreases |fields|
  {
    var pre := fields[..|fields| - 1];
    var f := fields[|fields| - 1];
    if k in SectionKeys(section, pre) {
      SectionKeysFrom(section, pre, k);
      var g :| g in pre && g in section && k == TagKey(g, TagText(section[g]));
      assert g in fields;
    } else {
      assert f in section && k == TagKey(f, TagText(section[f]));
    }
  }

  /** Every present field contributes its key; a boolean contributes
      `field::true` or `field::false`. */
  lemma {:induction false} SectionKeysHasField(section: Section, fields: seq<string>, f: string)
    requires f in fields && f in section
    ensures TagKey(f, TagText(section[f])) in SectionKeys(section, fields)
    decreases |fields|
  {
    var pre := fields[..|fields| - 1];
    if f != fields[|fields| - 1] {
      assert fields == pre + [fields[|fields| - 1]];
      SectionKeysHasField(section, pre, f);
    }
  }

  /** Within one section no key occurs twice. */
  lemma {:induction false} SectionKeysDistinct(section: Section, fields: seq<string>)
    requires Distinct(fields)
    requires forall i :: 0 <= i < |fields| ==> ':' !in fields[i]
    ensures Distinct(SectionKeys(section, fields))
    decreases |fields|
  {
    if fields != [] {
      var pre := fields[..|fields| - 1];
      var f := fields[|fields| - 1];
      SectionKeysDistinct(section, pre);
      var keys := SectionKeys(section, fields);
      var preKeys := SectionKeys(section, pre);
      if f in section {
        var k := TagKey(f, TagText(section[f]));
        forall i | 0 <= i < |preKeys| ensures preKeys[i] != k {
          SectionKeysFrom(section, pre, preKeys[i]);
          var g :| g in pre && g in section && preKeys[i] == TagKey(g, TagText(section[g]));
          var gi :| 0 <= gi < |pre| && pre[gi] == g;
          if preKeys[i] == k {
            TagKeyInjective(g, TagText(section[g]), f, TagText(section[f]));
          }
        }
      }
    }
  }

  /** The keys one video contributes to a section's count. */
  function ItemKeys(item: G.VideoAggregate, c: Category): seq<string> {
    if item.video.analysisTags.None? then []
    else
      match SectionOf(item.video.analysisTags.value, c)
      case None => []
      case Some(section) => SectionKeys(section, TagFields(c))
  }

  /** The keys of the whole cohort, in visiting order. */
  function CohortKeys(items: seq<G.VideoAggregate>, c: Category): seq<string>
    decreases |items|
  {
    if items == [] then [] else CohortKeys(items[..|items| - 1], c) + ItemKeys(items[|items| - 1], c)
  }

  /** One entry of the `counts` record. */
  datatype TagCount = TagCount(key: string, count: nat)

  /** `counts[key] = (counts[key] ?? 0) + 1`: an existing key is counted up
      in place; a new key is appended, as a record keeps insertion order. */
  function Increment(tally: seq<TagCount>, key: string): (r: seq<TagCount>)
    decreases |tally|
  {
    if tally == [] then [TagCount(key, 1)]
    else if tally[0].key == key then [TagCount(key, tally[0].count + 1)] + tally[1..]
    else [tally[0]] + Increment(tally[1..], key)
  }

  /** The counts record after the keys have been counted in order. */
  function TallyOf(keys: seq<string>): seq<TagCount>
    decreases |keys|
  {
    if keys == [] then [] else Increment(TallyOf(keys[..|keys| - 1]), keys[|keys| - 1])
  }

  function TallyKeys(tally: seq<TagCount>): (r: seq<string>)
    ensures |r| == |tally| && forall i :: 0 <= i < |tally| ==> r[i] == tally[i].key
  {
    seq(|tally|, i requires 0 <= i < |tally| => tally[i].key)
  }

  /** The count stored under a key, 0 when the key is absent. */
  function CountOf(tally: seq<TagCount>, key: string): nat
    decreases |tally|
  {
    if tally == [] then 0 else if tally[0].key == key then tally[0].count else CountOf(tally[1..], key)
  }

  /** A record whose keys are distinct and whose counts are positive. */
  predicate WellFormedTally(tally: seq<TagCount>) {
    Distinct(TallyKeys(tally)) && forall i :: 0 <= i < |tally| ==> tally[i].count >= 1
  }

  lemma {:induction false} CountOfEntry(tally: seq<TagCount>, i: nat)
    requires WellFormedTally(tally) && i < |tally|
    ensures CountOf(tally, tally[i].key) == tally[i].count
    decreases i
  {
    if i > 0 {
      assert TallyKeys(tally)[0] != TallyKeys(tally)[i];
      var rest := tally[1..];
      assert WellFormedTally(rest) by {
        forall a, b | 0 <= a < b < |rest| ensures TallyKeys(rest)[a] != TallyKeys(rest)[b] {
          assert TallyKeys(tally)[a + 1] != TallyKeys(tally)[b + 1];
        }
      }
      CountOfEntry(rest, i - 1);
    }
  }

  lemma {:induction false} CountOfAbsent(tally: seq<TagCount>, key: string)
    requires key !in TallyKeys(tally)
    ensures CountOf(tally, key) == 0
    decreases |tally|
  {
    if tally != [] {
      assert TallyKeys(tally)[0] == tally[0].key;
      assert key !in TallyKeys(tally[1..]) by {
        forall i | 0 <= i < |tally| - 1 ensures TallyKeys(tally[1..])[i] != key {
          assert TallyKeys(tally[1..])[i] == TallyKeys(tally)[i + 1];
        }
      }
      CountOfAbsent(tally[1..], key);
    }
  }

  /** Counting a key adds one to its count and leaves every other count
      as it was. */
  lemma {:induction false} IncrementCount(tally: seq<TagCount>, key: string, k: string)
    ensures CountOf(Increment(tally, key), k) == CountOf(tally, k) + (if k == key then 1 else 0)
    decreases |tally|
  {
    if tally != [] && tally[0].key != key {
      var r := Increment(tally, key);
      assert r[1..] == Increment(tally[1..], key);
      IncrementCount(tally[1..], key, k);
    }
  }

  /** Counting a key leaves the record's key order as it was, and appends
      the key when it is new. */
  lemma {:induction false} IncrementKeys(tally: seq<TagCount>, key: string)
    ensures TallyKeys(Increment(tally, key)) ==
      if key in TallyKeys(tally) then TallyKeys(tally) else TallyKeys(tally) + [key]
    decreases |tally|
  {
    if tally != [] {
      var rest := tally[1..];
      KeysCons(tally[0], rest);
      assert tally == [tally[0]] + rest;
      if tally[0].key == key {
        KeysCons(TagCount(key, tally[0].count + 1), rest);
      } else {
        IncrementKeys(rest, key);
        KeysCons(tally[0], Increment(rest, key));
      }
    }
  }

  /** The keys of a record with one more entry in front. */
  lemma KeysCons(first: TagCount, rest: seq<TagCount>)
    ensures TallyKeys([first] + rest) == [first.key] + TallyKeys(rest)
  {
  }

  lemma {:induction false} IncrementPositive(tally: seq<TagCount>, key: string)
    requires forall i :: 0 <= i < |tally| ==> tally[i].count >= 1
    ensures forall i :: 0 <= i < |Increment(tally, key)| ==> Increment(tally, key)[i].count >= 1
    decreases |tally|
  {
    if tally != [] && tally[0].key != key {
      IncrementPositive(tally[1..], key);
      var r := Increment(tally, key);
      assert r[1..] == Increment(tally[1..], key);
      assert forall i :: 1 <= i < |r| ==> r[i] == r[1..][i - 1];
    }
  }

  /** Counting a key keeps the record well formed. */
  lemma IncrementWellFormed(tally: seq<TagCount>, key: string)
    requires WellFormedTally(tally)
    ensures WellFormedTally(Increment(tally, key))
    ensures forall k :: CountOf(Increment(tally, key), k) == CountOf(tally, k) + (if k == key then 1 else 0)
    ensures forall k :: k in TallyKeys(Increment(tally, key)) <==> k in TallyKeys(tally) || k == key
  {
    IncrementKeys(tally, key);
    IncrementPositive(tally, key);
    forall k ensures CountOf(Increment(tally, key), k) == CountOf(tally, k) + (if k == key then 1 else 0) {
      IncrementCount(tally, key, k);
    }
  }

  /** Appending a key to the visited keys counts it once more. */
  lemma TallyAppend(keys: seq<string>, key: string)
    ensures TallyOf(keys + [key]) == Increment(TallyOf(keys), key)
  {
    assert (keys + [key])[..|keys|] == keys;
  }

  /** The counts record holds every visited key exactly once, with the
      number of times it was visited (`TallyKeysInFirstOrder` gives the
      order of the keys). */
  lemma {:induction false} TallySpec(keys: seq<string>)
    ensures WellFormedTally(TallyOf(keys))
    ensures forall k :: CountOf(TallyOf(keys), k) == multiset(keys)[k]
    ensures forall k :: k in TallyKeys(TallyOf(keys)) <==> k in keys
    decreases |keys|
  {
    if keys != [] {
      var pre := keys[..|keys| - 1];
      var last := keys[|keys| - 1];
      TallySpec(pre);
      IncrementWellFormed(TallyOf(pre), last);
      assert keys == pre + [last];
      assert multiset(keys) == multiset(pre) + multiset{last};
    }
  }

  /** The counts record lists the keys in the order of their first visit,
      as a record keeps insertion order. */
  lemma {:induction false} TallyKeysInFirstOrder(keys: seq<string>)
    ensures TallyKeys(TallyOf(keys)) == Dedup(keys)
    decreases |keys|
  {
    if keys != [] {
      var pre := keys[..|keys| - 1];
      TallyKeysInFirstOrder(pre);
      IncrementKeys(TallyOf(pre), keys[|keys| - 1]);
    }
  }

  /** One line of the section's insights. `value` is absent only when the
      key holds no `::`, which no counted key does. */
  datatype TagInsight = TagInsight(field: string, value: Option<string>, count: nat)

  /** `key.split("::")` read as `[field, value]`: the text before the first
      `::`, and the text between it and the next `::` (or the end). */
  function SplitKey(key: string): (string, Option<string>) {
    match IndexOf(key, "::")
    case None => (key, None)
    case Some(i) =>
      var rest := key[i + 2..];
      (key[..i], Some(match IndexOf(rest, "::") case None => rest case Some(j) => rest[..j]))
  }

  /** Splitting a key gives back its field, and its value when the value
      holds no colon. */
  lemma SplitTagKey(f: string, v: string)
    requires ':' !in f
    ensures SplitKey(TagKey(f, v)).0 == f
    ensures ':' !in v ==> SplitKey(TagKey(f, v)).1 == Some(v)
  {
    var k := TagKey(f, v);
    TagKeyColon(f, v);
    assert OccursAt(k, "::", |f|) by {
      assert k[|f|..|f| + 2] == "::";
    }
    assert forall i :: 0 <= i < |f| ==> !OccursAt(k, "::", i) by {
      forall i | 0 <= i < |f| ensures !OccursAt(k, "::", i) {
        assert k[i] != ':';
        assert i + 2 <= |k| ==> k[i..i + 2][0] == k[i];
      }
    }
    var r := IndexOf(k, "::");
    assert r == Some(|f|);
    assert k[|f| + 2..] == v;
    if ':' !in v {
      assert forall j :: 0 <= j <= |v| ==> !OccursAt(v, "::", j) by {
        forall j | 0 <= j <= |v| ensures !OccursAt(v, "::", j) {
          assert j + 2 <= |v| ==> v[j..j + 2][0] == v[j];
        }
      }
    }
  }

  function ToInsight(e: TagCount): TagInsight {
    var parts := SplitKey(e.key);
    TagInsight(parts.0, parts.1, e.count)
  }

  /** `Object.entries(counts).map(...)`. */
  function Insights(tally: seq<TagCount>): (r: seq<TagInsight>)
    ensures |r| == |tally| && forall i :: 0 <= i < |tally| ==> r[i] == ToInsight(tally[i])
  {
    seq(|tally|, i requires 0 <= i < |tally| => ToInsight(tally[i]))
  }

  function CountKey(e: TagInsight): real {
    e.count as real
  }

  /** `buildCategory`: the five most frequent pairs by descending count,
      ties in first-seen order. */
  function CategoryInsights(items: seq<G.VideoAggregate>, c: Category): seq<TagInsight> {
    SliceTo(SortDesc(Insights(TallyOf(CohortKeys(items, c))), CountKey), 5)
  }

  /** The inner loop of `buildCategory`: counts the present fields of one
      section, in field order, into the record. */
  method CountSection(counts: seq<TagCount>, ghost visited: seq<string>, section: Section, fields: seq<string>)
    returns (r: seq<TagCount>)
    requires counts == TallyOf(visited)
    ensures r == TallyOf(visited + SectionKeys(section, fields))
  {
    r := counts;
    var j := 0;
    assert visited + SectionKeys(section, fields[..0]) == visited by {
      assert fields[..0] == [];
    }
    while j < |fields|
      invariant 0 <= j <= |fields|
      invariant r == TallyOf(visited + SectionKeys(section, fields[..j]))
    {
      var field := fields[j];
      assert fields[..j + 1][..j] == fields[..j];
      var before := SectionKeys(section, fields[..j]);
      if field in section {
        var key := TagKey(field, TagText(section[field]));
        assert SectionKeys(section, fields[..j + 1]) == before + [key];
        assert visited + (before + [key]) == (visited + before) + [key];
        TallyAppend(visited + before, key);
        r := Increment(r, key);
      } else {
        assert SectionKeys(section, fields[..j + 1]) == before + [];
        assert before + [] == before;
      }
      j := j + 1;
    }
    assert fields[..j] == fields;
  }

  /** `buildCategory` as the source runs it: the counts record is filled
      one video and one field at a time, then ranked. */
  method BuildCategory(items: seq<G.VideoAggregate>, c: Category) returns (r: seq<TagInsight>)
    ensures r == CategoryInsights(items, c)
  {
    var counts: seq<TagCount> := [];
    var i := 0;
    while i < |items|
      invariant 0 <= i <= |items|
      invariant counts == TallyOf(CohortKeys(items[..i], c))
    {
      CohortKeysStep(items, i, c);
      counts := CountItem(counts, CohortKeys(items[..i], c), items[i], c);
      i := i + 1;
    }
    assert items[..i] == items;
    r := SliceTo(SortDesc(Insights(counts), CountKey), 5);
  }

  /** The keys of one more video are appended after the earlier ones. */
  lemma CohortKeysStep(items: seq<G.VideoAggregate>, i: nat, c: Category)
    requires i < |items|
    ensures CohortKeys(items[..i + 1], c) == CohortKeys(items[..i], c) + ItemKeys(items[i], c)
  {
    assert items[..i + 1][..i] == items[..i];
  }

  /** One video's present tag fields counted into the record. */
  method CountItem(counts: seq<TagCount>, visited: seq<string>, item: G.VideoAggregate, c: Category) returns (r: seq<TagCount>)
    requires counts == TallyOf(visited)
    ensures r == TallyOf(visited + ItemKeys(item, c))
  {
    r := counts;
    if item.video.analysisTags.Some? && SectionOf(item.video.analysisTags.value, c).Some? {
      var section := SectionOf(item.video.analysisTags.value, c).value;
      r := CountSection(counts, visited, section, TagFields(c));
    } else {
      assert visited + ItemKeys(item, c) == visited;
    }
  }

  lemma DistinctCountAtMostOne(s: seq<string>, k: string)
    requires Distinct(s)
    ensures multiset(s)[k] <= 1
    decreases |s|
  {
    if s != [] {
      assert s == [s[0]] + s[1..];
      assert Distinct(s[1..]) by {
        forall a, b | 0 <= a < b < |s| - 1 ensures s[1..][a] != s[1..][b] {
          assert s[a + 1] != s[b + 1];
        }
      }
      DistinctCountAtMostOne(s[1..], k);
      if s[0] == k {
        assert k !in s[1..] by {
          forall j | 0 <= j < |s| - 1 ensures s[1..][j] != k {
            assert s[0] != s[j + 1];
          }
        }
      }
    }
  }

  /** A video contributes each key at most once. */
  lemma ItemKeysDistinct(item: G.VideoAggregate, c: Category)
    ensures Distinct(ItemKeys(item, c))
  {
    TagFieldsWellFormed(c);
    if item.video.analysisTags.Some? && SectionOf(item.video.analysisTags.value, c).Some? {
      SectionKeysDistinct(SectionOf(item.video.analysisTags.value, c).value, TagFields(c));
    }
  }

  /** No key is counted more often than there are videos. */
  lemma {:induction false} CohortKeyCountBound(items: seq<G.VideoAggregate>, c: Category, k: string)
    ensures multiset(CohortKeys(items, c))[k] <= |items|
    decreases |items|
  {
    if items != [] {
      var pre := items[..|items| - 1];
      CohortKeyCountBound(pre, c, k);
      ItemKeysDistinct(items[|items| - 1], c);
      DistinctCountAtMostOne(ItemKeys(items[|items| - 1], c), k);
    }
  }

  /** Every key of the cohort names a field of the section. */
  lemma {:induction false} CohortKeyField(items: seq<G.VideoAggregate>, c: Category, k: string)
    requires k in CohortKeys(items, c)
    ensures exists f, v :: f in TagFields(c) && k == TagKey(f, v)
    decreases |items|
  {
    var pre := items[..|items| - 1];
    var item := items[|items| - 1];
    if k in CohortKeys(pre, c) {
      CohortKeyField(pre, c, k);
    } else {
      assert k in ItemKeys(item, c);
      var section := SectionOf(item.video.analysisTags.value, c).value;
      SectionKeysFrom(section, TagFields(c), k);
    }
  }

  /** A cohort contributes no key exactly when none of its videos has a
      field of the section set. */
  lemma {:induction false} CohortKeysEmpty(items: seq<G.VideoAggregate>, c: Category)
    ensures CohortKeys(items, c) == [] <==> forall i :: 0 <= i < |items| ==> ItemKeys(items[i], c) == []
    decreases |items|
  {
    if items != [] {
      var pre := items[..|items| - 1];
      var last := items[|items| - 1];
      CohortKeysEmpty(pre, c);
      ConcatEmpty(CohortKeys(pre, c), ItemKeys(last, c));
      if CohortKeys(items, c) == [] {
        forall i | 0 <= i < |items| ensures ItemKeys(items[i], c) == [] {
          if i < |pre| {
            assert pre[i] == items[i];
          }
        }
      }
      if forall i :: 0 <= i < |items| ==> ItemKeys(items[i], c) == [] {
        forall i | 0 <= i < |pre| ensures ItemKeys(pre[i], c) == [] {
          assert pre[i] == items[i];
        }
      }
    }
  }

  lemma ConcatEmpty<T>(a: seq<T>, b: seq<T>)
    ensures a + b == [] <==> a == [] && b == []
  {
    if a + b == [] {
      assert |a + b| == |a| + |b|;
    }
  }

  /** Every line built from the cohort's counts has a count between 1
      and the cohort size and names a field of the section. */
  lemma InsightLineSpec(items: seq<G.VideoAggregate>, c: Category, j: nat)
    requires j < |TallyOf(CohortKeys(items, c))|
    ensures var line := ToInsight(TallyOf(CohortKeys(items, c))[j]);
      1 <= line.count <= |items| && line.field in TagFields(c)
  {
    var keys := CohortKeys(items, c);
    var tally := TallyOf(keys);
    var e := tally[j];
    TallySpec(keys);
    CountOfEntry(tally, j);
    assert TallyKeys(tally)[j] == e.key;
    assert e.key in keys;
    CohortKeyCountBound(items, c, e.key);
    CohortKeyField(items, c, e.key);
    var f, v :| f in TagFields(c) && e.key == TagKey(f, v);
    TagFieldsWellFormed(c);
    SplitTagKey(f, v);
  }

  /** Each line kept from the counts of some keys is the line of an entry
      of the record, and each entry counts the times its key occurs among
      the keys. */
  lemma KeptLinesCounted(keys: seq<string>)
    ensures var tally := TallyOf(keys);
      var r := SliceTo(SortDesc(Insights(tally), CountKey), 5);
      && (forall j :: 0 <= j < |tally| ==> tally[j].count == multiset(keys)[tally[j].key])
      && (forall i :: 0 <= i < |r| ==> r[i] in Insights(tally))
  {
    var tally := TallyOf(keys);
    SortMembers(Insights(tally), CountKey);
    TallySpec(keys);
    forall j | 0 <= j < |tally| ensures tally[j].count == multiset(keys)[tally[j].key] {
      CountOfEntry(tally, j);
    }
  }

  /** Each line kept for a section names a field of the section and counts
      between 1 and the cohort size. */
  lemma KeptLinesInSection(items: seq<G.VideoAggregate>, c: Category)
    ensures var r := CategoryInsights(items, c);
      forall i :: 0 <= i < |r| ==> 1 <= r[i].count <= |items| && r[i].field in TagFields(c)
  {
    var ins := Insights(TallyOf(CohortKeys(items, c)));
    var r := CategoryInsights(items, c);
    SortMembers(ins, CountKey);
    forall i | 0 <= i < |r| ensures 1 <= r[i].count <= |items| && r[i].field in TagFields(c) {
      var j :| 0 <= j < |ins| && ins[j] == r[i];
      InsightLineSpec(items, c, j);
    }
  }

  /** A section has no line exactly when no video of the cohort sets one of
      its fields. */
  lemma NoLinesIffNoKeys(items: seq<G.VideoAggregate>, c: Category)
    ensures CategoryInsights(items, c) == [] <==> forall i :: 0 <= i < |items| ==> ItemKeys(items[i], c) == []
  {
    var keys := CohortKeys(items, c);
    CohortKeysEmpty(items, c);
    if keys != [] {
      TallySpec(keys);
      assert keys[0] in TallyKeys(TallyOf(keys));
    }
  }

  /** The lines kept from a record run by non-increasing count. */
  lemma KeptLinesSorted(tally: seq<TagCount>)
    ensures var r := SliceTo(SortDesc(Insights(tally), CountKey), 5);
      && |r| == (if |tally| < 5 then |tally| else 5)
      && forall i, j :: 0 <= i < j < |r| ==> r[i].count >= r[j].count
  {
    var sorted := SortDesc(Insights(tally), CountKey);
    var r := SliceTo(sorted, 5);
    SortIsSorted(Insights(tally), CountKey);
    forall i, j | 0 <= i < j < |r| ensures r[i].count >= r[j].count {
      assert CountKey(sorted[i]) >= CountKey(sorted[j]);
    }
  }

  /** Ranking a record keeps lines of the record, any entry whose line is
      not kept counts no more than the fifth line kept, and of the lines
      sharing a count it keeps those first in the record. */
  lemma KeptLinesAreTop(tally: seq<TagCount>)
    ensures var r := SliceTo(SortDesc(Insights(tally), CountKey), 5);
      && multiset(r) <= multiset(Insights(tally))
      && (forall j :: 0 <= j < |tally| && ToInsight(tally[j]) !in r ==> |r| == 5 && tally[j].count <= r[4].count)
      && (forall v :: KeyFilter(r, CountKey, v) <= KeyFilter(Insights(tally), CountKey, v))
  {
    var ins := Insights(tally);
    var r := SliceTo(SortDesc(ins, CountKey), 5);
    TopOfSorted(ins, CountKey, 5);
    PrefixKeepsFirstTies(ins, CountKey, |r|);
    forall j | 0 <= j < |tally| && ToInsight(tally[j]) !in r ensures |r| == 5 && tally[j].count <= r[4].count {
      assert ins[j] !in r;
    }
  }

  /** The insights of a section: at most five lines, by non-increasing
      count; each line is the split of a counted key together with the
      number of times that key occurs in the cohort; the lines kept are the
      most frequent ones, so that a key left out counts no more than the
      fifth line and fewer than five lines means no key was left out; the
      record lists keys in the order of their first visit, and of the lines
      sharing a count those first in the record are kept; each
      count lies between 1 and the cohort size; each line names a field of
      the section; and the list is empty exactly when no video of the
      cohort has a field of the section set. */
  lemma CategoryInsightsSpec(items: seq<G.VideoAggregate>, c: Category)
    ensures var r := CategoryInsights(items, c);
      var keys := CohortKeys(items, c);
      var tally := TallyOf(keys);
      && |r| == (if |tally| < 5 then |tally| else 5)
      && (forall i, j :: 0 <= i < j < |r| ==> r[i].count >= r[j].count)
      && (forall j :: 0 <= j < |tally| ==> tally[j].count == multiset(keys)[tally[j].key])
      && (forall i :: 0 <= i < |r| ==> r[i] in Insights(tally))
      && multiset(r) <= multiset(Insights(tally))
      && (forall j :: 0 <= j < |tally| && ToInsight(tally[j]) !in r ==> |r| == 5 && tally[j].count <= r[4].count)
      && TallyKeys(tally) == Dedup(keys)
      && (forall v :: KeyFilter(r, CountKey, v) <= KeyFilter(Insights(tally), CountKey, v))
      && (forall i :: 0 <= i < |r| ==> 1 <= r[i].count <= |items|)
      && (forall i :: 0 <= i < |r| ==> r[i].field in TagFields(c))
      && (r == [] <==> forall i :: 0 <= i < |items| ==> ItemKeys(items[i], c) == [])
  {
    var keys := CohortKeys(items, c);
    var tally := TallyOf(keys);
    KeptLinesSorted(tally);
    KeptLinesCounted(keys);
    KeptLinesAreTop(tally);
    TallyKeysInFirstOrder(keys);
    KeptLinesInSection(items, c);
    NoLinesIffNoKeys(items, c);
  }

  /** The insights of the four sections. */
  datatype SectionInsights = SectionInsights(
    basic: seq<TagInsight>,
    content: seq<TagInsight>,
    editing: seq<TagInsight>,
    strategy: seq<TagInsight>)

  function TagInsightsOf(items: seq<G.VideoAggregate>): SectionInsights {
    SectionInsights(
      CategoryInsights(items, Basic), CategoryInsights(items, Content),
      CategoryInsights(items, Editing), CategoryInsights(items, Strategy))
  }

  /** `buildTagInsights`: `buildCategory` for each section. */
  method BuildTagInsights(items: seq<G.VideoAggregate>) returns (r: SectionInsights)
    ensures r == TagInsightsOf(items)
  {
    var basic := BuildCategory(items, Basic);
    var content := BuildCategory(items, Content);
    var editing := BuildCategory(items, Editing);
    var strategy := BuildCategory(items, Strategy);
    r := SectionInsights(basic, content, editing, strategy);
  }

  /** An empty cohort, or one whose videos have no analysis tags, gives no
      insight in any section. */
  lemma NoTagsNoInsights(items: seq<G.VideoAggregate>)
    requires forall i :: 0 <= i < |items| ==> items[i].video.analysisTags.None?
    ensures TagInsightsOf(items) == SectionInsights([], [], [], [])
  {
    CategoryInsightsSpec(items, Basic);
    CategoryInsightsSpec(items, Content);
    CategoryInsightsSpec(items, Editing);
    CategoryInsightsSpec(items, Strategy);
  }
}

=== FILE: timepoints.dfy ===
/** The early-growth chart shared by the dashboard hero section and the
    analysis comparison chart: a video's metric snapshots snapped to a fixed
    grid of hours after posting, the per-hour average over the benchmark
    videos, and the latest hour at which both can be compared. */
module Timepoints {
  import opened Js

  /** `TIME_POINTS`: the grid, in hours after posting. */
  const TimePoints: seq<int> := [0, 3, 6, 12, 24, 48, 72]

  /** A point takes a value only from a snapshot at most this many hours
      away from it. */
  const Window: int := 3

  /** One entry of a video's `metrics_logs`. `fetched` says whether
      `fetched_at` is truthy; `diffHours` is `differenceInHours(fetched_at,
      posted_at)`, None when either date is invalid (NaN); `metrics` holds
      the entry's fields by column name. */
  datatype ChartLog = ChartLog(fetched: bool, diffHours: Option<int>, metrics: map<string, JsNumber>)

  /** A video as the charts read it: whether `posted_at` is truthy, and its
      `metrics_logs`, None when that is not an array. */
  datatype ChartVideo = ChartVideo(posted: bool, logs: Option<seq<ChartLog>>)

  /** A usable snapshot: its hours after posting and the metric's value. */
  datatype Sample = Sample(diffHours: int, value: real)

  /** `Number(log?.[metricKey] ?? 0) || 0`: a missing, null or non-numeric
      value reads as 0. */
  function MetricValue(log: ChartLog, metricKey: string): (v: real)
    ensures metricKey !in log.metrics ==> v == 0.0
    ensures metricKey in log.metrics && !log.metrics[metricKey].Finite? ==> v == 0.0
  {
    if metricKey in log.metrics && log.metrics[metricKey].Finite? then log.metrics[metricKey].value else 0.0
  }

  /** A log survives both filters: `fetched_at` is set and the hour
      difference is a number that is not negative. */
  predicate Usable(log: ChartLog) {
    log.fetched && log.diffHours.Some? && log.diffHours.value >= 0
  }

  function SampleOf(log: ChartLog, metricKey: string): Sample
    requires Usable(log)
  {
    Sample(log.diffHours.value, MetricValue(log, metricKey))
  }

  /** `metrics_logs.filter(fetched_at).map(...).filter(diffHours >= 0)`:
      the samples of the usable logs, in log order. */
  function Samples(logs: seq<ChartLog>, metricKey: string): (r: seq<Sample>)
    ensures |r| <= |logs|
    ensures forall j :: 0 <= j < |r| ==> r[j].diffHours >= 0
    ensures forall i :: 0 <= i < |logs| && Usable(logs[i]) ==> SampleOf(logs[i], metricKey) in r
    ensures forall s :: s in r ==> exists i :: 0 <= i < |logs| && Usable(logs[i]) && s == SampleOf(logs[i], metricKey)
    decreases |logs|
  {
    if logs == [] then []
    else
      var rest := Samples(logs[1..], metricKey);
      assert forall i :: 1 <= i < |logs| ==> logs[i] == logs[1..][i - 1];
      if Usable(logs[0]) then [SampleOf(logs[0], metricKey)] + rest else rest
  }

  /** The filters work log by log and keep log order: the samples of
      a + b are those of a followed by those of b. */
  lemma {:induction false} SamplesAppend(a: seq<ChartLog>, b: seq<ChartLog>, metricKey: string)
    ensures Samples(a + b, metricKey) == Samples(a, metricKey) + Samples(b, metricKey)
    decreases |a|
  {
    if a == [] {
      assert a + b == b;
    } else {
      var t := a[1..];
      SamplesAppend(t, b, metricKey);
      assert (a + b)[1..] == t + b;
      var st, sb := Samples(t, metricKey), Samples(b, metricKey);
      if Usable(a[0]) {
        var x := SampleOf(a[0], metricKey);
        calc {
          Samples(a + b, metricKey);
          [x] + Samples(t + b, metricKey);
          [x] + (st + sb);
          ([x] + st) + sb;
          Samples(a, metricKey) + sb;
        }
      } else {
        calc {
          Samples(a + b, metricKey);
          Samples(t + b, metricKey);
          st + sb;
          Samples(a, metricKey) + sb;
        }
      }
    }
  }

  /** One log gives a sample exactly when it is usable. */
  lemma SamplesSingleton(log: ChartLog, metricKey: string)
    ensures Samples([log], metricKey) == if Usable(log) then [SampleOf(log, metricKey)] else []
  {
    assert [log][1..] == [];
  }

  /** `Math.abs(point - diffHours)`. */
  function Distance(point: int, s: Sample): nat {
    if point >= s.diffHours then point - s.diffHours else s.diffHours - point
  }

  predicate Near(point: int, s: Sample) {
    Distance(point, s) <= Window
  }

  /** The index the scan keeps: a sample within the window replaces the
      kept one only when it is strictly closer. */
  function NearestIndex(point: int, samples: seq<Sample>): (k: Option<nat>)
    ensures k.Some? ==> k.value < |samples|
    decreases |samples|
  {
    if samples == [] then None
    else
      var prev := NearestIndex(point, samples[..|samples| - 1]);
      var last := |samples| - 1;
      if Near(point, samples[last]) && (prev.None? || Distance(point, samples[last]) < Distance(point, samples[prev.value]))
      then Some(last)
      else prev
  }

  /** Sample k is within the window, no sample is closer, and every earlier
      sample is strictly farther: k is the first of the closest. */
  predicate IsFirstNearest(point: int, samples: seq<Sample>, k: nat) {
    && k < |samples|
    && Near(point, samples[k])
    && (forall j :: 0 <= j < |samples| ==> Distance(point, samples[k]) <= Distance(point, samples[j]))
    && (forall j :: 0 <= j < k ==> Distance(point, samples[k]) < Distance(point, samples[j]))
  }

  /** The scan keeps nothing exactly when no sample is within the window,
      and otherwise it keeps the first of the closest samples. */
  lemma {:induction false} NearestIndexSpec(point: int, samples: seq<Sample>)
    ensures NearestIndex(point, samples).None? <==> forall j :: 0 <= j < |samples| ==> !Near(point, samples[j])
    ensures NearestIndex(point, samples).Some? ==> IsFirstNearest(point, samples, NearestIndex(point, samples).value)
    decreases |samples|
  {
    if samples != [] {
      var init := samples[..|samples| - 1];
      NearestIndexSpec(point, init);
      assert forall j :: 0 <= j < |init| ==> init[j] == samples[j];
    }
  }

  /** At most one index is the first of the closest. */
  lemma FirstNearestUnique(point: int, samples: seq<Sample>, k1: nat, k2: nat)
    requires IsFirstNearest(point, samples, k1) && IsFirstNearest(point, samples, k2)
    ensures k1 == k2
  {
  }

  /** The scan keeps exactly the first of the closest samples. */
  lemma NearestIndexIff(point: int, samples: seq<Sample>, k: nat)
    ensures NearestIndex(point, samples) == Some(k) <==> IsFirstNearest(point, samples, k)
  {
    NearestIndexSpec(point, samples);
    if IsFirstNearest(point, samples, k) {
      assert Near(point, samples[k]);
      FirstNearestUnique(point, samples, k, NearestIndex(point, samples).value);
    }
  }

  /** The value a point takes from the samples: that of the kept sample. */
  function NearestValue(point: int, samples: seq<Sample>): Option<real> {
    match NearestIndex(point, samples)
    case None => None
    case Some(k) => Some(samples[k].value)
  }

  /** The sample the scan is holding: its distance and value. */
  datatype Closest = Closest(diff: int, value: real)

  /** The inner `logs.forEach` for one point. */
  method SnapToPoint(point: int, samples: seq<Sample>) returns (value: Option<real>)
    ensures value == NearestValue(point, samples)
  {
    var closest: Option<Closest> := None;
    var i := 0;
    while i < |samples|
      invariant 0 <= i <= |samples|
      invariant closest.None? <==> NearestIndex(point, samples[..i]).None?
      invariant closest.Some? ==>
        var k := NearestIndex(point, samples[..i]).value;
        closest.value == Closest(Distance(point, samples[k]), samples[k].value)
    {
      var diff := point - samples[i].diffHours;
      if diff < 0 {
        diff := -diff;
      }
      assert samples[..i + 1][..i] == samples[..i];
      if diff <= Window && (closest.None? || diff < closest.value.diff) {
        closest := Some(Closest(diff, samples[i].value));
      }
      i := i + 1;
    }
    assert samples[..|samples|] == samples;
    value := if closest.Some? then Some(closest.value.value) else None;
  }

  /** What `buildTimepointMetrics` records at a point: null for a missing
      video, an unset `posted_at` or `metrics_logs` that is not an array,
      else the nearest sample's value. */
  function PointValue(video: Option<ChartVideo>, metricKey: string, point: int): Option<real> {
    if video.None? || !video.value.posted || video.value.logs.None? then None
    else NearestValue(point, Samples(video.value.logs.value, metricKey))
  }

  /** The record `buildTimepointMetrics` returns, keyed by hour. */
  function TimepointMetricsOf(video: Option<ChartVideo>, metricKey: string): map<int, Option<real>> {
    map p | p in TimePoints :: PointValue(video, metricKey, p)
  }

  /** A point takes a value only from a usable log within the window, and
      takes one whenever some usable log is within the window. */
  lemma PointValueSpec(video: ChartVideo, metricKey: string, point: int)
    requires video.posted && video.logs.Some?
    ensures PointValue(Some(video), metricKey, point).None? <==>
      forall j :: 0 <= j < |Samples(video.logs.value, metricKey)| ==> !Near(point, Samples(video.logs.value, metricKey)[j])
    ensures PointValue(Some(video), metricKey, point).Some? ==>
      exists k: nat :: IsFirstNearest(point, Samples(video.logs.value, metricKey), k)
        && PointValue(Some(video), metricKey, point) == Some(Samples(video.logs.value, metricKey)[k].value)
  {
    var samples := Samples(video.logs.value, metricKey);
    var value := PointValue(Some(video), metricKey, point);
    assert value == NearestValue(point, samples);
    NearestValueSpec(point, samples);
  }

  /** The value of the kept sample: none exactly when no sample is within
      the window, else the value of the first of the closest samples. */
  lemma NearestValueSpec(point: int, samples: seq<Sample>)
    ensures NearestValue(point, samples).None? <==> forall j :: 0 <= j < |samples| ==> !Near(point, samples[j])
    ensures NearestValue(point, samples).Some? ==>
      exists k: nat :: IsFirstNearest(point, samples, k) && NearestValue(point, samples) == Some(samples[k].value)
  {
    NearestIndexSpec(point, samples);
    if NearestIndex(point, samples).Some? {
      var k := NearestIndex(point, samples).value;
      assert IsFirstNearest(point, samples, k) && NearestValue(point, samples) == Some(samples[k].value);
    }
  }

  /** The `baseline` record: every grid hour null. */
  method NullBaseline() returns (baseline: map<int, Option<real>>)
    ensures forall p :: p in baseline <==> p in TimePoints
    ensures forall p :: p in baseline ==> baseline[p] == None
  {
    baseline := map[];
    var n := 0;
    while n < |TimePoints|
      invariant 0 <= n <= |TimePoints|
      invariant forall p :: p in baseline <==> p in TimePoints[..n]
      invariant forall p :: p in baseline ==> baseline[p] == None
    {
      assert TimePoints[..n + 1] == TimePoints[..n] + [TimePoints[n]];
      baseline := baseline[TimePoints[n] := None];
      n := n + 1;
    }
    assert TimePoints[..n] == TimePoints;
  }

  /** The outer `TIME_POINTS.forEach`: each grid hour takes the value of
      its nearest sample. */
  method SnapAll(baseline: map<int, Option<real>>, samples: seq<Sample>) returns (snapped: map<int, Option<real>>)
    requires forall p :: p in baseline <==> p in TimePoints
    ensures forall p :: p in snapped <==> p in TimePoints
    ensures forall p :: p in snapped ==> snapped[p] == NearestValue(p, samples)
  {
    snapped := baseline;
    var n := 0;
    while n < |TimePoints|
      invariant 0 <= n <= |TimePoints|
      invariant forall p :: p in snapped <==> p in TimePoints
      invariant forall p :: p in TimePoints[..n] ==> snapped[p] == NearestValue(p, samples)
    {
      var point := TimePoints[n];
      var value := SnapToPoint(point, samples);
      assert TimePoints[..n + 1] == TimePoints[..n] + [point];
      snapped := snapped[point := value];
      n := n + 1;
    }
    assert TimePoints[..n] == TimePoints;
  }

  /** `buildTimepointMetrics`: every grid hour starts null; when the video
      has a posting date and a log array, each hour takes its nearest
      sample's value. */
  method BuildTimepointMetrics(video: Option<ChartVideo>, metricKey: string) returns (baseline: map<int, Option<real>>)
    ensures forall p :: p in baseline <==> p in TimePoints
    ensures forall p :: p in baseline ==> baseline[p] == PointValue(video, metricKey, p)
    ensures baseline == TimepointMetricsOf(video, metricKey)
  {
    baseline := NullBaseline();
    if video.None? || !video.value.posted || video.value.logs.None? {
      assert forall p :: p in baseline <==> p in TimepointMetricsOf(video, metricKey);
      return;
    }
    var samples := Samples(video.value.logs.value, metricKey);
    baseline := SnapAll(baseline, samples);
    assert forall p :: p in baseline <==> p in TimepointMetricsOf(video, metricKey);
  }

  /** `metrics[hour]` where it is a number. */
  function ValueAt(metrics: map<int, Option<real>>, hour: int): Option<real> {
    if hour in metrics then metrics[hour] else None
  }

  /** How many of the records have a number at the hour. */
  function CountAt(ms: seq<map<int, Option<real>>>, hour: int): (c: nat)
    ensures c <= |ms|
    decreases |ms|
  {
    if ms == [] then 0
    else CountAt(ms[..|ms| - 1], hour) + (if ValueAt(ms[|ms| - 1], hour).Some? then 1 else 0)
  }

  /** The sum of the numbers the records have at the hour. */
  function SumAt(ms: seq<map<int, Option<real>>>, hour: int): real
    decreases |ms|
  {
    if ms == [] then 0.0
    else SumAt(ms[..|ms| - 1], hour) + ValueAt(ms[|ms| - 1], hour).GetOr(0.0)
  }

  /** `count > 0 ? Math.round(sum / count) : null`. */
  function AverageAt(ms: seq<map<int, Option<real>>>, hour: int): Option<int> {
    var count := CountAt(ms, hour);
    if count == 0 then None else Some(Round(SumAt(ms, hour) / count as real))
  }

  /** The per-hour `forEach` that accumulates `sum` and `count`. */
  method HourAverage(ms: seq<map<int, Option<real>>>, hour: int) returns (average: Option<int>)
    ensures average == AverageAt(ms, hour)
  {
    var sum := 0.0;
    var count := 0;
    var i := 0;
    while i < |ms|
      invariant 0 <= i <= |ms|
      invariant sum == SumAt(ms[..i], hour) && count == CountAt(ms[..i], hour)
    {
      var value := ValueAt(ms[i], hour);
      assert ms[..i + 1][..i] == ms[..i];
      if value.Some? {
        sum := sum + value.value;
        count := count + 1;
      }
      i := i + 1;
    }
    assert ms[..|ms|] == ms;
    average := if count > 0 then Some(Round(sum / count as real)) else None;
  }

  /** The count is zero exactly when no record has a number at the hour. */
  lemma {:induction false} CountAtZero(ms: seq<map<int, Option<real>>>, hour: int)
    ensures CountAt(ms, hour) == 0 <==> forall i :: 0 <= i < |ms| ==> ValueAt(ms[i], hour).None?
    decreases |ms|
  {
    if ms != [] {
      var init := ms[..|ms| - 1];
      CountAtZero(init, hour);
      assert forall i :: 0 <= i < |init| ==> init[i] == ms[i];
    }
  }

  /** A sum of count values that are all at least lo is at least
      count*lo. */
  lemma {:induction false} SumAtLower(ms: seq<map<int, Option<real>>>, hour: int, lo: real)
    requires forall i :: 0 <= i < |ms| && ValueAt(ms[i], hour).Some? ==> lo <= ValueAt(ms[i], hour).value
    ensures CountAt(ms, hour) as real * lo <= SumAt(ms, hour)
    decreases |ms|
  {
    if ms != [] {
      var init := ms[..|ms| - 1];
      var v := ValueAt(ms[|ms| - 1], hour);
      forall i | 0 <= i < |init| && ValueAt(init[i], hour).Some?
        ensures lo <= ValueAt(init[i], hour).value
      {
        assert init[i] == ms[i];
      }
      SumAtLower(init, hour, lo);
      if v.Some? {
        StepLower(CountAt(init, hour) as real, SumAt(init, hour), v.value, lo);
      }
    }
  }

  /** A sum of count values that are all at most hi is at most count*hi. */
  lemma {:induction false} SumAtUpper(ms: seq<map<int, Option<real>>>, hour: int, hi: real)
    requires forall i :: 0 <= i < |ms| && ValueAt(ms[i], hour).Some? ==> ValueAt(ms[i], hour).value <= hi
    ensures SumAt(ms, hour) <= CountAt(ms, hour) as real * hi
    decreases |ms|
  {
    if ms != [] {
      var init := ms[..|ms| - 1];
      var v := ValueAt(ms[|ms| - 1], hour);
      forall i | 0 <= i < |init| && ValueAt(init[i], hour).Some?
        ensures ValueAt(init[i], hour).value <= hi
      {
        assert init[i] == ms[i];
      }
      SumAtUpper(init, hour, hi);
      if v.Some? {
        StepLower(CountAt(init, hour) as real, -SumAt(init, hour), -v.value, -hi);
      }
    }
  }

  /** One more value of at least lo keeps the sum at least (count+1)*lo. */
  lemma StepLower(c: real, s: real, x: real, lo: real)
    requires c * lo <= s && lo <= x
    ensures (c + 1.0) * lo <= s + x
  {
    assert (c + 1.0) * lo == c * lo + lo;
  }

  /** The average is null exactly when no benchmark has a number at the
      hour, and otherwise lies within half a unit of the range of those
      numbers. */
  lemma AverageAtSpec(ms: seq<map<int, Option<real>>>, hour: int, lo: real, hi: real)
    requires forall i :: 0 <= i < |ms| && ValueAt(ms[i], hour).Some? ==> lo <= ValueAt(ms[i], hour).value <= hi
    ensures AverageAt(ms, hour).None? <==> forall i :: 0 <= i < |ms| ==> ValueAt(ms[i], hour).None?
    ensures AverageAt(ms, hour).Some? ==> lo - 1.0 / 2.0 < AverageAt(ms, hour).value as real <= hi + 1.0 / 2.0
  {
    CountAtZero(ms, hour);
    var count := CountAt(ms, hour);
    if count > 0 {
      SumAtLower(ms, hour, lo);
      SumAtUpper(ms, hour, hi);
      MeanBounds(SumAt(ms, hour), count as real, lo, hi);
    }
  }

  /** One entry of `chartData`. */
  datatype ChartPoint = ChartPoint(hour: int, target: Option<real>, average: Option<int>)

  function ChartPointAt(targetMetrics: map<int, Option<real>>, benchmarkMetrics: seq<map<int, Option<real>>>,
                        hour: int): ChartPoint
  {
    ChartPoint(hour, ValueAt(targetMetrics, hour), AverageAt(benchmarkMetrics, hour))
  }

  /** `TIME_POINTS.map(...)`: one point per grid hour with the target's
      value and the benchmark average. */
  method BuildChartData(targetMetrics: map<int, Option<real>>, benchmarkMetrics: seq<map<int, Option<real>>>)
    returns (data: seq<ChartPoint>)
    ensures |data| == |TimePoints|
    ensures forall i :: 0 <= i < |data| ==> data[i] == ChartPointAt(targetMetrics, benchmarkMetrics, TimePoints[i])
  {
    data := [];
    var n := 0;
    while n < |TimePoints|
      invariant 0 <= n <= |TimePoints| && |data| == n
      invariant forall i :: 0 <= i < n ==> data[i] == ChartPointAt(targetMetrics, benchmarkMetrics, TimePoints[i])
    {
      var hour := TimePoints[n];
      var average := HourAverage(benchmarkMetrics, hour);
      data := data + [ChartPoint(hour, ValueAt(targetMetrics, hour), average)];
      n := n + 1;
    }
  }

  /** Both the target and the average are numbers. */
  predicate Comparable(p: ChartPoint) {
    p.target.Some? && p.average.Some?
  }

  /** The last index whose point is comparable. */
  function LatestIndex(data: seq<ChartPoint>): (k: Option<nat>)
    ensures k.None? <==> forall j :: 0 <= j < |data| ==> !Comparable(data[j])
    ensures k.Some? ==>
      && k.value < |data| && Comparable(data[k.value])
      && forall j :: k.value < j < |data| ==> !Comparable(data[j])
    decreases |data|
  {
    if data == [] then None
    else if Comparable(data[|data| - 1]) then Some(|data| - 1)
    else
      var init := data[..|data| - 1];
      assert forall j :: 0 <= j < |init| ==> init[j] == data[j];
      LatestIndex(init)
  }

  /** `[...data].reverse().find(...)`: the last comparable point. */
  function LatestComparison(data: seq<ChartPoint>): Option<ChartPoint> {
    match LatestIndex(data)
    case None => None
    case Some(k) => Some(data[k])
  }

  /** What the charts' `useMemo` yields: the target video, the chart
      data, the latest comparable point and the number of benchmark videos. */
  datatype ChartView = ChartView(target: Option<ChartVideo>, data: seq<ChartPoint>, latest: Option<ChartPoint>,
                                 benchmarkCount: nat)

  /** `videos?.[0]`. */
  function Target(videos: seq<ChartVideo>): Option<ChartVideo> {
    if videos == [] then None else Some(videos[0])
  }

  /** `videos.slice(1)`. */
  function BenchmarkVideos(videos: seq<ChartVideo>): seq<ChartVideo> {
    if videos == [] then [] else videos[1..]
  }

  /** The benchmark videos' timepoint records. */
  function BenchmarkMetrics(videos: seq<ChartVideo>, metricKey: string): (ms: seq<map<int, Option<real>>>)
    ensures |ms| == |BenchmarkVideos(videos)|
  {
    var bench := BenchmarkVideos(videos);
    seq(|bench|, i requires 0 <= i < |bench| => TimepointMetricsOf(Some(bench[i]), metricKey))
  }

  function ChartViewOf(videos: seq<ChartVideo>, metricKey: string): ChartView {
    var targetMetrics := TimepointMetricsOf(Target(videos), metricKey);
    var benchmarkMetrics := BenchmarkMetrics(videos, metricKey);
    var data := seq(|TimePoints|, i requires 0 <= i < |TimePoints| =>
                      ChartPointAt(targetMetrics, benchmarkMetrics, TimePoints[i]));
    ChartView(Target(videos), data, LatestComparison(data), |BenchmarkVideos(videos)|)
  }

  /** `benchmarkVideos.map(...)`: the timepoint record of each video. */
  method BuildBenchmarkMetrics(bench: seq<ChartVideo>, metricKey: string) returns (ms: seq<map<int, Option<real>>>)
    ensures |ms| == |bench|
    ensures forall j :: 0 <= j < |bench| ==> ms[j] == TimepointMetricsOf(Some(bench[j]), metricKey)
  {
    ms := [];
    var i := 0;
    while i < |bench|
      invariant 0 <= i <= |bench| && |ms| == i
      invariant forall j :: 0 <= j < i ==> ms[j] == TimepointMetricsOf(Some(bench[j]), metricKey)
    {
      var metrics := BuildTimepointMetrics(Some(bench[i]), metricKey);
      ms := ms + [metrics];
      i := i + 1;
    }
  }

  /** The charts' `useMemo`, step by step. */
  method ChartMemo(videos: seq<ChartVideo>, metricKey: string) returns (view: ChartView)
    ensures view == ChartViewOf(videos, metricKey)
  {
    var target := if |videos| > 0 then Some(videos[0]) else None;
    var benchmarkVideos := if |videos| > 0 then videos[1..] else [];
    var targetMetrics := BuildTimepointMetrics(target, metricKey);
    var benchmarkMetrics := BuildBenchmarkMetrics(benchmarkVideos, metricKey);
    assert benchmarkMetrics == BenchmarkMetrics(videos, metricKey);
    var data := BuildChartData(targetMetrics, benchmarkMetrics);
    view := ChartView(target, data, LatestComparison(data), |benchmarkVideos|);
  }

  /** The average at a grid hour is null exactly when no benchmark video
      (every video after the first) has a value at that hour. */
  lemma AverageNullIff(videos: seq<ChartVideo>, metricKey: string, i: nat)
    requires i < |TimePoints|
    ensures ChartViewOf(videos, metricKey).data[i].average.None? <==>
      forall j :: 1 <= j < |videos| ==> PointValue(Some(videos[j]), metricKey, TimePoints[i]).None?
  {
    ChartAverageAt(videos, metricKey, i);
    BenchmarkAverageNullIff(videos, metricKey, i);
  }

  /** A chart point's average is the benchmark records' average at its hour. */
  lemma ChartAverageAt(videos: seq<ChartVideo>, metricKey: string, i: nat)
    requires i < |TimePoints|
    ensures ChartViewOf(videos, metricKey).data[i].average == AverageAt(BenchmarkMetrics(videos, metricKey), TimePoints[i])
  {
  }

  lemma BenchmarkAverageNullIff(videos: seq<ChartVideo>, metricKey: string, i: nat)
    requires i < |TimePoints|
    ensures AverageAt(BenchmarkMetrics(videos, metricKey), TimePoints[i]).None? <==>
      forall j :: 1 <= j < |videos| ==> PointValue(Some(videos[j]), metricKey, TimePoints[i]).None?
  {
    var ms := BenchmarkMetrics(videos, metricKey);
    var hour := TimePoints[i];
    CountAtZero(ms, hour);
    if CountAt(ms, hour) == 0 {
      forall j | 1 <= j < |videos| ensures PointValue(Some(videos[j]), metricKey, hour).None? {
        BenchmarkValueAt(videos, metricKey, j - 1, i);
      }
    }
    if forall j :: 1 <= j < |videos| ==> PointValue(Some(videos[j]), metricKey, hour).None? {
      forall j | 0 <= j < |ms| ensures ValueAt(ms[j], hour).None? {
        BenchmarkValueAt(videos, metricKey, j, i);
        assert PointValue(Some(videos[j + 1]), metricKey, hour).None?;
      }
    }
  }

  /** The benchmark record of the video after the target reads its
      timepoint value at a grid hour. */
  lemma BenchmarkValueAt(videos: seq<ChartVideo>, metricKey: string, j: nat, i: nat)
    requires j < |BenchmarkVideos(videos)| && i < |TimePoints|
    ensures ValueAt(BenchmarkMetrics(videos, metricKey)[j], TimePoints[i]) == PointValue(Some(videos[j + 1]), metricKey, TimePoints[i])
  {
    assert BenchmarkVideos(videos)[j] == videos[j + 1];
    assert TimePoints[i] in TimePoints;
  }

  /** The chart has one point per grid hour, in grid order, carrying the
      target's timepoint value; the benchmark count is max(0, n - 1); the
      latest comparison is a point of the chart with both numbers, is
      absent only when no point has both, and exists only when there are
      benchmark videos. */
  lemma ChartViewSpec(videos: seq<ChartVideo>, metricKey: string)
    ensures var view := ChartViewOf(videos, metricKey);
      && |view.data| == |TimePoints|
      && view.benchmarkCount == (if |videos| == 0 then 0 else |videos| - 1)
      && (forall i :: 0 <= i < |TimePoints| ==>
            view.data[i].hour == TimePoints[i] && view.data[i].target == PointValue(Target(videos), metricKey, TimePoints[i]))
      && (view.latest.Some? ==> Comparable(view.latest.value) && view.latest.value in view.data)
      && (view.latest.None? <==> forall i :: 0 <= i < |view.data| ==> !Comparable(view.data[i]))
      && (view.latest.Some? ==> view.benchmarkCount > 0)
  {
    var view := ChartViewOf(videos, metricKey);
    if view.latest.Some? {
      var k := LatestIndex(view.data).value;
      CountAtZero(BenchmarkMetrics(videos, metricKey), TimePoints[k]);
    }
  }
}
